=== FILE: README.md ===
# SunStarDB core in Dafny

A model of the logic at the centre of SunStarDB, a PostgreSQL database of
stellar properties, together with proofs about that logic. The model
covers:

- the schema-template parser that gives each property kind its
  `CREATE TABLE` template;
- the required-key guard on every write operation;
- the preparation of a property record for insertion: id resolution, null
  filling, and percent-error, symmetric-error and error-bound
  normalisation;
- the star-identifier helpers (SIMBAD id splitting and stripping, id-type
  preference, the SIMBAD id fold, the rows `insert_star` writes);
- the read side as an abstract catalogue (`fetch_row`, `fetch_star`,
  `fetch_source` version filtering);
- the write side as an abstract store: adding and dropping property types,
  inserting properties and dispatching their MEASURE or LABEL data rows,
  and the completeness check `check_exists_all_stars`;
- the N-way join of `fetch_data_table` and its transpose
  `fetch_data_cols`;
- the result-shaping helpers of the `Database` base class (`fetchall`,
  `scalar`, `list_to_columns`, `dict_`, `clean_binds`, `rowsize`,
  `build_filter`);
- the pure parts of the data-package readers (`byteparse`, `stripstr`, the
  JSON reader's tagging and defaults, the `info.json` extras and PAPER
  copy);
- the string utilities `compress_space`, `wikiword` and the token split of
  `parse_skycoord`.

Values are a datatype mirroring the Python objects that occur
(`Values.Value`). Records, bind maps and JSON objects are
`map<string, Value>`. A result row is a sequence of (column, value) pairs
in SELECT order. Each operation returns a `Result` whose error is the
exception the code raises. A raised error carries no store, since the
caller rolls back. A table is a sequence of rows in storage order, and
`fetch_row` is the first row meeting every WHERE condition. In a WHERE
clause, NULL equals nothing.

Two behaviours of the database layer shape many contracts. First, a
`DictCursor` row read by name gives the value of the last column carrying
that name, and its `keys()` list each name once. Second, PostgreSQL folds
unquoted identifiers to lower case, so the `dat_NAME` table and the value
column of a type are those of its lower-cased name, while the `WHERE name =`
tests on `property_type` compare exactly.

The modules follow the source:

| module | file | what it models |
|---|---|---|
| `Wrappers`, `Strings`, `Values` | – | `Option`/`Result`, the Python string operations used, and the value and exception types |
| `Templates` | templates.dfy | `_set_templates` |
| `KeyGuard` | keyguard.dfy | both revisions of `db_bind_keys` |
| `Assoc` | assoc.dfy | "last assignment wins" dict building |
| `Utils` | utils.dfy | sunstardb/utils.py |
| `StarIds` | starids.dfy | SIMBAD ids, id tables, `insert_star` |
| `Catalog` | catalog.dfy | fetch methods over an abstract catalogue |
| `Prepare` | prepare.dfy | both revisions of `prepare_property` |
| `SqlHappy` | sqlhappy.dfy | sqlhappy.py helpers |
| `Store` | store.dfy | the write side, `check_exists_all_stars` |
| `DataQuery` | dataquery.dfy | `fetch_data_table`, `fetch_data_cols` |
| `DataPkg` | datapkg.dfy | sunstardb/datapkg.py |

The repository holds two revisions of the database class. The current one
is in sunstardb/database.py. The older one, in sunstardb.py, is modelled
where the two differ: the key guard, property preparation, star
insertion and star lookup. The older members carry a `Legacy` prefix.

sqlhappy.py is written for Python 3: `print(...)`, and `isinstance(v, int)`
where `long` used to be. Its `rowsize` therefore counts a numpy integer as
one byte. The other files are Python 2: `print` statements and
`except ValueError, e`. Their whitespace, `\w` and numeric tests follow
Python 2 `str` semantics.

## Model

| member | source | states |
|---|---|---|
| KeyGuard.MissingKeys | sunstardb/database.py:142-145 | the missing list holds exactly the required keys absent from the map, in declaration order (a subsequence of the declared keys), and is empty iff every required key is present |
| KeyGuard.Guard | sunstardb/database.py:146-149 | succeeds iff every required key is present, and then passes the whole map on, extra keys included; otherwise raises `DatabaseKeyError` whose missing list is exactly the absent required keys in order and whose given keys are the map's keys |
| KeyGuard.MissingIn | sunstardb/database.py:142-145 | on a string or list the missing list is exactly the required keys `in` does not find, in declaration order; a value without `in` raises `TypeError`, exactly when there is a key to test |
| KeyGuard.BindKeys | sunstardb/database.py:139-149 | a single positional argument replaces the keyword arguments: a dict is checked like them; a string or list is searched with `in` and then fails, with `AttributeError` on `kwargs.keys()` exactly when some required key is not found and with `TypeError` on `**kwargs` otherwise; a value without `in` fails with `TypeError`; on success every required key is present |
| KeyGuard.LegacyBindKeys | sunstardb.py:73-83 | a single dict positional argument is checked as the map and every other call checks the keyword arguments; the only failure is `DatabaseKeyError`; on success every required key is present |
| KeyGuard.RevisionsDifferOnScalarArg | sunstardb.py:74-75 | with one non-dict positional argument the older guard accepts complete keyword arguments, while the current one (sunstardb/database.py:140-141) fails |
| KeyGuard.BareNameFails | sunstardb/database.py:140-147 | a bare name passed positionally (`insert_star("Sun")`) is searched as a string, the key is not found, and the report fails with `AttributeError` |
| KeyGuard.StringHoldingKeysFails | sunstardb/database.py:140-149 | a string that contains every key passes the search and fails with `TypeError` when unpacked as keyword arguments |
| KeyGuard.RevisionsAgree | sunstardb.py:74-75 | the two revisions return the same result iff the call is not one with a single non-dict positional argument (sunstardb/database.py:140-141) |
| Assoc.AssocBy | sqlhappy.py:167-171 | the keys of a dict built by assignment over a list are exactly the keys of the elements that have one |
| Assoc.LastWins | sqlhappy.py:168-169 | the value stored under a key is that of its last occurrence in the list |
| Utils.CompressSpace | sunstardb/utils.py:14-15 | every maximal run of spaces becomes one space: the result keeps each character except a space that follows a space; hence it never has two adjacent spaces, is no longer than the input, starts with the same character, and has the same non-space characters (tabs included) in the same order |
| Utils.SqueezeSkipsRun | sunstardb/utils.py:15 | after a space the whole following run of spaces contributes nothing, so a run is replaced by exactly one space |
| Utils.NonSpacesLead | sunstardb/utils.py:14-15 | a leading run of spaces carries no non-space characters |
| Utils.CompressSpaceFixpoint | sunstardb/utils.py:14-15 | a string without double spaces is returned unchanged |
| Utils.CompressSpaceIdempotent | sunstardb/utils.py:14-15 | compressing twice equals compressing once |
| Utils.BlankOut | sunstardb/utils.py:19 | every character other than a word character or `-` becomes a space, the others stay |
| Utils.Title | sunstardb/utils.py:19 | title-casing keeps the length, changes only letter case and leaves every non-letter as it was; a letter ends up upper case exactly when it starts a run of letters (first position, or after a non-letter) |
| Utils.RemoveSpaces | sunstardb/utils.py:19 | the result has no space, is no longer than the input and uses only the input's characters |
| Utils.WikiWord | sunstardb/utils.py:17-19 | the result has no space, and every character is a word character or `-` |
| Utils.RemoveSpacesLower | sunstardb/utils.py:19 | removing spaces commutes with lower-casing |
| Utils.RemoveSpacesBlankOut | sunstardb/utils.py:19 | removing the spaces after blanking out leaves exactly the kept characters in order |
| Utils.WikiWordSuffix | sunstardb/utils.py:19 | from any position on, blanking out, title-casing and removing spaces produce what the one-character-at-a-time CamelCase reading produces, given whether a letter precedes that position |
| Utils.WikiWordCamelCase | sunstardb/utils.py:17-19 | `wikiword` equals an independent CamelCase reading of the input: characters outside `[\w-]` are dropped and end a word, each run of letters starts with a capital and continues in lower case, digits, `_` and `-` are copied |
| Utils.WikiWordKeepsWordChars | sunstardb/utils.py:17-19 | up to letter case, the result is exactly the word characters and hyphens of the input, in order |
| Utils.SplitSkyCoord | sunstardb/utils.py:47-54 | with `dec` given nothing changes; with two space-separated tokens they become `(ra, dec)`; with six tokens the first three and the last three are re-joined with spaces; any other count leaves the inputs unchanged; whenever a split happens, `ra + " " + dec` equals the input |
| Templates.Step | sunstardb/database.py:25-37 | an opening tag starts a fresh empty template and opens it; outside a region other lines are ignored; any closing line closes the open region; other lines are right-stripped and appended with a newline to the open template |
| Templates.ScanLines | sunstardb/database.py:25-37 | the scan never loses a template name it has seen, and the open region always has a template |
| Templates.ParseTemplates | sunstardb/database.py:20-40 | the only failure is an unclosed template, whose name is among the templates read before the failure; on success the result is exactly the templates the scan read; a document without opening tags yields no templates |
| Templates.NoTagsNoTemplatesFrom | sunstardb/database.py:27-31 | without opening tag lines every line is ignored |
| Templates.NoTagsNoTemplates | sunstardb/database.py:27-31 | without opening tag lines the scan ends with no templates and no open region |
| Templates.TemplateNamesFromTags | sunstardb/database.py:27-29 | every template name is the name of an opening tag line of the document |
| Templates.ScanAppend | sunstardb/database.py:25 | scanning two pieces of a document in turn equals scanning the whole |
| Templates.ScanBody | sunstardb/database.py:35-37 | inside a region, plain lines are appended to the open template each followed by a newline |
| Templates.ScanRegion | sunstardb/database.py:27-37 | a rendered region `<NAME>`, body, `</NAME>` sets template NAME to its body lines, each followed by a newline |
| Templates.ScanRender | sunstardb/database.py:25-37 | scanning a rendered well-formed document yields the templates it declares, a later region replacing an earlier one of the same name |
| Templates.ParseRender | sunstardb/database.py:20-40 | parsing a rendered well-formed document gives back exactly its templates |
| Templates.ParseUnclosed | sunstardb/database.py:39-40 | a document whose last region is never closed is rejected, naming that region |
| Templates.CloseIgnoresName | sunstardb/database.py:32-34 | a closing line ends the open region whatever name it carries |
| StarIds.SplitSimbadId | sunstardb/database.py:42-47 | an id splits iff it contains a space; then it is `a + " " + b` with `a` free of spaces, and the result is both halves stripped |
| StarIds.SplitSimbadIdGlue | sunstardb/database.py:42-47 | a `TYPE id` string without stray whitespace splits back into exactly its two parts |
| StarIds.StripSimbadId | sunstardb/database.py:49-55 | for the `NAME`, `*` and `**` prefixes only the id part is returned; otherwise the input comes back unchanged; an id without a space fails |
| StarIds.StripSimbadIdGlue | sunstardb/database.py:49-55 | on `TYPE id`: the bare id for the name and star prefixes, the whole string for catalogue prefixes such as `HD` |
| StarIds.ColsSimbadInverse | sunstardb.py:10-11 | `COLS2SIMBAD` and `SIMBAD2COLS` are mutual inverses |
| StarIds.FirstPresent | sunstardb.py:16-18 | the index found is the first whose key is present with a non-None value, and there is none when no key qualifies |
| StarIds.PrefIdType | sunstardb.py:14-18 | the first of `id, hd, bright, proper` present with a non-None value, and None iff there is none |
| StarIds.ExtractStar | sunstardb.py:20-29 | the result holds exactly the id-type keys present in the input, with their values (None values included); it is None iff no id-type key is present |
| StarIds.SplitAll | sunstardb.py:38-41 | every SIMBAD row is split, and the fold fails iff some row has no space |
| StarIds.LegacyIdFold | sunstardb.py:37-44 | the fold succeeds iff every row has a space, and it only fills star id columns |
| StarIds.LegacyIdFoldLastWins | sunstardb.py:42-43 | a column holds the stripped id of the last row whose type maps to it |
| StarIds.LegacyIdFoldKeys | sunstardb.py:42-43 | a column is filled iff some row's type maps to it |
| StarIds.FillStarColumns | sunstardb.py:133-135 | every `COLS2SIMBAD` column absent from the star map becomes None; present entries are unchanged; no other key is added |
| StarIds.LegacyQuery | sunstardb.py:125-126 | the SIMBAD object name is the preferred type's prefix, a space and its id; `KeyError` when there is no preferred type or it is `id` (not in `COLS2SIMBAD`), `TypeError` when the id is not a string; on success `id` itself is absent |
| StarIds.SimbadRow | sunstardb.py:127-135 | the row from SIMBAD's ids exists iff every returned id has a space (`ValueError` otherwise); it has exactly the three id columns, each holding its folded id or None |
| StarIds.FillFoldedIds | sunstardb.py:133-135 | filling the folded ids gives exactly the three id columns, a folded id where there is one and None elsewhere |
| StarIds.LegacyRowFrom | sunstardb.py:127-135 | when SIMBAD knows the object its folded ids replace the caller's map entirely; otherwise the caller's map is kept and only missing id columns are added |
| StarIds.LegacyInsertStarRow | sunstardb.py:124-135 | a failing query (`KeyError` without a usable preferred type, `TypeError` for a non-string id) is the call's error; when SIMBAD does not know the object the caller's entries are kept; when it does, the row is exactly the three id columns holding SIMBAD's folded ids or None, and the call fails iff some returned id has no space; the row always has the three id columns and no `id` |
| StarIds.InsertStar | sunstardb/database.py:244-274 | a missing `name` fails the key guard; with SIMBAD ids the star gets SIMBAD's info and exactly the returned aliases; the Sun unknown to SIMBAD gets the fixed record and alias `NAME Sun`; any other unknown object raises `NameError` on `simbad_name` |
| Catalog.FirstWhere | sqlhappy.py:276-278 | the index found is the first whose element satisfies the condition, and there is none iff no element does |
| Catalog.FetchRow | sqlhappy.py:280-291 | `fetch_row` gives None iff no row meets every condition; otherwise it gives a stored row that meets them all, with no earlier row meeting them |
| Catalog.FetchRowNarrow | sqlhappy.py:280-291 | adding conditions that the looser query's answer already meets does not change the answer |
| Catalog.FetchByName | sunstardb/database.py:166-171 | a missing `name` raises `DatabaseKeyError(['name'], ...)`; a row found has that name; None means no row has it |
| Catalog.VersionFilter | sunstardb/database.py:308-312 | a row meets the filter iff it has the version asked for: any version when no `version` is given, a NULL or absent one for None, an equal non-NULL one otherwise; no `version` key adds no condition and at most one is added |
| Catalog.SourceQuery | sunstardb/database.py:304-313 | the query fails with `DatabaseKeyError` iff the key column is missing; otherwise a row meets it iff it has that key value and the version asked for |
| Catalog.FetchSourceBy | sunstardb/database.py:304-313 | `fetch_source` keyed on `name` (keyed on `url` in the older revision, sunstardb.py:174-184): a missing key fails the key guard; a row found is stored and has that key value and the version asked for; None iff no stored row has both |
| Catalog.FetchSourceVersion | sunstardb/database.py:304-313 | without a version the search is by name alone; with one, the row found has that name and the requested version (NULL for None) |
| Catalog.FetchSourceVersionAgrees | sunstardb/database.py:308-310 | asking for the version that the name-only search finds gives the same row |
| Catalog.StarByAlias | sunstardb/database.py:229-233 | a star found is one that an alias of that name points to; None means no alias of that name points to a stored star |
| Catalog.FetchStar | sunstardb/database.py:225-234 | a missing `name` fails the key guard; a non-string name raises `TypeError`; otherwise the alias lookup uses the space-compressed name |
| Catalog.FetchStarIgnoresSpaceRuns | sunstardb/database.py:228 | a name and its space-compressed form find the same star |
| Catalog.LegacyFetchStar | sunstardb.py:115-121 | the older lookup fails iff no id type is present; a star found matches the request on the preferred id type |
| Catalog.LegacyInsertStar | sunstardb.py:124-140 | whatever row the older `insert_star` writes, its closing `fetch_star(star)` finds a stored star matching it on its preferred id type; the call fails only when the row cannot be built or has no usable id type |
| Catalog.LegacyInsertUnknownFinds | sunstardb.py:124-140 | for an object SIMBAD does not know, the older `insert_star` succeeds and finds the star it inserted |
| Catalog.CommitStar | sunstardb/database.py:261-274 | the star row is appended and read back by its compressed main id, which succeeds when that id is already compressed and every stored star has an id; every alias is appended pointing at the id read back, in the given order; the other tables are unchanged |
| Catalog.InsertedAliasesFindStar | sunstardb/database.py:225-272 | after `insert_star`, `fetch_star` finds a star under every alias SIMBAD returned (the SIMBAD lookups compress every name, lines 65 and 98) |
| Prepare.ResolveOne | sunstardb/database.py:361-367 | a supplied `id` is copied verbatim and no lookup matters; otherwise a failing lookup's error, `MissingDataError` when nothing is found, or the found row's `id` |
| Prepare.ResolveIds | sunstardb/database.py:360-406 | on success the record gains exactly the five id columns, each resolved from its entity as above, `inst_id` is None without an instrument, and every other entry is unchanged; a failing star lookup is the error raised |
| Prepare.SuppliedIdsWin | sunstardb/database.py:366-404 | with every id supplied, resolution succeeds and copies the five ids |
| Prepare.FillNulls | sunstardb/database.py:409-411 | each listed column is set to None only when absent; existing entries, None included, are untouched |
| Prepare.FillNullsIdempotent | sunstardb/database.py:409-411 | filling nulls twice equals filling once |
| Prepare.PercentError | sunstardb/database.py:416-417 | a percent error becomes `abs(val) * p / 100`; a missing `val` raises `KeyError`, a non-numeric one `TypeError`, and an unparsable percentage `ValueError` |
| Prepare.Abs | sunstardb/database.py:417 | the absolute value is non-negative and is `x` or `-x` |
| Prepare.NormaliseErr | sunstardb/database.py:414-422 | without `err` nothing changes; with `err`, `errlo == errhi ==` the (absolute) error, `err` is removed, and all other entries stay |
| Prepare.Bounds | sunstardb/database.py:426-428 | the bounds are the closed interval `[val - errlo, val + errhi]`; a missing `val` raises `KeyError` |
| Prepare.DeriveBounds | sunstardb/database.py:425-428 | `errbounds` is derived only when it is None and both `errlo` and `errhi` are set; otherwise the record is unchanged |
| Prepare.Normalise | sunstardb/database.py:408-430 | the result has no `err`, has every nullable column, and keeps every entry other than the error columns |
| Prepare.PrepareProperty | sunstardb/database.py:345-430 | the ids are resolved first, each supplied one copied and each missing one fetched (the star through `fetch_star`, the others by name), and a failed resolution is the error raised; a prepared property holds exactly the resolved ids (`inst_id` None without an instrument), every nullable column, no `err`, an error given as `err` in both `errlo` and `errhi` (a percent error as that percent of `abs(val)`), and every other entry unchanged |
| Prepare.PrepareResolved | sunstardb/database.py:408-430 | the normalisation half applied to the outcome of id resolution: a resolution error passes through; on success the ids are kept, the nullable columns are present, `err` is gone, the error is symmetric as given or as a percent of `abs(val)`, and every other entry is unchanged |
| Prepare.NormalisedErrOf | sunstardb/database.py:414-422 | the normalised error depends only on `err` and `val`, which id resolution keeps, so it can be stated on the record as passed in |
| Prepare.IdsSurviveNormalise | sunstardb/database.py:408-430 | error normalisation leaves the resolved ids alone |
| Prepare.NormaliseSymmetric | sunstardb/database.py:414-422 | with `err` given, `errlo == errhi`, both holding `err` as given (sign included), or for a percent error that percent of `abs(val)` |
| Prepare.ErrNormalisedSameErr | sunstardb/database.py:414-422 | whether a record carries the normalised error is decided by `err` and `val` alone |
| Prepare.PercentErrorReadsVal | sunstardb/database.py:417 | the percent conversion reads nothing of the record but `val` |
| Prepare.NormaliseIdempotent | sunstardb/database.py:408-430 | normalising a normalised record changes nothing |
| Prepare.TenPercentOfSolarTeff | sunstardb/database.py:414-428 | 5778 with a `10%` error gives `errlo == errhi == 577.8` and bounds `[5200.2, 6355.8]` |
| Prepare.LegacyNormalise | sunstardb.py:261-278 | a string `val` moves to `strval` and `val` becomes None; the nullable columns default to None; a non-None `err` becomes `(-err, +err)`; a missing `val` raises `KeyError`; other entries are unchanged |
| Prepare.LegacyPrepareProperty | sunstardb.py:212-278 | the ids are resolved first with the older lookups (star by preferred id type, source by url), and a failed resolution is the error raised; after them it fails iff `val` is missing (`KeyError`) or `err` is neither None nor a number; a prepared property has exactly the input keys, the ids and the older nullable columns, the resolved ids, a string `val` moved to `strval`, `err` as the range `[-err, +err)` or None, and every other entry unchanged |
| Prepare.LegacyNormaliseOk | sunstardb.py:261-278 | the older normalisation succeeds iff `val` is present and `err` is absent, None or a number |
| Prepare.LegacyNormaliseOf | sunstardb.py:212-278 | stated on the record before its ids were resolved: when the older normalisation succeeds, its key set, and that the ids and every entry it does not rewrite pass through |
| Prepare.LegacyValuesOf | sunstardb.py:261-268 | a string `val` moves to `strval` leaving `val` None; any other `val` stays, with `strval` kept or None |
| Prepare.LegacyErrOf | sunstardb.py:270-278 | a non-None `err` is a number and becomes the range `[-err, +err)`; an absent or None `err` is None |
| Prepare.RevisionsShareIds | sunstardb.py:212-259 | with the star and the source given by id, the two revisions resolve exactly the same ids (sunstardb/database.py:360-406), since those are the only lookups that differ |
| Prepare.LegacySourceMissWithoutName | sunstardb.py:232-235 | a source given by url alone that is not stored fails with `KeyError('name')` from the message, not `MissingDataError` |
| SqlHappy.Names | sqlhappy.py:174 | the column names of a row, in SELECT order |
| SqlHappy.Field | sqlhappy.py:250 | `row[name]` succeeds iff the row has a column of that name, and raises `KeyError(name)` otherwise; the value read is that of the last column carrying the name, as a `DictCursor` row keeps one position per name |
| SqlHappy.FieldRepeated | sqlhappy.py:250 | with a column name repeated, the later column's value is read |
| SqlHappy.Keys | sqlhappy.py:244 | `row.keys()` lists every column name of the row exactly once, and is the names themselves when they are already distinct |
| SqlHappy.FieldAt | sqlhappy.py:250 | with distinct column names, reading a column's name gives that column's value |
| SqlHappy.Select | sqlhappy.py:307 | `row[col]` by position succeeds iff the position exists; by name it is the named read |
| SqlHappy.FetchAll | sqlhappy.py:176-197 | no rows gives None, never an empty list; otherwise the rows come back in order; the column names are returned only when asked for (and non-empty) |
| SqlHappy.Scalar | sqlhappy.py:293-307 | None when there is no row; by position, `IndexError` iff the first row is too short and otherwise that column of the first row; by name, `KeyError(name)` iff the first row lacks the name and otherwise the value of its last column of that name |
| SqlHappy.ScalarNullAmbiguous | sqlhappy.py:303-307 | an empty result and a first row holding NULL give the same answer |
| SqlHappy.ScalarFirstRowOnly | sqlhappy.py:303-307 | rows after the first do not change the answer |
| SqlHappy.AppendRow | sunstardb/database.py:623-624 | appending one row succeeds iff the row has every listed field; the columns gain exactly the listed names and the others are unchanged |
| SqlHappy.AppendRowDistinct | sunstardb/database.py:623-624 | with distinct names each column gains exactly its own field of the row |
| SqlHappy.Transpose | sqlhappy.py:248-250 | the transpose succeeds iff every row has every listed field, and then has exactly the listed columns in addition to those it started with |
| SqlHappy.ColumnValues | sqlhappy.py:248-250 | the column has one entry per row, each that row's field |
| SqlHappy.TransposeStep | sqlhappy.py:248-250 | transposing is appending the first row, then transposing the rest |
| SqlHappy.TransposeHasField | sqlhappy.py:248-250 | a successful transpose implies every row has every listed field |
| SqlHappy.TransposeDistinct | sqlhappy.py:248-250 | with distinct names each column is its initial entries followed by the field of every row, in row order |
| SqlHappy.EmptyColumns | sqlhappy.py:246-247 | one empty column per listed name |
| SqlHappy.Columns | sqlhappy.py:244-251 | the transpose succeeds iff every row has every listed field, and its keys are exactly the listed names |
| SqlHappy.ColumnsContents | sqlhappy.py:244-251 | with distinct names every column lists its field for every row, in row order |
| SqlHappy.ListToColumns | sqlhappy.py:235-251 | None stays None; an empty list fails on `result[0]`; otherwise it succeeds iff every row has every column name of the first row, failing with `KeyError` otherwise, and the keys are exactly the first row's names |
| SqlHappy.KeysCover | sqlhappy.py:244-250 | reading the first row's keys asks every row for exactly the names the first row has, and the keys are exactly its name set |
| SqlHappy.ListToColumnsContents | sqlhappy.py:244-250 | column `n` lists, for every row in order, the value `row[n]` reads |
| SqlHappy.FetchAllColumns | sqlhappy.py:253-264 | `fetchall_columns` gives None iff there are no rows (the `result[0]` failure cannot happen), fails only with `KeyError`, and otherwise is `list_to_columns` of the rows |
| SqlHappy.ScalarIsFirstOfColumn | sqlhappy.py:303-307 | `scalar` by name is the first entry of the column `list_to_columns` builds under that name |
| SqlHappy.SharedNamesCover | sqlhappy.py:244-250 | rows sharing the first row's names have every column, so the transpose succeeds |
| SqlHappy.ColumnEntry | sqlhappy.py:248-250 | column `j` has one entry per row, and entry `i` is row `i`'s value in that column |
| SqlHappy.ListToColumnsRoundTrip | sqlhappy.py:235-251 | on rows sharing distinct column names nothing is lost: every row is rebuilt from the columns |
| SqlHappy.Entries | sqlhappy.py:168-169 | the pairs are read iff every row has both columns; pair `i` is row `i`'s key and value |
| SqlHappy.Dict_ | sqlhappy.py:154-171 | `dict_` succeeds iff every row has both columns (and a hashable key); its keys are exactly the rows' key values |
| SqlHappy.Dict_LastWins | sqlhappy.py:168-169 | for a repeated key the later row's value wins |
| SqlHappy.CleanValue | sqlhappy.py:105-108 | numpy floats and ints become plain numbers of the same value; nothing else changes |
| SqlHappy.CleanBinds | sqlhappy.py:100-108 | the key set is unchanged and each value is cleaned |
| SqlHappy.CleanBindsIdempotent | sqlhappy.py:100-108 | cleaning twice equals cleaning once, and every bound number keeps its value |
| SqlHappy.ListSizeAppend | sqlhappy.py:441-458 | the size of a concatenation is the sum of the sizes |
| SqlHappy.ValueSize | sqlhappy.py:443-456 | the size of a value is never negative when `intsize` is not |
| SqlHappy.ListSize | sqlhappy.py:441-458 | the size of a list is never negative when `intsize` is not |
| SqlHappy.RowValues | sqlhappy.py:460 | `row.values()` has one value per distinct column name, each the value `row[name]` reads |
| SqlHappy.RowValuesDistinct | sqlhappy.py:460 | with distinct column names, the values are the columns' values in SELECT order |
| SqlHappy.RowSize | sqlhappy.py:428-460 | the size of a row is never negative when `intsize` is not, and with distinct column names it is the size of all its column values |
| SqlHappy.RowSizeRepeated | sqlhappy.py:460 | a repeated column name is weighed once, with the value `row[name]` reads: `("ab", "c")` under one name weighs 1 |
| SqlHappy.RowSizeSplit | sqlhappy.py:428-460 | for a row with distinct column names, the size of the row is the sum of the sizes of any split of its columns |
| SqlHappy.Flatten | sqlhappy.py:452-454 | flattening leaves no nested list |
| SqlHappy.ListSizeFlatten | sqlhappy.py:452-454 | nesting does not change the size: a list weighs what its leaves weigh |
| SqlHappy.Mapped | sqlhappy.py:464-465 | the keys kept are exactly the bind keys present in the column map |
| SqlHappy.Clauses | sqlhappy.py:463-467 | one clause `colmap[b] + op + '%(b)s'` per mapped bind key, in bind order |
| SqlHappy.BuildFilter | sqlhappy.py:462-471 | no mapped key gives the empty string; otherwise the clauses joined by `' ' + clause_op + ' '`, prefixed by `' WHERE '` exactly when `where` holds |
| SqlHappy.FilterNonEmpty | sqlhappy.py:468-469 | the joined filter is non-empty iff some bind key is mapped |
| SqlHappy.BuildFilterIgnoresUnmapped | sqlhappy.py:465 | inserting a bind key that is not in the column map does not change the filter |
| SqlHappy.MappedSkip | sqlhappy.py:465 | an unmapped key contributes no clause |
| Store.Keep | sunstardb/database.py:203-207 | a `DELETE` keeps exactly the rows that do not match, in order |
| Store.KeepAll | sunstardb/database.py:203-207 | a delete that matches no row changes nothing |
| Store.TableOfInjective | sunstardb/database.py:208 | two type names share a `dat_` table iff they agree up to letter case, as PostgreSQL folds unquoted identifiers |
| Store.DeleteMapEntries | sunstardb/database.py:203-204 | exactly the dataset-map entries whose type is among the named type's ids are removed; nothing else changes |
| Store.DeleteProperties | sunstardb/database.py:205-206 | exactly the properties whose type is among the named type's ids are removed; nothing else changes |
| Store.DeleteTypes | sunstardb/database.py:207 | exactly the type rows of that name are removed; nothing else changes |
| Store.DropTable | sunstardb/database.py:208 | `DROP TABLE dat_NAME` succeeds iff the table of the case-folded name exists, and removes only that table |
| Store.DropPropertyType | sunstardb/database.py:200-208 | a missing `name` fails the key guard; the drop succeeds iff the type's table exists, and then removes that name's type rows, the properties and map entries of its ids, and its table, leaving the id sequence alone |
| Store.DeleteMapEntriesIntegrity | sunstardb/database.py:203-204 | deleting map entries first keeps the store consistent |
| Store.DeletePropertiesIntegrity | sunstardb/database.py:205-206 | properties can be deleted consistently once no map entry refers to their type |
| Store.DeleteTypesIntegrity | sunstardb/database.py:207-208 | a type and its table can go once no property or map entry refers to it, provided every type sharing the table is spelled as given |
| Store.DropIntegrity | sunstardb/database.py:200-208 | `drop_property_type` in its delete order keeps a consistent store consistent when every type sharing the table is spelled exactly as given |
| Store.DropOtherCaseBreaksIntegrity | sunstardb/database.py:200-208 | dropping `Teff` when the stored type is `teff` deletes no type row (the `WHERE` tests compare exactly) but drops `dat_teff`, leaving a type without its table |
| Store.PropertiesBeforeMapBreaksIntegrity | sunstardb/database.py:203-206 | deleting properties before the dataset map would leave a map entry pointing at a deleted property |
| Store.FirstType | sunstardb/database.py:178-183 | the type found has the requested id (or name) and is stored; None iff no stored type matches |
| Store.FirstTypeAppended | sunstardb/database.py:194 | a freshly appended type is found by its own name or id when no earlier row matches |
| Store.FirstTypePrefix | sunstardb/database.py:170 | an earlier matching row hides a row appended later |
| Store.AddType | sunstardb/database.py:191-198 | a new type has a string name equal to the requested one, a kind with a template, and a table that did not exist; the store gains exactly its row under the next id and an empty `dat_NAME` table |
| Store.LoadTemplates | sunstardb/database.py:189-190 | a non-empty template cache is kept as it is; an empty one is filled with whatever the scan of the schema read, even when the parse then fails on an unclosed template, and the parse error is reported |
| Store.InsertPropertyType | sunstardb/database.py:185-198 | missing keys raise `DatabaseKeyError` before the cache is touched; otherwise the cache is loaded as above, a failed parse fails the call, and on success the type is added with the cached templates |
| Store.FailedParseIsCached | sunstardb/database.py:29-40 | after a call whose schema fails to parse, the cache holds the partial templates including the unclosed one, and the next call skips the parse and adds its type with them |
| Store.AddTypeOk | sunstardb/database.py:191-197 | in a consistent store, a type is added iff its name is a string no stored type matches up to letter case and its kind has a template, and the returned row is the inserted one |
| Store.AddTypeFresh | sunstardb/database.py:191-197 | for a name no type has in any letter case, the add succeeds iff the kind has a template, returning the new row |
| Store.AddTypeSameName | sunstardb/database.py:191-196 | a name already stored is rejected: the fetch finds the old row, whose table exists |
| Store.AddTypeOtherCase | sunstardb/database.py:191-196 | a name stored only in another letter case is rejected: the new row is found but its folded table already exists |
| Store.KeepAppend | sunstardb/database.py:203-207 | deleting from a list with a row appended deletes from the list, then keeps or drops that row |
| Store.AddTypeIntegrity | sunstardb/database.py:185-198 | adding a type keeps a consistent store consistent |
| Store.NextIdUnused | sunstardb/database.py:191-192 | no row of a consistent store refers to the id handed out next |
| Store.DropFresh | sunstardb/database.py:200-208 | dropping a fresh type removes exactly its row and its empty table |
| Store.AddThenDrop | sunstardb/database.py:185-208 | dropping a type just added gives the store back, with the id sequence advanced |
| Store.MeasureReqKeys | sunstardb/database.py:454-455 | the declared measurement keys are all present iff the record has every measurement key |
| Store.LabelReqKeys | sunstardb/database.py:471-472 | the declared label keys are all present iff the record has every label key |
| Store.TableInsert | sunstardb/database.py:468 | `INSERT INTO dat_name` succeeds iff that table exists, and appends exactly the row to it, leaving every other table and the rest of the store unchanged |
| Store.MeasureRow | sunstardb/database.py:463-467 | the data row has the fixed measurement columns plus the type's own column, named by the lower-cased type name, holding `val`; property, star, source, errors, bounds, times and meta come from the bind map |
| Store.LabelRow | sunstardb/database.py:479-481 | the data row has the fixed label columns plus the type's own column, named by the lower-cased type name, holding `label`; property, star, source and meta come from the bind map |
| Store.InsertMeasure | sunstardb/database.py:454-469 | missing keys raise `DatabaseKeyError`; the insert succeeds iff all keys are present, the name is a string whose lower-cased form is not a fixed column, and the case-folded `dat_name` exists; then exactly that table gains the measurement row |
| Store.InsertLabel | sunstardb/database.py:471-483 | missing keys raise `DatabaseKeyError`; the insert succeeds iff all keys are present, the name is a string whose lower-cased form is not a fixed column, and the case-folded `dat_name` exists; then exactly that table gains the label row |
| Store.InsertMeasureFoldsCase | sunstardb/database.py:463-468 | spelling the type name in another letter case writes the same row to the same table |
| Store.InsertData | sunstardb/database.py:446-451 | MEASURE goes to `insert_measure`, LABEL to `insert_label`, and any other kind raises the unexpected-type error |
| Store.FetchPropertyById | sunstardb/database.py:328-343 | None iff no property has the requested star, type and source (with existing star, type, source and reference rows); otherwise the first such property in storage order |
| Store.FetchFrom | sunstardb/database.py:342 | from a position on, the first property the query selects, or None iff there is none |
| Store.AttachData | sunstardb/database.py:443-451 | on success the returned property is the one given, the type found by id is MEASURE or LABEL, and the store is the result of dispatching the bind map with `prop_id` and the type's name |
| Store.PropertyReqKeys | sunstardb/database.py:432 | the key guard of `insert_property` passes iff the record has its six keys |
| Store.WithProperty | sunstardb/database.py:438-441 | the insert appends one property under the next id and changes nothing else |
| Store.InsertPropertyAsWritten | sunstardb/database.py:432-452 | missing keys raise `DatabaseKeyError`; on success the returned property is whatever `fetch_property_by_id` finds after the insert, and the data row is attached to it |
| Store.InsertProperty | sunstardb/database.py:432-452 | as intended: the returned property is the row just inserted, under the next id, and the data row is attached to it |
| Store.AttachDataShape | sunstardb/database.py:443-451 | attaching data touches only the data table of the property's type, adding one row that refers to the property |
| Store.InsertPropertyLinksData | sunstardb/database.py:438-452 | the returned property has the next id and is the one appended; types and dataset map are unchanged; the type's data table gains one row referring to the new property |
| Store.AddPropertyIntegrity | sunstardb/database.py:438-441 | a property under the next id of an existing type keeps the store consistent |
| Store.InsertPropertyIntegrity | sunstardb/database.py:432-452 | inserting a property keeps a consistent store consistent |
| Store.AsWrittenAgreesWhenUnique | sunstardb/database.py:442 | when no earlier property has the same star, type and source, the code as written behaves as intended |
| Store.SampleTable | sunstardb/database.py:463 | the sample type `teff` is not a fixed column and its table is `dat_teff` |
| Store.SampleBinds | sunstardb/database.py:444-445 | the sample bind map passes the property and measurement key guards |
| Store.SampleAsWritten | sunstardb/database.py:442-447 | as written, the sample's new value goes to `dat_teff` linked to the earlier property 2 |
| Store.SampleFetch | sunstardb/database.py:342 | after the sample insert, the lookup finds the earlier property 2 |
| Store.SampleAttach | sunstardb/database.py:443-447 | the sample's value can be attached to any property, writing one `dat_teff` row linked to it |
| Store.SampleIntended | sunstardb/database.py:438-447 | as intended, the sample's value is linked to the new property 3 |
| Store.AsWrittenLinksEarlierProperty | sunstardb/database.py:442-444 | a second measurement of the same type for the same star and source returns property 2 as written but 3 as intended |
| Store.CheckExistsAllStars | sunstardb/database.py:512-533 | success is always `True`; a failure lists a non-empty set of stars, each non-NULL, with a property from the source but no property of the checked type from it |
| Store.CheckExistsAllStarsOk | sunstardb/database.py:514-533 | the check passes iff every star with a property from the source has a property of the type from it (or a NULL star has, which empties `NOT IN`) |
| Store.CoveredIff | sunstardb/database.py:518-522 | the subquery holds exactly the stars with a property of the type from the source |
| Store.LackingEmpty | sunstardb/database.py:514-525 | no star is reported iff the subquery holds NULL or covers every star of the source |
| Store.CheckShrinks | sunstardb/database.py:514-523 | adding a property of the checked type for a star removes exactly that star from the report |
| DataQuery.AliasInjective | sunstardb/database.py:574-578 | distinct sub-query indices get distinct `dNN` aliases |
| DataQuery.BuildDataTableQuery | sunstardb/database.py:571-591 | the statement has one sub-query, one `uq_stars` branch, one selected column and one join per requested type, all under that type's alias and `dat_` table, the star name first; every join is `LEFT JOIN` iff `nulls is True` |
| DataQuery.BuildSubs | sunstardb/database.py:573-579 | the `WITH` clause has one sub-query per requested type, in request order, each named `dNN` by its position and reading that type's `dat_` table |
| DataQuery.BuildSelect | sunstardb/database.py:580-583 | `uq_stars` unions exactly the per-type aliases in order, and the selected columns are the star name followed by each type's column under its own alias |
| DataQuery.BuildJoins | sunstardb/database.py:585-591 | one join per requested type onto its alias, all `LEFT JOIN` when `nulls is True` and all inner `JOIN` otherwise |
| DataQuery.AliasesResolve | sunstardb/database.py:574-591 | within one statement every alias names exactly one sub-query |
| DataQuery.DatasetHits | sunstardb/database.py:577 | positive iff some `dataset` row has the id and the name |
| DataQuery.MapHits | sunstardb/database.py:576-577 | positive iff some map entry of the property points at a dataset with the requested name |
| DataQuery.Repeat | sunstardb/database.py:575-577 | a row repeated once per join partner |
| DataQuery.InDataset | sunstardb/database.py:575-578 | the sub-query keeps exactly the data rows whose property is mapped into the named dataset |
| DataQuery.Subs | sunstardb/database.py:573-578 | the sub-queries exist iff every requested type has a data table, one per type, each drawn from that type's table |
| DataQuery.MatchesStar | sunstardb/database.py:590-591 | the rows the join `dNN.star = s.id` pairs with a star are exactly those whose star equals its id |
| DataQuery.Options | sunstardb/database.py:585-591 | a join offers each matching row; with no match a `LEFT JOIN` offers one NULL row and a `JOIN` offers nothing |
| DataQuery.Joined | sunstardb/database.py:590-591 | a star's choices per join are the options of that sub-query's matching rows |
| DataQuery.Prefix | sunstardb/database.py:590-591 | one head put in front of each tail, in order |
| DataQuery.Extend | sunstardb/database.py:590-591 | the combination is empty iff heads or tails are, and each result is a head followed by a tail |
| DataQuery.PrefixMembers | sunstardb/database.py:590-591 | every prefixed row starts with the head and ends with a tail |
| DataQuery.Product | sunstardb/database.py:590-591 | every combination the joins give picks one option from each join |
| DataQuery.ProductNonEmpty | sunstardb/database.py:590-591 | the joins give some combination iff every join offers an option |
| DataQuery.OutRow | sunstardb/database.py:582-583 | an output row is the star name under `star`, then each type's column under its lower-cased name |
| DataQuery.OutRows | sunstardb/database.py:582-583 | one output row per combination, in order |
| DataQuery.FetchDataTable | sunstardb/database.py:552-594 | the query succeeds iff there is at least one type and every type has a data table; its rows are those the joins give over the stars, None iff there are none |
| DataQuery.FetchDataCols | sunstardb/database.py:596-625 | a None table gives None, a failing query fails, and otherwise the keys are `star` plus the requested types |
| DataQuery.JoinedNonEmpty | sunstardb/database.py:585-591 | a join offers a star something iff it is a `LEFT JOIN` or the sub-query has a row for the star |
| DataQuery.StarRowsNonEmpty | sunstardb/database.py:579-591 | a star gets rows iff it is in `uq_stars` and, with inner joins, every sub-query has a row for it |
| DataQuery.LeftKeepsEveryStar | sunstardb/database.py:562-564 | with `nulls=True` a star gets rows iff it has data of at least one of the types |
| DataQuery.InnerNeedsEveryType | sunstardb/database.py:562-564 | with `nulls=False` a star gets rows iff it has data of every one of the types |
| DataQuery.ChoiceCell | sunstardb/database.py:582-591 | a cell is the column of a matching row of that type, or NULL from a `LEFT JOIN` without one |
| DataQuery.StarRowCells | sunstardb/database.py:566-568 | each row of a star is keyed `star` then the lower-cased types, each cell coming from that star's data of the type |
| DataQuery.StarListed | sunstardb/database.py:579-584 | every star that gets rows appears in the result under its name |
| DataQuery.StarHead | sunstardb/database.py:582 | a star's first row starts with its name |
| DataQuery.AllRowsShape | sunstardb/database.py:566-568 | every result row names a known star first and then the lower-cased types |
| DataQuery.RowOwner | sunstardb/database.py:584 | every result row comes from some star of the star table |
| DataQuery.DataColsContents | sunstardb/database.py:615-625 | when the table has rows and the names are distinct, each column lists `row[name]` of every row in order; the `star` column lists the star names unless a type name folds to `star`, whose later column `row['star']` reads instead |
| DataQuery.LowerColumns | sunstardb/database.py:618-625 | the transpose under lower-cased names succeeds and, names being distinct, each column holds each row's field in order |
| DataQuery.StarColumn | sunstardb/database.py:618-625 | for rows whose only `star` column is their first, the `star` column lists each row's first value in order |
| DataQuery.RowsHaveFields | sunstardb/database.py:582-583 | every row of the table starts with `star`, has the fields `fetch_data_cols` reads, and has no other `star` column unless a type name folds to `star` |
| DataPkg.SliceIndex | sunstardb/datapkg.py:134 | a Python slice bound: in range it is kept, a negative one counts from the end, and it is clamped to the string |
| DataPkg.PySlice | sunstardb/datapkg.py:134 | `line[initial:final]` is the usual sub-string for in-range bounds, stops at the end for an overlong `final`, and is empty for a reversed or out-of-range window |
| DataPkg.DateText | sunstardb/datapkg.py:143 | the date text is the raw field with every blank turned into `0`, so it has no blanks left |
| DataPkg.Convert | sunstardb/datapkg.py:135-152 | `s` keeps the text; `i` and `f` succeed iff the stripped text parses (as an integer literal, or through `float`), giving its value, and otherwise raise `ValueError`; a `D` code always converts, to the parsed date of the text with spaces turned into zeros, or to NULL when it does not parse; any other code is unknown |
| DataPkg.Fields | sunstardb/datapkg.py:132-134 | one field per spec entry, in order, with that entry's key and type code |
| DataPkg.Collect | sunstardb/datapkg.py:131-153 | the fields make a record iff every one of them converts |
| DataPkg.ByteParse | sunstardb/datapkg.py:129-153 | a line parses iff every field of the spec converts on the line without its trailing newlines; otherwise the error is that of the first field that does not |
| DataPkg.FirstFailure | sunstardb/datapkg.py:132 | the index of the first field that does not convert, or the end |
| DataPkg.CollectError | sunstardb/datapkg.py:137-152 | the error raised is that of the first field that does not convert |
| DataPkg.CollectOutcome | sunstardb/datapkg.py:129-153 | the line parses iff no field fails, and otherwise the first failing field decides the error |
| DataPkg.CollectValues | sunstardb/datapkg.py:131-153 | with distinct keys, the record has exactly the spec keys plus what it started with, each key holding its field's converted value |
| DataPkg.ByteParseValues | sunstardb/datapkg.py:129-153 | a parsed line has exactly the spec's keys, each the conversion of its slice of the line without trailing newlines |
| DataPkg.ByteParseNewline | sunstardb/datapkg.py:130 | a trailing newline does not change the result |
| DataPkg.CollectAsWritten | sunstardb/datapkg.py:131-153 | as written: the line parses iff every field converts; the error for an unknown code names the last date format, or is a `NameError` before any date field |
| DataPkg.ByteParseAsWritten | sunstardb/datapkg.py:129-153 | as written, a line parses iff every field converts, and the result equals the intended one unless some field has an unknown type code |
| DataPkg.AsWrittenAgreesOnKnownCodes | sunstardb/datapkg.py:135-152 | when every type code is known, the code as written and the corrected one agree |
| DataPkg.UnknownCodeFirst | sunstardb/datapkg.py:151-152 | an unknown code before any date field raises `NameError` as written, where the intended message names the code |
| DataPkg.UnknownCodeAfterDate | sunstardb/datapkg.py:141-152 | an unknown code after a date field is reported with that date's format as written, and with the unknown code as intended |
| DataPkg.StripValue | sunstardb/datapkg.py:157-160 | a non-string is kept; a string becomes NULL iff it is all whitespace, and otherwise the non-empty string it is once leading and trailing whitespace is removed (the only such string with no edge whitespace) |
| DataPkg.StripStr | sunstardb/datapkg.py:155-161 | the keys stay the same; unselected keys and non-strings are untouched; a selected string becomes NULL iff it is all whitespace and otherwise its strip, non-empty with no edge whitespace |
| DataPkg.StripStrIdempotent | sunstardb/datapkg.py:155-161 | cleaning a record twice is the same as cleaning it once |
| Strings.StripEmpty | sunstardb/datapkg.py:158 | `str.strip()` gives the empty string iff the string is all whitespace |
| Strings.StripUnique | sunstardb/datapkg.py:158 | a string with no edge whitespace that sits between whitespace-only edges of `s` is `s.strip()` |
| DataPkg.SetDefault | sunstardb/datapkg.py:170-175 | with no defaults for the type nothing changes; otherwise the object gains exactly the default keys it lacked, with their default values, and keeps its own values |
| DataPkg.Tag | sunstardb/datapkg.py:179-180 | each property comes out typed with its group's name, with its other keys kept |
| DataPkg.Group | sunstardb/datapkg.py:178-181 | a group yields its properties in order, each tagged |
| DataPkg.JsonDataTyped | sunstardb/datapkg.py:177-181 | every object yielded carries a `type` naming one of the groups, and nothing is yielded iff every group is empty |
| DataPkg.OffsetTail | sunstardb/datapkg.py:177-181 | a group's starting position is the first group's size plus its position among the rest |
| DataPkg.JsonDataAt | sunstardb/datapkg.py:177-181 | property `i` of group `g` is yielded at the group's offset plus `i`, typed and defaulted |
| DataPkg.JsonDataLength | sunstardb/datapkg.py:177-181 | the reader yields as many objects as the groups hold |
| DataPkg.OffsetMonotone | sunstardb/datapkg.py:177 | later groups start no earlier |
| DataPkg.DefaultsKeepType | sunstardb/datapkg.py:179-180 | a `type` key among the defaults never overrides the group's type |
| DataPkg.Extras | sunstardb/datapkg.py:86-91 | the extras are None iff every key is one of the four known ones; otherwise they hold exactly the other keys with their values |
| DataPkg.PaperOrigin | sunstardb/datapkg.py:96-99 | the copy succeeds iff the reference is a dict with `name`, `bibcode` and `bibline`; the origin gains that name, an ADS url of the bibcode and the bibline as description, and keeps its other keys |
| DataPkg.LoadInfo | sunstardb/datapkg.py:72-99 | a missing `reference` raises `KeyError('reference')`, then a missing `origin` raises `KeyError('origin')`; success needs an origin dict with a `kind`; the known fields and extras are read as above; a PAPER origin gets the reference's details and any other is kept |
| DataPkg.LoadInfoKeepsEverything | sunstardb/datapkg.py:78-91 | every key of `info.json` is either a known field or an extra, never both, and present known fields come back unchanged |

## Left out

- Connections, cursors, commit and rollback, configuration and environment lookup (sqlhappy.py:33-152) are I/O. A query is modelled by what it returns from the abstract tables, and an error discards the store.
- The SIMBAD service (sunstardb/database.py:57-110, sunstardb.py:34) is a network call. It is an oracle parameter of the star operations.
- astropy coordinates and times (sunstardb/utils.py:56-59, sunstardb/database.py:101-108) are a foreign library. Only the token split before them is modelled.
- Floating point is read as `real`, so IEEE rounding in the percent error and the error bounds is not modelled.
- DataPkg.Convert: `float(...)` of an `f` field and `strptime` of a `D` field are oracle parameters. The model states how their answers are used: a parsed value is stored, a failed date parse gives None, and a failed `float` raises `ValueError`. Which literal forms they accept is not modelled.
- Prepare.PercentError: `float()` of the percent text is a given map from the texts it accepts to their values, not Python's full float grammar.
- SqlHappy.RowSize: `intsize` is a parameter instead of `(log2(sys.maxsize) + 1) / 8`. Dates, ranges and other objects count one byte, as in the code.
- SQL text is modelled by its structure (conditions, sub-queries, joins, selected columns), not as whitespace-exact strings. The `%` interpolation of table names into the DDL template and the `INSERT` statements is kept as plain concatenation, with no identifier quoting.
- DataQuery.FetchDataTable: PostgreSQL promises no row order. The model fixes one (stars in star-table order, joins nested left to right), and the lemmas that matter (which stars appear, which cells they hold) do not depend on it.
- Store: foreign-key and `NOT NULL` constraints are not enforced as errors. The stated invariant `Store.Integrity` (every reference resolves, every type has its table) is proved preserved instead.
- Store.AddType: the rendered `CREATE TABLE` text is not modelled. The new table is an empty data table named `dat_NAME`.
- Timeseries storage: it is described for the system but absent from the code, so it is not modelled. `drop_property_type` deletes only the dataset map, properties, type rows and the data table.
- `fetch_data` (sunstardb/database.py:535-550), `create_dataset_from_source`, and the plain `insert_instrument`, `insert_reference`, `insert_origin` and `insert_source` inserts are not modelled. They add no logic beyond the key guard and a single `INSERT`.
- The printing loop of `sanity_check` and the `print` diagnostics in sunstardb.py are console output.
- File reading in the data packages (`BaseDataReader.file`, `open`, `json.load`), module loading in `load_class`, and the `modification_date`/`time_lap`/`time_total` helpers are file system and clock access. JSON documents are given as parsed records.
- Python dict iteration order: where the code loops over a dict (the `byteparse` spec, the JSON property groups), the model takes the entries as a sequence in that order.
- `type(v) is str` in `stripstr`: there is no separate `unicode` value, so every `Str` is treated as `str`.
- Plotting (plothappy.py, plot.py) and all command-line scripts are argument parsing and calls into the modelled methods, so they are not modelled.
- DataQuery.FetchDataCols: its own contract states only the keys. The column contents are stated by `DataQuery.DataColsContents`, under the condition that the requested names are distinct. With a repeated name, the code's `cols[c].append` appends twice to one list.
- SqlHappy.RowSizeSplit: stated only for rows whose column names are distinct. With a name repeated across the split, the whole row weighs that name once (`SqlHappy.RowSizeRepeated`), so the sum of the parts would count it twice.
- Store.DropIntegrity: stated only when every type sharing the folded table is spelled exactly as given. Otherwise the drop removes the table but no type row, and `Store.DropOtherCaseBreaksIntegrity` shows the store left inconsistent.
- Store.DeleteTypesIntegrity: carries the same spelled-as-stored condition as `Store.DropIntegrity`, for the same reason.
- DataQuery.DataColsContents: the `star` column is stated to hold the star names only when no requested type name folds to `star`. Otherwise `row['star']` reads the later column of that type.
- Catalog.InsertedAliasesFindStar: SIMBAD's answers are oracle parameters, so the compressed form of the main id and the aliases, which the SIMBAD lookups produce, is a precondition here.
- Catalog.CommitStar: the iteration order of the SIMBAD ids dict is a parameter, and the serial id the database assigns to the new star is a parameter too.

## Findings

| source | as written | input that shows it | evidently intended | confidence | as-written member | corrected member |
|---|---|---|---|---|---|---|
| sunstardb/database.py:438-444 | After inserting the property row, `insert_property` looks it up again with `fetch_property_by_id` on (star, type, source) and attaches the data row to the first match. | A store that already holds property 2 for star 10, type 1 (`teff`) and source 20 (`Store.SampleDb`). A second measurement with the same ids is then inserted. The new row is property 3, but the data row and the returned property are property 2. | The data row belongs to the property just inserted, as an `INSERT ... RETURNING id` would give. | high; not executed | Store.InsertPropertyAsWritten, Store.AsWrittenLinksEarlierProperty | Store.InsertProperty, Store.InsertPropertyLinksData |
| sunstardb/datapkg.py:151-152 | An unknown type code raises `Exception('unknown type %s' % format)`. `format` is the local variable set by date fields. | Spec `{x: (0, 1, 'q')}` raises `UnboundLocalError`, a `NameError`. Spec `d: (0, 2, 'D%y')` followed by `x: (0, 1, 'q')` reports `unknown type %y`. | The message names the unknown code, `'unknown type q'`. | high; not executed | DataPkg.CollectAsWritten, DataPkg.UnknownCodeFirst, DataPkg.UnknownCodeAfterDate | DataPkg.Collect, DataPkg.CollectOutcome |

=== FILE: assoc.dfy ===
/** Building a dict by running `d[key(x)] = val(x)` over a list in order,
    skipping the elements that have no key: every key that occurs is
    present, and the last assignment to it wins.  This is the shape of
    `dict_` (sqlhappy.py) and of the SIMBAD id fold (sunstardb.py). */
module Assoc {
  import opened Wrappers

  function AssocBy<T, K(==), V>(xs: seq<T>, key: T -> Option<K>, val: T -> V): (m: map<K, V>)
    ensures m.Keys == set i | 0 <= i < |xs| && key(xs[i]).Some? :: key(xs[i]).value
  {
    if |xs| == 0 then map[]
    else
      var init := xs[..|xs| - 1];
      var m := AssocBy(init, key, val);
      assert forall i :: 0 <= i < |init| ==> init[i] == xs[i];
      var x := xs[|xs| - 1];
      if key(x).Some? then m[key(x).value := val(x)] else m
  }

  /** The value stored under a key is the one of its last occurrence. */
  lemma {:induction false} LastWins<T, K, V>(xs: seq<T>, key: T -> Option<K>, val: T -> V, i: nat)
    requires i < |xs| && key(xs[i]).Some?
    requires forall j :: i < j < |xs| ==> key(xs[j]) != key(xs[i])
    ensures key(xs[i]).value in AssocBy(xs, key, val)
    ensures AssocBy(xs, key, val)[key(xs[i]).value] == val(xs[i])
  {
    if i < |xs| - 1 {
      var init := xs[..|xs| - 1];
      assert init[i] == xs[i];
      assert forall j :: i < j < |init| ==> init[j] == xs[j];
      LastWins(init, key, val, i);
    }
  }
}

=== FILE: catalog.dfy ===
/** The read side of the database as the fetch methods of `SunStarDB` see
    it (sunstardb/database.py, and the older sunstardb.py): each table is a
    sequence of rows in storage order, a query is a list of WHERE
    conditions, and `fetch_row` returns the first row that satisfies them
    all, or None. */
module Catalog {
  import opened Wrappers
  import opened Strings
  import opened Values
  import Utils
  import StarIds
  import KeyGuard

  /** A WHERE condition: `col = value` or `col IS NULL`. */
  datatype Cond = Eq(col: string, v: Value) | IsNull(col: string)

  /** A condition on one row; a column the row does not carry reads as NULL. */
  predicate Holds(row: Record, c: Cond) {
    match c
    case Eq(col, v) => col in row && SqlEq(row[col], v)
    case IsNull(col) => col !in row || row[col] == Null
  }

  predicate Matches(row: Record, conds: seq<Cond>) {
    forall j :: 0 <= j < |conds| ==> Holds(row, conds[j])
  }

  /** Index of the first element satisfying `p`. */
  function FirstWhere<T>(xs: seq<T>, p: T -> bool): (r: Option<nat>)
    ensures r.Some? ==> r.value < |xs| && p(xs[r.value]) && forall i :: 0 <= i < r.value ==> !p(xs[i])
    ensures r.None? ==> forall i :: 0 <= i < |xs| ==> !p(xs[i])
  {
    if |xs| == 0 then None
    else if p(xs[0]) then Some(0)
    else match FirstWhere(xs[1..], p)
      case None => None
      case Some(j) => Some(j + 1)
  }

  /** `fetch_row(sql)`: the first row, in storage order, meeting every condition. */
  function FetchRow(rows: seq<Record>, conds: seq<Cond>): (r: Option<Record>)
    ensures r.None? <==> forall i :: 0 <= i < |rows| ==> !Matches(rows[i], conds)
    ensures r.Some? ==> Matches(r.value, conds)
                        && exists i :: 0 <= i < |rows| && rows[i] == r.value
                                       && forall j :: 0 <= j < i ==> !Matches(rows[j], conds)
  {
    match FirstWhere(rows, row => Matches(row, conds))
    case None => None
    case Some(i) => Some(rows[i])
  }

  /** A row fetched by a stricter query was already a candidate for the looser one:
      if the looser query's answer meets the extra conditions, both agree. */
  lemma FetchRowNarrow(rows: seq<Record>, conds: seq<Cond>, extra: seq<Cond>)
    requires FetchRow(rows, conds).Some? && Matches(FetchRow(rows, conds).value, extra)
    ensures FetchRow(rows, conds + extra) == FetchRow(rows, conds)
  {
    var p := (row: Record) => Matches(row, conds);
    var q := (row: Record) => Matches(row, conds + extra);
    var i := FirstWhere(rows, p).value;
    forall row: Record ensures q(row) <==> p(row) && Matches(row, extra) {
      if p(row) && Matches(row, extra) {
        forall j | 0 <= j < |conds + extra| ensures Holds(row, (conds + extra)[j]) {
          if j >= |conds| { assert (conds + extra)[j] == extra[j - |conds|]; }
        }
      }
      if q(row) {
        forall j | 0 <= j < |conds| ensures Holds(row, conds[j]) { assert (conds + extra)[j] == conds[j]; }
        forall j | 0 <= j < |extra| ensures Holds(row, extra[j]) { assert (conds + extra)[|conds| + j] == extra[j]; }
      }
    }
    assert q(rows[i]);
    match FirstWhere(rows, q)
    case None =>
    case Some(k) =>
      assert p(rows[k]);
  }

  /** The tables the fetch methods read. */
  datatype Tables = Tables(
    stars: seq<Record>,        // star: id, name, coord, ra, dec (hd, bright, proper in the older schema)
    aliases: seq<Record>,      // star_alias: star, type, name
    ptypes: seq<Record>,       // property_type: id, name, type, units, description
    sources: seq<Record>,      // source: id, name (url in the older schema), version, ...
    references: seq<Record>,   // reference: id, name, bibline, bibcode
    instruments: seq<Record>)  // instrument: id, name, long, url, description

  /** `@db_bind_keys('name')` followed by `SELECT * FROM t WHERE name=%(name)s`:
      the fetch of property types, references and instruments. */
  function FetchByName(rows: seq<Record>, kwargs: Record): (r: Result<Option<Record>, Error>)
    ensures "name" !in kwargs <==> r.Err?
    ensures r.Err? ==> r.error.DatabaseKeyError? && r.error.missing == ["name"]
    ensures r.Ok? && r.value.Some? ==> "name" in r.value.value && SqlEq(r.value.value["name"], kwargs["name"])
    ensures r.Ok? && r.value.None? ==> forall i :: 0 <= i < |rows| ==> !("name" in rows[i] && SqlEq(rows[i]["name"], kwargs["name"]))
  {
    if "name" !in kwargs then Err(DatabaseKeyError(["name"], kwargs.Keys))
    else
      var r := FetchRow(rows, [Eq("name", kwargs["name"])]);
      assert r.Some? ==> Holds(r.value, [Eq("name", kwargs["name"])][0]);
      assert r.None? ==> forall i :: 0 <= i < |rows| ==> !Holds(rows[i], [Eq("name", kwargs["name"])][0]);
      Ok(r)
  }

  // ---- fetch_source ----------------------------------------------------

  /** A source row has the version asked for: any version when none is
      given, a NULL one for None, an equal one otherwise. */
  predicate VersionMatches(row: Record, kwargs: Record) {
    "version" !in kwargs
    || (kwargs["version"] == Null && ("version" !in row || row["version"] == Null))
    || (kwargs["version"] != Null && "version" in row && SqlEq(row["version"], kwargs["version"]))
  }

  /** The WHERE clause of `fetch_source` after its key column: nothing when
      no `version` is given, `version IS NULL` for a None version, and
      `version = %(version)s` otherwise; a row meets it exactly when it has
      the version asked for. */
  function VersionFilter(kwargs: Record): (conds: seq<Cond>)
    ensures "version" !in kwargs <==> conds == []
    ensures |conds| <= 1
    ensures forall row :: Matches(row, conds) <==> VersionMatches(row, kwargs)
  {
    if "version" !in kwargs then []
    else if kwargs["version"] != Null then
      var conds := [Eq("version", kwargs["version"])];
      assert forall row :: Matches(row, conds) <==> Holds(row, conds[0]);
      conds
    else
      var conds := [IsNull("version")];
      assert forall row :: Matches(row, conds) <==> Holds(row, conds[0]);
      conds
  }

  /** The conditions of a `fetch_source` keyed on column `key` (`name` now, `url` in the older revision). */
  function SourceQuery(key: string, kwargs: Record): (r: Result<seq<Cond>, Error>)
    ensures r.Err? <==> key !in kwargs
    ensures r.Err? ==> r.error == DatabaseKeyError([key], kwargs.Keys)
    ensures r.Ok? ==> |r.value| >= 1 && r.value[0] == Eq(key, kwargs[key]) && r.value[1..] == VersionFilter(kwargs)
    ensures r.Ok? ==> forall row :: Matches(row, r.value) <==> Holds(row, Eq(key, kwargs[key])) && VersionMatches(row, kwargs)
  {
    if key !in kwargs then Err(DatabaseKeyError([key], kwargs.Keys))
    else
      var conds := [Eq(key, kwargs[key])] + VersionFilter(kwargs);
      assert forall row :: Matches(row, conds) <==> Holds(row, conds[0]) && Matches(row, conds[1..]) by {
        forall row ensures Matches(row, conds) <==> Holds(row, conds[0]) && Matches(row, conds[1..]) {
          if Holds(row, conds[0]) && Matches(row, conds[1..]) {
            forall j | 0 <= j < |conds| ensures Holds(row, conds[j]) {
              if j > 0 { assert conds[j] == conds[1..][j - 1]; }
            }
          }
          if Matches(row, conds) {
            forall j | 0 <= j < |conds[1..]| ensures Holds(row, conds[1..][j]) {
              assert conds[1..][j] == conds[j + 1];
            }
          }
        }
      }
      Ok(conds)
  }

  /** `fetch_source` keyed on column `key`: the first source row with that
      key value and the version asked for. */
  function FetchSourceBy(key: string, rows: seq<Record>, kwargs: Record): (r: Result<Option<Record>, Error>)
    ensures r.Err? <==> key !in kwargs
    ensures r.Err? ==> r.error == DatabaseKeyError([key], kwargs.Keys)
    ensures r.Ok? && r.value.Some? ==>
              r.value.value in rows && Holds(r.value.value, Eq(key, kwargs[key])) && VersionMatches(r.value.value, kwargs)
    ensures r.Ok? && r.value.None? ==>
              forall i :: 0 <= i < |rows| ==> !(Holds(rows[i], Eq(key, kwargs[key])) && VersionMatches(rows[i], kwargs))
  {
    var conds :- SourceQuery(key, kwargs);
    Ok(FetchRow(rows, conds))
  }

  /** `fetch_source(name, version=...)`. */
  function FetchSource(rows: seq<Record>, kwargs: Record): Result<Option<Record>, Error> {
    FetchSourceBy("name", rows, kwargs)
  }

  /** The older `fetch_source(url, version=...)`: the same search keyed on
      the URL. */
  function LegacyFetchSource(rows: seq<Record>, kwargs: Record): Result<Option<Record>, Error> {
    FetchSourceBy("url", rows, kwargs)
  }

  /** The version filter of `fetch_source`: the row found has the requested
      version (NULL for None), and with no version requested the search is
      by name alone. */
  lemma FetchSourceVersion(rows: seq<Record>, kwargs: Record)
    requires "name" in kwargs
    ensures FetchSource(rows, kwargs).Ok?
    ensures "version" !in kwargs ==> FetchSource(rows, kwargs).value == FetchRow(rows, [Eq("name", kwargs["name"])])
    ensures "version" in kwargs && FetchSource(rows, kwargs).value.Some? ==>
              var row := FetchSource(rows, kwargs).value.value;
              "name" in row && SqlEq(row["name"], kwargs["name"])
              && (kwargs["version"] == Null ==> "version" !in row || row["version"] == Null)
              && (kwargs["version"] != Null ==> "version" in row && row["version"] == kwargs["version"])
  {
    var conds := SourceQuery("name", kwargs).value;
    if "version" in kwargs && FetchRow(rows, conds).Some? {
      var row := FetchRow(rows, conds).value;
      assert Holds(row, conds[0]);
      assert Holds(row, conds[1]);
    }
  }

  /** Asking for the version the name-only search would find changes nothing. */
  lemma FetchSourceVersionAgrees(rows: seq<Record>, kwargs: Record, v: Value)
    requires "name" in kwargs && "version" !in kwargs
    requires FetchSource(rows, kwargs).value.Some?
    requires var row := FetchSource(rows, kwargs).value.value; "version" in row && row["version"] == v
    ensures FetchSource(rows, kwargs["version" := v]) == FetchSource(rows, kwargs)
  {
    var k2 := kwargs["version" := v];
    var base := [Eq("name", kwargs["name"])];
    var extra := VersionFilter(k2);
    var row := FetchRow(rows, base).value;
    assert Matches(row, extra) by {
      assert Holds(row, extra[0]);
    }
    FetchRowNarrow(rows, base, extra);
    assert SourceQuery("name", k2).value == base + extra;
  }

  // ---- fetch_star ------------------------------------------------------

  /** `star s JOIN star_alias sa ON sa.star = s.id WHERE sa.name = key`:
      the first alias of that name whose star exists, then that star. */
  function StarByAlias(t: Tables, key: string): (r: Option<Record>)
    ensures r.Some? ==> exists a :: a in t.aliases && "name" in a && a["name"] == Str(key)
                                    && "star" in a && r.value in t.stars && Holds(r.value, Eq("id", a["star"]))
    ensures r.None? ==> forall a :: a in t.aliases && "name" in a && a["name"] == Str(key) && "star" in a ==>
                                    forall s :: s in t.stars ==> !Holds(s, Eq("id", a["star"]))
  {
    var hit := (a: Record) => "name" in a && a["name"] == Str(key) && "star" in a
                              && FetchRow(t.stars, [Eq("id", a["star"])]).Some?;
    match FirstWhere(t.aliases, hit)
    case None =>
      assert forall a :: a in t.aliases ==> !hit(a);
      forall a, s | a in t.aliases && "name" in a && a["name"] == Str(key) && "star" in a && s in t.stars
        ensures !Holds(s, Eq("id", a["star"]))
      {
        assert !hit(a);
        assert !Matches(s, [Eq("id", a["star"])]);
        assert [Eq("id", a["star"])][0] == Eq("id", a["star"]);
      }
      None
    case Some(i) =>
      var a := t.aliases[i];
      var s := FetchRow(t.stars, [Eq("id", a["star"])]).value;
      assert Holds(s, [Eq("id", a["star"])][0]);
      Some(s)
  }

  /** `fetch_star(name)`: runs of spaces in the name are compressed before
      the alias lookup.  A non-string name makes `re.sub` raise. */
  function FetchStar(t: Tables, kwargs: Record): (r: Result<Option<Record>, Error>)
    ensures "name" !in kwargs ==> r.Err? && r.error.DatabaseKeyError?
    ensures "name" in kwargs && !kwargs["name"].Str? ==> r.Err? && r.error.TypeError?
    ensures "name" in kwargs && kwargs["name"].Str? ==> r == Ok(StarByAlias(t, Utils.CompressSpace(kwargs["name"].s)))
  {
    var m :- KeyGuard.Guard(["name"], kwargs);
    if !m["name"].Str? then Err(TypeError("expected string or buffer"))
    else Ok(StarByAlias(t, Utils.CompressSpace(m["name"].s)))
  }

  /** Spacing does not matter to `fetch_star`: a name and its compressed form find the same star. */
  lemma FetchStarIgnoresSpaceRuns(t: Tables, kwargs: Record, s: string)
    requires "name" in kwargs && kwargs["name"] == Str(s)
    ensures FetchStar(t, kwargs) == FetchStar(t, kwargs["name" := Str(Utils.CompressSpace(s))])
  {
    Utils.CompressSpaceIdempotent(s);
  }

  /** The older `fetch_star`: `SELECT * FROM star WHERE <idtype> = value`
      on the preferred id type; with none present the bind lookup
      `kwargs[None]` raises `KeyError`. */
  function LegacyFetchStar(t: Tables, kwargs: Record): (r: Result<Option<Record>, Error>)
    ensures StarIds.PrefIdType(kwargs).None? <==> r.Err?
    ensures r.Ok? && r.value.Some? ==>
              var k := StarIds.PrefIdType(kwargs).value;
              r.value.value in t.stars && k in r.value.value && SqlEq(r.value.value[k], kwargs[k])
  {
    match StarIds.PrefIdType(kwargs)
    case None => Err(KeyError("None"))
    case Some(k) =>
      var r := FetchRow(t.stars, [Eq(k, kwargs[k])]);
      assert r.Some? ==> Holds(r.value, [Eq(k, kwargs[k])][0]);
      Ok(r)
  }

  // ---- reading back what insert_star writes ------------------------------

  /** The `star` row the older `insert_star` writes: the three id columns,
      under the serial id the database assigns. */
  function LegacyStarRow(star: Record, id: int): Record {
    map["id" := Int(id),
        "hd" := if "hd" in star then star["hd"] else Null,
        "bright" := if "bright" in star then star["bright"] else Null,
        "proper" := if "proper" in star then star["proper"] else Null]
  }

  /** The older `insert_star`: the row is inserted, then `fetch_star(star)`
      reads it back. Whatever it inserts it finds again: the result, when
      there is one, is a star matching the inserted ids on their preferred
      type, and the read-back fails only when those ids hold no usable id
      type. */
  function LegacyInsertStar(t: Tables, kwargs: Record, simbad: string -> Option<seq<string>>, newId: int)
    : (r: Result<(Tables, Option<Record>), Error>)
    ensures StarIds.LegacyInsertStarRow(kwargs, simbad).Err? ==> r.Err?
    ensures StarIds.LegacyInsertStarRow(kwargs, simbad).Ok? ==>
              var star := StarIds.LegacyInsertStarRow(kwargs, simbad).value;
              (r.Err? <==> StarIds.PrefIdType(star).None?)
              && (r.Ok? ==> r.value.0.stars == t.stars + [LegacyStarRow(star, newId)]
                            && r.value.1.Some? && r.value.1.value in r.value.0.stars
                            && StarIds.Present(star, StarIds.PrefIdType(star).value)
                            && Holds(r.value.1.value, Eq(StarIds.PrefIdType(star).value, star[StarIds.PrefIdType(star).value])))
  {
    var star :- StarIds.LegacyInsertStarRow(kwargs, simbad);
    var row := LegacyStarRow(star, newId);
    var t' := t.(stars := t.stars + [row]);
    var found :- LegacyFetchStar(t', star);
    var k := StarIds.PrefIdType(star).value;
    assert k in StarIds.Cols2Simbad by {
      assert k != "id";
      assert k in StarIds.IdTypes;
    }
    assert Matches(t'.stars[|t.stars|], [Eq(k, star[k])]) by {
      assert Holds(row, [Eq(k, star[k])][0]);
    }
    Ok((t', found))
  }

  /** When SIMBAD does not know the object, the older `insert_star` always
      finds the star it inserted. */
  lemma LegacyInsertUnknownFinds(t: Tables, kwargs: Record, simbad: string -> Option<seq<string>>, newId: int)
    requires StarIds.LegacyInsertStarRow(kwargs, simbad).Ok?
    requires var k := StarIds.PrefIdType(kwargs).value;
             kwargs[k].Str? && simbad(StarIds.Cols2Simbad[k] + " " + kwargs[k].s).None?
    ensures LegacyInsertStar(t, kwargs, simbad, newId).Ok?
    ensures LegacyInsertStar(t, kwargs, simbad, newId).value.1.Some?
  {
    var star := StarIds.LegacyInsertStarRow(kwargs, simbad).value;
    var k := StarIds.PrefIdType(kwargs).value;
    assert StarIds.Present(star, k);
  }

  /** The `star` row `insert_star` writes for SIMBAD's info, under the
      serial id the database assigns. */
  function StarRow(info: StarIds.StarInfo, id: int): Record {
    map["id" := Int(id), "name" := Str(info.mainId), "coord" := Str(info.coord),
        "ra" := Float(info.ra), "dec" := Float(info.dec)]
  }

  /** One `star_alias` row per alias, in the order the ids dict yields them. */
  function AliasRows(star: Value, order: seq<(string, string)>): (rs: seq<Record>)
    ensures |rs| == |order|
    ensures forall i :: 0 <= i < |order| ==>
              rs[i].Keys == {"star", "type", "name"}
              && rs[i]["star"] == star && rs[i]["type"] == Str(order[i].0) && rs[i]["name"] == Str(order[i].1)
  {
    seq(|order|, i requires 0 <= i < |order| =>
      map["star" := star, "type" := Str(order[i].0), "name" := Str(order[i].1)])
  }

  /** The writes of `insert_star` once SIMBAD has answered: the star row is
      inserted and read back by its compressed main id (as
      `fetch_star_by_main_id` does), and every alias is inserted pointing at
      the id read back; `order` is the iteration order of the ids dict. A
      read-back that finds nothing makes `db_star['id']` raise. */
  function CommitStar(t: Tables, ns: StarIds.NewStar, newId: int, order: seq<(string, string)>)
    : (r: Result<(Tables, Record), Error>)
    ensures Utils.CompressSpace(ns.info.mainId) == ns.info.mainId && (forall s :: s in t.stars ==> "id" in s) ==> r.Ok?
    ensures r.Ok? ==> r.value.0.stars == t.stars + [StarRow(ns.info, newId)] && r.value.1 in r.value.0.stars
                      && Holds(r.value.1, Eq("name", Str(Utils.CompressSpace(ns.info.mainId))))
    ensures r.Ok? ==> "id" in r.value.1 && r.value.0.aliases == t.aliases + AliasRows(r.value.1["id"], order)
    ensures r.Ok? ==> r.value.0.ptypes == t.ptypes && r.value.0.sources == t.sources
                      && r.value.0.references == t.references && r.value.0.instruments == t.instruments
  {
    var stars := t.stars + [StarRow(ns.info, newId)];
    var byName := [Eq("name", Str(Utils.CompressSpace(ns.info.mainId)))];
    assert Utils.CompressSpace(ns.info.mainId) == ns.info.mainId ==> Matches(stars[|t.stars|], byName) by {
      if Utils.CompressSpace(ns.info.mainId) == ns.info.mainId {
        assert Holds(stars[|t.stars|], byName[0]);
      }
    }
    match FetchRow(stars, byName)
    case None => Err(TypeError("'NoneType' object has no attribute '__getitem__'"))
    case Some(db) =>
      assert Holds(db, byName[0]);
      if "id" !in db then Err(KeyError("id"))
      else Ok((t.(stars := stars, aliases := t.aliases + AliasRows(db["id"], order)), db))
  }

  /** An alias row naming `n` that points at a stored star makes the alias
      lookup of `n` succeed. */
  lemma AliasHit(t: Tables, a: Record, s: Record, n: string)
    requires a in t.aliases && "name" in a && a["name"] == Str(n) && "star" in a
    requires s in t.stars && Holds(s, Eq("id", a["star"]))
    ensures StarByAlias(t, n).Some?
  {
  }

  /** The star `insert_star` reads back carries a non-NULL id when every
      stored star does. */
  lemma ReadBackHasId(t: Tables, ns: StarIds.NewStar, newId: int, order: seq<(string, string)>)
    requires forall s :: s in t.stars ==> "id" in s && s["id"] != Null
    requires CommitStar(t, ns, newId, order).Ok?
    ensures "id" in CommitStar(t, ns, newId, order).value.1 && CommitStar(t, ns, newId, order).value.1["id"] != Null
  {
    var db := CommitStar(t, ns, newId, order).value.1;
    assert db in t.stars || db == StarRow(ns.info, newId);
  }

  /** Alias `i` of the iteration order is stored, pointing at the star read back. */
  lemma InsertedAliasRow(t: Tables, ns: StarIds.NewStar, newId: int, order: seq<(string, string)>, i: nat)
    requires CommitStar(t, ns, newId, order).Ok? && i < |order|
    ensures var r := CommitStar(t, ns, newId, order).value;
            var a := AliasRows(r.1["id"], order)[i];
            a in r.0.aliases && a["name"] == Str(order[i].1) && a["star"] == r.1["id"]
  {
    var r := CommitStar(t, ns, newId, order).value;
    assert r.0.aliases[|t.aliases| + i] == AliasRows(r.1["id"], order)[i];
  }

  /** What `insert_star` writes, `fetch_star` reads back: with the main id
      and the aliases compressed (as the SIMBAD lookups leave them) and
      every stored star carrying a non-NULL id, each alias SIMBAD returned
      finds a star. */
  lemma InsertedAliasesFindStar(t: Tables, ns: StarIds.NewStar, newId: int, order: seq<(string, string)>,
                                ty: string, n: string)
    requires forall s :: s in t.stars ==> "id" in s && s["id"] != Null
    requires Utils.CompressSpace(ns.info.mainId) == ns.info.mainId
    requires forall p :: p in ns.aliases <==> p in order
    requires (ty, n) in ns.aliases && Utils.CompressSpace(n) == n
    ensures CommitStar(t, ns, newId, order).Ok?
    ensures FetchStar(CommitStar(t, ns, newId, order).value.0, map["name" := Str(n)]).Ok?
    ensures FetchStar(CommitStar(t, ns, newId, order).value.0, map["name" := Str(n)]).value.Some?
  {
    var r := CommitStar(t, ns, newId, order).value;
    var i :| 0 <= i < |order| && order[i] == (ty, n);
    ReadBackHasId(t, ns, newId, order);
    InsertedAliasRow(t, ns, newId, order, i);
    AliasHit(r.0, AliasRows(r.1["id"], order)[i], r.1, n);
  }
}

=== FILE: datapkg.dfy ===
/** The pure parts of the data-package readers (sunstardb/datapkg.py):
    fixed-width line parsing, string clean-up, the JSON reader's tagging
    and defaults, and the `info.json` split into known fields and extras.
    `float(...)` and `strptime` are parameters; files are not read. */
module DataPkg {
  import opened Wrappers
  import opened Values
  import opened Strings

  // ---- TextDataReader.byteparse ----------------------------------------------

  /** Python's reading of a slice bound `x` on a sequence of length `n`:
      negative bounds count from the end, and both are clamped into `0..n`. */
  function SliceIndex(x: int, n: nat): (k: nat)
    ensures k <= n
    ensures 0 <= x <= n ==> k == x
    ensures x < 0 && 0 <= x + n as int ==> k as int == x + n as int
    ensures x + n as int < 0 ==> k == 0
  {
    if x < 0 then (if x + n < 0 then 0 else x + n) else if x > n then n else x
  }

  /** `s[i:j]`: never fails, yields a contiguous piece of `s`. */
  function PySlice(s: string, i: int, j: int): (r: string)
    ensures |r| <= |s|
    ensures 0 <= i <= j <= |s| ==> r == s[i..j]
    ensures 0 <= i <= |s| < j ==> r == s[i..]
    ensures 0 <= i && (0 <= j <= i || |s| <= i) ==> r == ""
  {
    var lo := SliceIndex(i, |s|);
    var hi := SliceIndex(j, |s|);
    if lo < hi then s[lo..hi] else ""
  }

  predicate IsNewline(c: char) { c == '\n' }

  /** `(initial, final, type)` of one field. */
  datatype FieldSpec = FieldSpec(initial: int, final: int, code: string)

  /** What one field's text turns into: a value, a raised error, or an
      unrecognised type code. */
  datatype Conv = Converted(v: Value) | Raised(e: Error) | UnknownCode(code: string)

  /** `datestr = text.replace(' ', '0')`. */
  function DateText(raw: string): (t: string)
    ensures |t| == |raw| && forall i :: 0 <= i < |raw| ==> t[i] == (if raw[i] == ' ' then '0' else raw[i])
    ensures forall i :: 0 <= i < |t| ==> t[i] != ' '
  {
    seq(|raw|, i requires 0 <= i < |raw| => if raw[i] == ' ' then '0' else raw[i])
  }

  predicate IsDateCode(code: string) { |code| >= 1 && code[0] == 'D' }

  /** The conversion of one field: `s` keeps the text, `i` and `f` parse it
      stripped (a failure raises `ValueError`), `D<fmt>` parses it as a date
      after turning spaces into zeros (a failure gives None), and any other
      code is unrecognised. */
  function Convert(raw: string, code: string, parseFloat: string -> Option<real>,
                   parseDate: (string, string) -> Option<Value>): (c: Conv)
    ensures c.UnknownCode? <==> code != "s" && code != "i" && code != "f" && !IsDateCode(code)
    ensures c.UnknownCode? ==> c.code == code
    ensures code == "s" ==> c == Converted(Str(raw))
    ensures code == "i" ==> (c.Converted? <==> ParseInt(Strip(raw)).Some?)
    ensures code == "i" && c.Converted? ==> c.v == Int(ParseInt(Strip(raw)).value)
    ensures code == "i" && !c.Converted? ==> c.Raised? && c.e.ValueError?
    ensures code == "f" ==> (c.Converted? <==> parseFloat(Strip(raw)).Some?)
    ensures code == "f" && c.Converted? ==> c.v == Float(parseFloat(Strip(raw)).value)
    ensures code == "f" && !c.Converted? ==> c.Raised? && c.e.ValueError?
    ensures IsDateCode(code) ==> c.Converted?
    ensures IsDateCode(code) && parseDate(DateText(raw), code[1..]).Some? ==> c.v == parseDate(DateText(raw), code[1..]).value
    ensures IsDateCode(code) && parseDate(DateText(raw), code[1..]).None? ==> c.v == Null
  {
    if code == "s" then Converted(Str(raw))
    else if code == "i" then
      match ParseInt(Strip(raw))
      case Some(n) => Converted(Int(n))
      case None => Raised(ValueError("invalid literal for int()"))
    else if code == "f" then
      match parseFloat(Strip(raw))
      case Some(x) => Converted(Float(x))
      case None => Raised(ValueError("could not convert string to float"))
    else if IsDateCode(code) then
      var d := parseDate(DateText(raw), code[1..]);
      Converted(if d.Some? then d.value else Null)
    else UnknownCode(code)
  }

  /** One field of a line: its key, its type code and its conversion. */
  datatype Field = Field(key: string, code: string, conv: Conv)

  /** The fields of `line` described by `spec`, in the order the spec is
      iterated. Conversions are pure, so computing them all up front and
      stopping at the first failure below behaves like the source's loop. */
  function Fields(line: string, spec: seq<(string, FieldSpec)>, parseFloat: string -> Option<real>,
                  parseDate: (string, string) -> Option<Value>): (fs: seq<Field>)
    ensures |fs| == |spec|
    ensures forall i :: 0 <= i < |spec| ==> fs[i].key == spec[i].0 && fs[i].code == spec[i].1.code
  {
    seq(|spec|, i requires 0 <= i < |spec| =>
      Field(spec[i].0, spec[i].1.code,
            Convert(PySlice(line, spec[i].1.initial, spec[i].1.final), spec[i].1.code, parseFloat, parseDate)))
  }

  /** The error a failed conversion raises: its own, or for an unknown
      code `Exception('unknown type ' + code)`. */
  function ConvError(c: Conv): Error
    requires !c.Converted?
  {
    if c.Raised? then c.e else UnknownTypeCode(c.code)
  }

  /** The fields added to `acc` one by one; the first that fails decides
      the error. */
  function Collect(fs: seq<Field>, acc: Record): (r: Result<Record, Error>)
    ensures r.Ok? <==> forall i :: 0 <= i < |fs| ==> fs[i].conv.Converted?
    decreases |fs|
  {
    if |fs| == 0 then Ok(acc)
    else if fs[0].conv.Converted? then
      assert forall i :: 1 <= i < |fs| ==> fs[i] == fs[1..][i - 1];
      Collect(fs[1..], acc[fs[0].key := fs[0].conv.v])
    else Err(ConvError(fs[0].conv))
  }

  /** The conversion of field `i` of `spec` on `line` once its trailing
      newlines are gone. */
  function FieldConv(line: string, spec: seq<(string, FieldSpec)>, i: nat, parseFloat: string -> Option<real>,
                     parseDate: (string, string) -> Option<Value>): Conv
    requires i < |spec|
  {
    Convert(PySlice(RStripBy(line, IsNewline), spec[i].1.initial, spec[i].1.final), spec[i].1.code, parseFloat, parseDate)
  }

  /** `byteparse(line, **spec)` as evidently intended: trailing newlines
      dropped, then each field sliced and converted. The line parses
      exactly when every field converts; otherwise the first field that
      does not decides the error. */
  function ByteParse(line: string, spec: seq<(string, FieldSpec)>, parseFloat: string -> Option<real>,
                     parseDate: (string, string) -> Option<Value>): (r: Result<Record, Error>)
    ensures r.Ok? <==> forall i :: 0 <= i < |spec| ==> FieldConv(line, spec, i, parseFloat, parseDate).Converted?
    ensures r.Err? ==> exists i :: 0 <= i < |spec| && !FieldConv(line, spec, i, parseFloat, parseDate).Converted?
                                   && (forall j :: 0 <= j < i ==> FieldConv(line, spec, j, parseFloat, parseDate).Converted?)
                                   && r.error == ConvError(FieldConv(line, spec, i, parseFloat, parseDate))
  {
    var fs := Fields(RStripBy(line, IsNewline), spec, parseFloat, parseDate);
    assert forall i :: 0 <= i < |spec| ==> fs[i].conv == FieldConv(line, spec, i, parseFloat, parseDate);
    CollectOutcome(fs, map[]);
    Collect(fs, map[])
  }

  /** The index of the first field from `k` on that does not convert, or
      `|fs|` when they all do. */
  function FirstFailure(fs: seq<Field>, k: nat): (i: nat)
    requires k <= |fs|
    ensures k <= i <= |fs|
    ensures forall j :: k <= j < i ==> fs[j].conv.Converted?
    ensures i < |fs| ==> !fs[i].conv.Converted?
    decreases |fs| - k
  {
    if k == |fs| || !fs[k].conv.Converted? then k else FirstFailure(fs, k + 1)
  }

  /** A failed parse reports the error of the first field that fails. */
  lemma {:induction false} CollectError(fs: seq<Field>, acc: Record, i: nat)
    requires i < |fs| && !fs[i].conv.Converted?
    requires forall j :: 0 <= j < i ==> fs[j].conv.Converted?
    ensures Collect(fs, acc) == Err(ConvError(fs[i].conv))
    decreases |fs|
  {
    if i > 0 {
      assert fs[0].conv.Converted?;
      var tail := fs[1..];
      assert tail[i - 1] == fs[i];
      assert forall j :: 0 <= j < i - 1 ==> tail[j].conv.Converted? by {
        forall j | 0 <= j < i - 1 ensures tail[j].conv.Converted? {
          assert tail[j] == fs[j + 1];
        }
      }
      CollectError(tail, acc[fs[0].key := fs[0].conv.v], i - 1);
    }
  }

  /** Whether the line parses, and if not which error it raises, is decided
      by the first field that does not convert. */
  lemma CollectOutcome(fs: seq<Field>, acc: Record)
    ensures var i := FirstFailure(fs, 0);
            (Collect(fs, acc).Ok? <==> i == |fs|)
            && (i < |fs| ==> Collect(fs, acc) == Err(ConvError(fs[i].conv)))
  {
    var i := FirstFailure(fs, 0);
    if i < |fs| {
      CollectError(fs, acc, i);
    }
  }

  function KeysOf(fs: seq<Field>): set<string> {
    set i | 0 <= i < |fs| :: fs[i].key
  }

  /** With distinct keys, a parsed record holds exactly the fields' keys
      (besides `acc`'s), each with its field's value. */
  lemma {:induction false} CollectValues(fs: seq<Field>, acc: Record)
    requires forall i, j :: 0 <= i < j < |fs| ==> fs[i].key != fs[j].key
    requires Collect(fs, acc).Ok?
    ensures Collect(fs, acc).value.Keys == acc.Keys + KeysOf(fs)
    ensures forall i :: 0 <= i < |fs| ==> Collect(fs, acc).value[fs[i].key] == fs[i].conv.v
    ensures forall k :: k in acc && (forall i :: 0 <= i < |fs| ==> fs[i].key != k) ==> Collect(fs, acc).value[k] == acc[k]
    decreases |fs|
  {
    if |fs| > 0 {
      var tail := fs[1..];
      assert forall i :: 1 <= i < |fs| ==> fs[i] == tail[i - 1];
      CollectValues(tail, acc[fs[0].key := fs[0].conv.v]);
      assert KeysOf(fs) == {fs[0].key} + KeysOf(tail) by {
        forall k | k in KeysOf(fs) ensures k in {fs[0].key} + KeysOf(tail) {
          var i :| 0 <= i < |fs| && fs[i].key == k;
          if i > 0 { assert tail[i - 1].key == k; }
        }
      }
    }
  }

  /** A parsed line: the spec's keys, each with its field's conversion. */
  lemma ByteParseValues(line: string, spec: seq<(string, FieldSpec)>, parseFloat: string -> Option<real>,
                        parseDate: (string, string) -> Option<Value>)
    requires forall i, j :: 0 <= i < j < |spec| ==> spec[i].0 != spec[j].0
    requires ByteParse(line, spec, parseFloat, parseDate).Ok?
    ensures ByteParse(line, spec, parseFloat, parseDate).value.Keys == set i | 0 <= i < |spec| :: spec[i].0
    ensures forall i :: 0 <= i < |spec| ==>
              ByteParse(line, spec, parseFloat, parseDate).value[spec[i].0]
              == Convert(PySlice(RStripBy(line, IsNewline), spec[i].1.initial, spec[i].1.final), spec[i].1.code,
                         parseFloat, parseDate).v
  {
    var fs := Fields(RStripBy(line, IsNewline), spec, parseFloat, parseDate);
    CollectValues(fs, map[]);
    assert KeysOf(fs) == set i | 0 <= i < |spec| :: spec[i].0;
  }

  /** Trailing newlines do not matter. */
  lemma ByteParseNewline(line: string, spec: seq<(string, FieldSpec)>, parseFloat: string -> Option<real>,
                         parseDate: (string, string) -> Option<Value>)
    ensures ByteParse(line + "\n", spec, parseFloat, parseDate) == ByteParse(line, spec, parseFloat, parseDate)
  {
    assert (line + "\n")[..|line + "\n"| - 1] == line;
  }

  /** `byteparse` as written: the unknown-code message interpolates
      `format`, which Python treats as a local of the function; it holds the
      last date format seen, and before any date field it is unbound
      (`UnboundLocalError`, a `NameError`). */
  function CollectAsWritten(fs: seq<Field>, acc: Record, format: Option<string>): (r: Result<Record, Error>)
    ensures r.Ok? <==> forall i :: 0 <= i < |fs| ==> fs[i].conv.Converted?
    decreases |fs|
  {
    if |fs| == 0 then Ok(acc)
    else
      var format' := if IsDateCode(fs[0].code) then Some(fs[0].code[1..]) else format;
      match fs[0].conv
      case Converted(v) =>
        assert forall i :: 1 <= i < |fs| ==> fs[i] == fs[1..][i - 1];
        CollectAsWritten(fs[1..], acc[fs[0].key := v], format')
      case Raised(e) => Err(e)
      case UnknownCode(_) => if format.Some? then Err(UnknownTypeCode(format.value)) else Err(NameError("format"))
  }

  /** `byteparse` as written: it parses exactly the lines the intended
      version parses, and raises the same error unless some field has a
      type code it does not know. */
  function ByteParseAsWritten(line: string, spec: seq<(string, FieldSpec)>, parseFloat: string -> Option<real>,
                              parseDate: (string, string) -> Option<Value>): (r: Result<Record, Error>)
    ensures r.Ok? <==> forall i :: 0 <= i < |spec| ==> FieldConv(line, spec, i, parseFloat, parseDate).Converted?
    ensures (forall i :: 0 <= i < |spec| ==> !FieldConv(line, spec, i, parseFloat, parseDate).UnknownCode?) ==>
              r == ByteParse(line, spec, parseFloat, parseDate)
  {
    var fs := Fields(RStripBy(line, IsNewline), spec, parseFloat, parseDate);
    assert forall i :: 0 <= i < |spec| ==> fs[i].conv == FieldConv(line, spec, i, parseFloat, parseDate);
    assert (forall i :: 0 <= i < |fs| ==> !fs[i].conv.UnknownCode?) ==> CollectAsWritten(fs, map[], None) == Collect(fs, map[]) by {
      if forall i :: 0 <= i < |fs| ==> !fs[i].conv.UnknownCode? {
        AsWrittenAgreesOnKnownCodes(fs, map[], None);
      }
    }
    CollectAsWritten(fs, map[], None)
  }

  /** The two agree whenever every type code is recognised. */
  lemma {:induction false} AsWrittenAgreesOnKnownCodes(fs: seq<Field>, acc: Record, format: Option<string>)
    requires forall i :: 0 <= i < |fs| ==> !fs[i].conv.UnknownCode?
    ensures CollectAsWritten(fs, acc, format) == Collect(fs, acc)
    decreases |fs|
  {
    if |fs| > 0 && fs[0].conv.Converted? {
      var format' := if IsDateCode(fs[0].code) then Some(fs[0].code[1..]) else format;
      assert forall i :: 1 <= i < |fs| ==> fs[i] == fs[1..][i - 1];
      AsWrittenAgreesOnKnownCodes(fs[1..], acc[fs[0].key := fs[0].conv.v], format');
    }
  }

  function NoFloat(s: string): Option<real> { None }
  function NoDate(s: string, fmt: string): Option<Value> { None }

  /** An unknown code as the first field: the intended error names the
      code, the code as written fails on the unbound `format`. */
  lemma UnknownCodeFirst()
    ensures ByteParse("abc", [("x", FieldSpec(0, 1, "q"))], NoFloat, NoDate) == Err(UnknownTypeCode("q"))
    ensures ByteParseAsWritten("abc", [("x", FieldSpec(0, 1, "q"))], NoFloat, NoDate) == Err(NameError("format"))
  {
    assert RStripBy("abc", IsNewline) == "abc";
    var fs := Fields("abc", [("x", FieldSpec(0, 1, "q"))], NoFloat, NoDate);
    assert fs[0].conv == UnknownCode("q");
  }

  /** After a date field, the message as written names the date format
      instead of the unknown code. */
  lemma UnknownCodeAfterDate()
    ensures ByteParseAsWritten("abc", [("d", FieldSpec(0, 2, "D%y")), ("x", FieldSpec(0, 1, "q"))], NoFloat, NoDate)
            == Err(UnknownTypeCode("%y"))
    ensures ByteParse("abc", [("d", FieldSpec(0, 2, "D%y")), ("x", FieldSpec(0, 1, "q"))], NoFloat, NoDate)
            == Err(UnknownTypeCode("q"))
  {
    assert RStripBy("abc", IsNewline) == "abc";
    var fs := Fields("abc", [("d", FieldSpec(0, 2, "D%y")), ("x", FieldSpec(0, 1, "q"))], NoFloat, NoDate);
    assert IsDateCode("D%y") && "D%y"[1..] == "%y";
    assert fs[0] == Field("d", "D%y", Converted(Null));
    assert fs[1].conv == UnknownCode("q");
    assert fs[1..][0] == fs[1];
    assert CollectAsWritten(fs[1..], map["d" := Null], Some("%y")) == Err(UnknownTypeCode("%y"));
    assert Collect(fs[1..], map["d" := Null]) == Err(UnknownTypeCode("q"));
  }

  // ---- TextDataReader.stripstr -----------------------------------------------

  /** Whether `stripstr` touches key `k`: every key, or those listed. */
  predicate Selected(k: string, strlist: Option<set<string>>) {
    strlist.None? || k in strlist.value
  }

  /** One value cleaned: a string stripped, an empty result becoming None. */
  function StripValue(v: Value): (w: Value)
    ensures !v.Str? ==> w == v
    ensures v.Str? ==> (w == Null <==> AllSatisfy(v.s, IsSpace))
    ensures v.Str? && w != Null ==> w.Str? && |w.s| > 0 && StrippedFrom(w.s, v.s)
  {
    if v.Str? then
      var t := Strip(v.s);
      StripEmpty(v.s);
      if t == "" then Null else Str(t)
    else v
  }

  /** `stripstr(datadict, strlist)`: each selected string value is
      replaced by its stripped text, or by None when it is all whitespace;
      every other entry is kept. */
  function StripStr(d: Record, strlist: Option<set<string>>): (r: Record)
    ensures r.Keys == d.Keys
    ensures forall k :: k in d && !(d[k].Str? && Selected(k, strlist)) ==> r[k] == d[k]
    ensures forall k :: k in d && d[k].Str? && Selected(k, strlist) ==>
              (r[k] == Null <==> AllSatisfy(d[k].s, IsSpace))
              && (r[k] != Null ==> r[k].Str? && |r[k].s| > 0 && StrippedFrom(r[k].s, d[k].s))
  {
    map k | k in d :: if Selected(k, strlist) then StripValue(d[k]) else d[k]
  }

  /** Cleaning twice is cleaning once. */
  lemma StripStrIdempotent(d: Record, strlist: Option<set<string>>)
    ensures StripStr(StripStr(d, strlist), strlist) == StripStr(d, strlist)
  {
    var once := StripStr(d, strlist);
    forall k | k in once ensures StripStr(once, strlist)[k] == once[k] {
      if Selected(k, strlist) && once[k].Str? {
        assert StrippedFrom(once[k].s, d[k].s);
        StripNoEdge(once[k].s);
      }
    }
  }

  // ---- JsonDataReader.data -----------------------------------------------------

  /** `set_default(ptype, obj)`: the type's defaults fill the keys `obj`
      lacks; nothing happens without defaults for the type. */
  function SetDefault(defaults: Option<map<string, Record>>, ptype: string, obj: Record): (r: Record)
    ensures defaults.None? || ptype !in defaults.value ==> r == obj
    ensures forall k :: k in obj ==> k in r && r[k] == obj[k]
    ensures defaults.Some? && ptype in defaults.value ==>
              r.Keys == obj.Keys + defaults.value[ptype].Keys
              && forall k :: k in r && k !in obj ==> r[k] == defaults.value[ptype][k]
  {
    if defaults.None? || ptype !in defaults.value then obj
    else
      var defs := defaults.value[ptype];
      map k | k in obj.Keys + defs.Keys :: if k in obj then obj[k] else defs[k]
  }

  /** One yielded record: `p['type'] = ptype` first, then the defaults. */
  function Tag(defaults: Option<map<string, Record>>, ptype: string, p: Record): (r: Record)
    ensures "type" in r && r["type"] == Str(ptype)
    ensures forall k :: k in p && k != "type" ==> k in r && r[k] == p[k]
  {
    SetDefault(defaults, ptype, p["type" := Str(ptype)])
  }

  /** The records of one group, tagged, in list order. */
  function Group(defaults: Option<map<string, Record>>, ptype: string, ps: seq<Record>): (rs: seq<Record>)
    ensures |rs| == |ps| && forall i :: 0 <= i < |ps| ==> rs[i] == Tag(defaults, ptype, ps[i])
  {
    seq(|ps|, i requires 0 <= i < |ps| => Tag(defaults, ptype, ps[i]))
  }

  /** `data()`: the groups of `properties` in iteration order, each record
      tagged with its group's type. */
  function JsonData(groups: seq<(string, seq<Record>)>, defaults: Option<map<string, Record>>): (rs: seq<Record>)
    decreases |groups|
  {
    if |groups| == 0 then [] else Group(defaults, groups[0].0, groups[0].1) + JsonData(groups[1..], defaults)
  }

  /** Every record yielded carries the type of one of the groups, and
      nothing is yielded exactly when every group is empty. */
  lemma {:induction false} JsonDataTyped(groups: seq<(string, seq<Record>)>, defaults: Option<map<string, Record>>)
    ensures var rs := JsonData(groups, defaults);
            (forall k :: 0 <= k < |rs| ==> "type" in rs[k] && exists g :: 0 <= g < |groups| && rs[k]["type"] == Str(groups[g].0))
            && ((forall g :: 0 <= g < |groups| ==> |groups[g].1| == 0) <==> rs == [])
    decreases |groups|
  {
    if |groups| > 0 {
      var rest := groups[1..];
      JsonDataTyped(rest, defaults);
      var head := Group(defaults, groups[0].0, groups[0].1);
      var tail := JsonData(rest, defaults);
      var rs := head + tail;
      assert JsonData(groups, defaults) == rs;
      assert forall g :: 1 <= g < |groups| ==> groups[g] == rest[g - 1];
      forall k | 0 <= k < |rs|
        ensures "type" in rs[k] && exists g :: 0 <= g < |groups| && rs[k]["type"] == Str(groups[g].0)
      {
        if k < |head| {
          assert rs[k] == head[k] && rs[k]["type"] == Str(groups[0].0);
        } else {
          assert rs[k] == tail[k - |head|];
          var g :| 0 <= g < |rest| && tail[k - |head|]["type"] == Str(rest[g].0);
          assert rs[k]["type"] == Str(groups[g + 1].0);
        }
      }
    }
  }

  /** How many records the groups before `g` yield. */
  function Offset(groups: seq<(string, seq<Record>)>, g: nat): nat
    requires g <= |groups|
    decreases g
  {
    if g == 0 then 0 else Offset(groups, g - 1) + |groups[g - 1].1|
  }

  lemma {:induction false} OffsetTail(groups: seq<(string, seq<Record>)>, g: nat)
    requires 0 < g <= |groups|
    ensures Offset(groups, g) == |groups[0].1| + Offset(groups[1..], g - 1)
    decreases g
  {
    if g > 1 {
      OffsetTail(groups, g - 1);
    }
  }

  /** All records are yielded, group by group in order: record `i` of
      group `g` comes out at `Offset(g) + i`, tagged with the group's type. */
  lemma {:induction false} JsonDataAt(groups: seq<(string, seq<Record>)>, defaults: Option<map<string, Record>>, g: nat, i: nat)
    requires g < |groups| && i < |groups[g].1|
    ensures |JsonData(groups, defaults)| == Offset(groups, |groups|)
    ensures Offset(groups, g) + i < |JsonData(groups, defaults)|
    ensures JsonData(groups, defaults)[Offset(groups, g) + i] == Tag(defaults, groups[g].0, groups[g].1[i])
    decreases |groups|
  {
    JsonDataLength(groups, defaults);
    OffsetMonotone(groups, g + 1, |groups|);
    var head := Group(defaults, groups[0].0, groups[0].1);
    var tail := JsonData(groups[1..], defaults);
    assert JsonData(groups, defaults) == head + tail;
    if g == 0 {
      FrontAt(JsonData(groups, defaults), head, tail, i, Tag(defaults, groups[0].0, groups[0].1[i]));
    } else {
      OffsetTail(groups, g);
      var rest := groups[1..];
      assert rest[g - 1] == groups[g];
      JsonDataAt(rest, defaults, g - 1, i);
      var k := Offset(rest, g - 1) + i;
      BackAt(JsonData(groups, defaults), head, tail, k, Tag(defaults, groups[g].0, groups[g].1[i]));
      assert |head| == |groups[0].1|;
      IndexEq(JsonData(groups, defaults), Offset(groups, g) + i, |head| + k, Tag(defaults, groups[g].0, groups[g].1[i]));
    }
  }

  lemma IndexEq<T>(all: seq<T>, a: int, b: int, x: T)
    requires a == b && 0 <= b < |all| && all[b] == x
    ensures 0 <= a < |all| && all[a] == x
  {
  }

  lemma FrontAt<T>(all: seq<T>, front: seq<T>, back: seq<T>, k: nat, x: T)
    requires all == front + back && k < |front| && front[k] == x
    ensures k < |all| && all[k] == x
  {
  }

  lemma BackAt<T>(all: seq<T>, front: seq<T>, back: seq<T>, k: nat, x: T)
    requires all == front + back && k < |back| && back[k] == x
    ensures |front| + k < |all| && all[|front| + k] == x
  {
  }

  lemma {:induction false} JsonDataLength(groups: seq<(string, seq<Record>)>, defaults: Option<map<string, Record>>)
    ensures |JsonData(groups, defaults)| == Offset(groups, |groups|)
    decreases |groups|
  {
    if |groups| > 0 {
      JsonDataLength(groups[1..], defaults);
      OffsetTail(groups, |groups|);
    }
  }

  lemma {:induction false} OffsetMonotone(groups: seq<(string, seq<Record>)>, a: nat, b: nat)
    requires a <= b <= |groups|
    ensures Offset(groups, a) <= Offset(groups, b)
    decreases b - a
  {
    if a < b {
      OffsetMonotone(groups, a, b - 1);
    }
  }

  /** A default for `type` never overrides the group's type. */
  lemma DefaultsKeepType(defaults: Option<map<string, Record>>, ptype: string, p: Record)
    requires defaults.Some? && ptype in defaults.value && "type" in defaults.value[ptype]
    ensures Tag(defaults, ptype, p)["type"] == Str(ptype)
  {
  }

  // ---- BaseDataReader._load_info ----------------------------------------------

  /** What `_load_info` keeps: the four known fields and the extras. */
  datatype Info = Info(reference: Value, origin: Value, instrument: Value, sanityCheck: Value, extras: Option<Record>)

  const InfoKeys: set<string> := {"reference", "origin", "instrument", "sanity_check"}

  /** `js.get(k)`. */
  function GetOr(d: Record, k: string): (v: Value)
    ensures k in d ==> v == d[k]
    ensures k !in d ==> v == Null
  {
    if k in d then d[k] else Null
  }

  /** The extras: every other key, or None when there is none. */
  function Extras(js: Record): (r: Option<Record>)
    ensures r.None? <==> js.Keys <= InfoKeys
    ensures r.Some? ==> r.value.Keys == js.Keys - InfoKeys && forall k :: k in r.value ==> r.value[k] == js[k]
  {
    if js.Keys <= InfoKeys then None else Some(map k | k in js && k !in InfoKeys :: js[k])
  }

  /** `'%s' % v`: a string as itself, anything else as `show` renders it. */
  function Show(v: Value, show: Value -> string): string {
    if v.Str? then v.s else show(v)
  }

  const AdsPrefix: string := "adslabs.harvard.edu/abs/"

  /** The PAPER copy: the origin takes the reference's name, an ADS url
      built from its bibcode, and its bibline as description. */
  function PaperOrigin(origin: Record, reference: Value, show: Value -> string): (r: Result<Record, Error>)
    ensures r.Ok? <==> reference.Dict? && "name" in reference.fields && "bibcode" in reference.fields
                       && "bibline" in reference.fields
    ensures r.Ok? ==> r.value.Keys == origin.Keys + {"name", "url", "description"}
    ensures r.Ok? ==> r.value["name"] == reference.fields["name"]
                      && r.value["url"] == Str(AdsPrefix + Show(reference.fields["bibcode"], show))
                      && r.value["description"] == reference.fields["bibline"]
    ensures r.Ok? ==> forall k :: k in origin && k !in {"name", "url", "description"} ==> r.value[k] == origin[k]
  {
    if !reference.Dict? then Err(TypeError("reference is not a dict"))
    else
      var name :- Get(reference.fields, "name");
      var bibcode :- Get(reference.fields, "bibcode");
      var bibline :- Get(reference.fields, "bibline");
      Ok(origin["name" := name]["url" := Str(AdsPrefix + Show(bibcode, show))]["description" := bibline])
  }

  /** `_load_info` on the parsed `info.json` object `js`. */
  function LoadInfo(js: Record, show: Value -> string): (r: Result<Info, Error>)
    ensures r.Ok? <==> "reference" in js && "origin" in js && js["origin"].Dict? && "kind" in js["origin"].fields
                       && (js["origin"].fields["kind"] == Str("PAPER") ==>
                             PaperOrigin(js["origin"].fields, js["reference"], show).Ok?)
    ensures r.Ok? ==> r.value.reference == js["reference"] && r.value.instrument == GetOr(js, "instrument")
                      && r.value.sanityCheck == GetOr(js, "sanity_check") && r.value.extras == Extras(js)
    ensures r.Ok? && js["origin"].fields["kind"] != Str("PAPER") ==> r.value.origin == js["origin"]
    ensures r.Ok? && js["origin"].fields["kind"] == Str("PAPER") ==>
              r.value.origin == Dict(PaperOrigin(js["origin"].fields, js["reference"], show).value)
    ensures "reference" !in js ==> r == Err(KeyError("reference"))
    ensures "reference" in js && "origin" !in js ==> r == Err(KeyError("origin"))
  {
    var reference :- Get(js, "reference");
    var origin :- Get(js, "origin");
    var info := Info(reference, origin, GetOr(js, "instrument"), GetOr(js, "sanity_check"), Extras(js));
    if !origin.Dict? then Err(TypeError("origin is not a dict"))
    else
      var kind :- Get(origin.fields, "kind");
      if kind == Str("PAPER") then
        var o :- PaperOrigin(origin.fields, reference, show);
        Ok(info.(origin := Dict(o)))
      else Ok(info)
  }

  /** Nothing of `info.json` is lost: every key is one of the four known
      ones or an extra, and the known ones that are present come back. */
  lemma LoadInfoKeepsEverything(js: Record, show: Value -> string)
    requires LoadInfo(js, show).Ok?
    ensures var info := LoadInfo(js, show).value;
            forall k :: k in js ==> (k in InfoKeys) != (info.extras.Some? && k in info.extras.value)
    ensures var info := LoadInfo(js, show).value;
            ("instrument" in js ==> info.instrument == js["instrument"])
            && ("sanity_check" in js ==> info.sanityCheck == js["sanity_check"])
  {
  }
}

=== FILE: dataquery.dfy ===
/** `fetch_data_table` and `fetch_data_cols` (sunstardb/database.py): the
    N-way join that lays out, per star of a dataset, one column of data per
    requested property type, and its transpose into columns.  The query is
    modelled twice: as the clause structure the code assembles, and as the
    rows that query yields when run against a store. */
module DataQuery {
  import opened Wrappers
  import opened Values
  import opened Strings
  import SqlHappy
  import Store

  // ---- the clause structure ------------------------------------------------

  datatype JoinKind = InnerJoin | LeftJoin

  /** `dNN AS (SELECT d.* FROM dat_T d JOIN dataset_map ... WHERE ds.name = %(dataset)s)`. */
  datatype SubQuery = SubQuery(alias: string, table: string)

  /** A selected column: `s.name star`, or `dNN.T`. */
  datatype SelectCol = StarName | DataCol(alias: string, column: string)

  /** `<kind> dNN ON dNN.star = s.id`. */
  datatype Join = Join(kind: JoinKind, alias: string)

  /** `WITH subs, uq_stars AS (SELECT star FROM u0 UNION ...) SELECT select
      FROM uq_stars us JOIN star s ON s.id = us.star joins`. */
  datatype Query = Query(subs: seq<SubQuery>, union: seq<string>, select: seq<SelectCol>, joins: seq<Join>)

  /** The alias of the `i`-th sub-query, `"d%02i" % i`. */
  function Alias(i: nat): string { "d" + Pad2(i) }

  lemma AliasInjective(i: nat, j: nat)
    requires Alias(i) == Alias(j)
    ensures i == j
  {
    assert Pad2(i) == Alias(i)[1..] && Pad2(j) == Alias(j)[1..];
    Pad2Injective(i, j);
  }

  /** `LEFT JOIN` exactly when `nulls is True`; any other value, truthy or
      not, gives an inner `JOIN`. */
  function KindOf(nulls: Value): JoinKind {
    if nulls == Bool(true) then LeftJoin else InnerJoin
  }

  /** The statement `fetch_data_table` assembles for `ptypes`. */
  method BuildDataTableQuery(ptypes: seq<string>, nulls: Value) returns (q: Query)
    ensures |q.subs| == |ptypes| && |q.union| == |ptypes| && |q.joins| == |ptypes| && |q.select| == |ptypes| + 1
    ensures q.select[0] == StarName
    ensures forall i :: 0 <= i < |ptypes| ==>
              q.subs[i] == SubQuery(Alias(i), Store.TableOf(ptypes[i])) && q.union[i] == Alias(i)
              && q.select[i + 1] == DataCol(Alias(i), ptypes[i]) && q.joins[i] == Join(KindOf(nulls), Alias(i))
  {
    var subs := BuildSubs(ptypes);
    var union, select := BuildSelect(ptypes);
    var joins := BuildJoins(ptypes, nulls);
    q := Query(subs, union, select, joins);
  }

  /** The `WITH` sub-queries, one per type. */
  method BuildSubs(ptypes: seq<string>) returns (subs: seq<SubQuery>)
    ensures |subs| == |ptypes|
    ensures forall k :: 0 <= k < |ptypes| ==> subs[k] == SubQuery(Alias(k), Store.TableOf(ptypes[k]))
  {
    subs := [];
    var i := 0;
    while i < |ptypes|
      invariant 0 <= i <= |ptypes| && |subs| == i
      invariant forall k :: 0 <= k < i ==> subs[k] == SubQuery(Alias(k), Store.TableOf(ptypes[k]))
    {
      subs := subs + [SubQuery(Alias(i), Store.TableOf(ptypes[i]))];
      i := i + 1;
    }
  }

  /** The `uq_stars` union members and the selected columns. */
  method BuildSelect(ptypes: seq<string>) returns (union: seq<string>, select: seq<SelectCol>)
    ensures |union| == |ptypes| && |select| == |ptypes| + 1 && select[0] == StarName
    ensures forall k :: 0 <= k < |ptypes| ==> union[k] == Alias(k) && select[k + 1] == DataCol(Alias(k), ptypes[k])
  {
    union := [];
    select := [StarName];
    var i := 0;
    while i < |ptypes|
      invariant 0 <= i <= |ptypes| && |union| == i && |select| == i + 1 && select[0] == StarName
      invariant forall k :: 0 <= k < i ==> union[k] == Alias(k) && select[k + 1] == DataCol(Alias(k), ptypes[k])
    {
      union := union + [Alias(i)];
      select := select + [DataCol(Alias(i), ptypes[i])];
      i := i + 1;
    }
  }

  /** The joins, all of the kind `nulls` picks. */
  method BuildJoins(ptypes: seq<string>, nulls: Value) returns (joins: seq<Join>)
    ensures |joins| == |ptypes|
    ensures forall k :: 0 <= k < |ptypes| ==> joins[k] == Join(KindOf(nulls), Alias(k))
  {
    var kind := if nulls == Bool(true) then LeftJoin else InnerJoin;
    joins := [];
    var i := 0;
    while i < |ptypes|
      invariant 0 <= i <= |ptypes| && |joins| == i
      invariant forall k :: 0 <= k < i ==> joins[k] == Join(kind, Alias(k))
    {
      joins := joins + [Join(kind, Alias(i))];
      i := i + 1;
    }
  }

  /** Every alias the statement uses names exactly one sub-query: the one
      built from the same position of `ptypes`. */
  lemma AliasesResolve(n: nat, i: nat, j: nat)
    requires i < n && j < n
    ensures Alias(i) == Alias(j) <==> i == j
  {
    if Alias(i) == Alias(j) {
      AliasInjective(i, j);
    }
  }

  // ---- running the statement -----------------------------------------------

  /** A `star` row. */
  datatype Star = Star(id: Value, name: Value)

  /** A `dataset` row. */
  datatype Dataset = Dataset(id: Value, name: Value)

  /** What the statement reads: the store (data tables and dataset map)
      and the star and dataset tables, rows in storage order. */
  datatype World = World(db: Store.Db, stars: seq<Star>, datasets: seq<Dataset>)

  /** A column of a data-table row; a column the row lacks reads as NULL. */
  function Col(r: Record, k: string): Value {
    if k in r then r[k] else Null
  }

  /** The number of `dataset` rows with id `id` named `name`. */
  function DatasetHits(ds: seq<Dataset>, id: Value, name: Value): (n: nat)
    ensures n <= |ds|
    ensures n > 0 <==> exists d :: d in ds && SqlEq(d.id, id) && SqlEq(d.name, name)
  {
    if |ds| == 0 then 0
    else
      assert forall d :: d in ds ==> d == ds[0] || d in ds[1..];
      (if SqlEq(ds[0].id, id) && SqlEq(ds[0].name, name) then 1 else 0) + DatasetHits(ds[1..], id, name)
  }

  /** The number of (`dataset_map`, `dataset`) row pairs a data row with
      property `prop` joins to in the dataset named `name`. */
  function MapHits(es: seq<Store.MapEntry>, ds: seq<Dataset>, prop: Value, name: Value): (n: nat)
    ensures n > 0 <==> exists e :: e in es && SqlEq(e.property, prop) && DatasetHits(ds, e.dataset, name) > 0
  {
    if |es| == 0 then 0
    else
      assert forall e :: e in es ==> e == es[0] || e in es[1..];
      (if SqlEq(es[0].property, prop) then DatasetHits(ds, es[0].dataset, name) else 0)
      + MapHits(es[1..], ds, prop, name)
  }

  function Repeat(r: Record, n: nat): (rs: seq<Record>)
    ensures |rs| == n && forall k :: 0 <= k < n ==> rs[k] == r
  {
    seq(n, k => r)
  }

  /** The sub-query `dNN`: each row of the data table once per pair of
      dataset-map and dataset rows it joins to, in nested-loop order. */
  function InDataset(w: World, name: Value, rows: seq<Record>): (rs: seq<Record>)
    ensures forall r :: r in rs <==> r in rows && MapHits(w.db.datasetMap, w.datasets, Col(r, "property"), name) > 0
  {
    if |rows| == 0 then []
    else
      assert forall r :: r in rows ==> r == rows[0] || r in rows[1..];
      var n := MapHits(w.db.datasetMap, w.datasets, Col(rows[0], "property"), name);
      assert n > 0 ==> Repeat(rows[0], n)[0] == rows[0];
      Repeat(rows[0], MapHits(w.db.datasetMap, w.datasets, Col(rows[0], "property"), name))
      + InDataset(w, name, rows[1..])
  }

  /** The sub-queries of all requested types, in order; a type with no data
      table makes the statement fail. */
  function Subs(w: World, name: Value, ptypes: seq<string>): (r: Result<seq<seq<Record>>, Error>)
    ensures r.Ok? <==> forall i :: 0 <= i < |ptypes| ==> Store.TableOf(ptypes[i]) in w.db.tables
    ensures r.Ok? ==> |r.value| == |ptypes|
    ensures r.Ok? ==> forall i :: 0 <= i < |ptypes| ==>
                        r.value[i] == InDataset(w, name, w.db.tables[Store.TableOf(ptypes[i])])
    decreases |ptypes|
  {
    if |ptypes| == 0 then Ok([])
    else if Store.TableOf(ptypes[0]) !in w.db.tables then Err(DatabaseError("relation does not exist"))
    else
      var rest :- Subs(w, name, ptypes[1..]);
      assert forall i :: 1 <= i < |ptypes| ==> ptypes[i] == ptypes[1..][i - 1];
      Ok([InDataset(w, name, w.db.tables[Store.TableOf(ptypes[0])])] + rest)
  }

  /** `uq_stars`: the stars of all sub-queries, duplicates merged. */
  function UqStars(subs: seq<seq<Record>>): set<Value> {
    set i, r | 0 <= i < |subs| && r in subs[i] :: Col(r, "star")
  }

  /** The rows of a sub-query that join to star `id` (`dNN.star = s.id`). */
  function MatchesStar(rs: seq<Record>, id: Value): (ms: seq<Record>)
    ensures forall r :: r in ms <==> r in rs && SqlEq(Col(r, "star"), id)
  {
    if |rs| == 0 then []
    else
      assert forall r :: r in rs ==> r == rs[0] || r in rs[1..];
      (if SqlEq(Col(rs[0], "star"), id) then [rs[0]] else []) + MatchesStar(rs[1..], id)
  }

  /** What one join contributes for a star: each matching row, or, for a
      `LEFT JOIN` with no match, one row of NULLs (`None`). */
  function Options(ms: seq<Record>, left: bool): (os: seq<Option<Record>>)
    ensures |ms| > 0 ==> |os| == |ms| && forall k :: 0 <= k < |ms| ==> os[k] == Some(ms[k])
    ensures |ms| == 0 ==> os == (if left then [None] else [])
  {
    if |ms| == 0 then (if left then [None] else []) else seq(|ms|, k requires 0 <= k < |ms| => Some(ms[k]))
  }

  /** The choices each join offers star `id`. */
  function Joined(subs: seq<seq<Record>>, id: Value, left: bool): (js: seq<seq<Option<Record>>>)
    ensures |js| == |subs| && forall i :: 0 <= i < |subs| ==> js[i] == Options(MatchesStar(subs[i], id), left)
  {
    seq(|subs|, i requires 0 <= i < |subs| => Options(MatchesStar(subs[i], id), left))
  }

  /** `h` put in front of each of `tails`. */
  function Prefix<T>(h: T, tails: seq<seq<T>>): (ps: seq<seq<T>>)
    ensures |ps| == |tails| && forall k :: 0 <= k < |tails| ==> ps[k] == [h] + tails[k]
  {
    seq(|tails|, k requires 0 <= k < |tails| => [h] + tails[k])
  }

  /** Every head in front of every tail, heads outermost. */
  function Extend<T>(heads: seq<T>, tails: seq<seq<T>>): (ps: seq<seq<T>>)
    ensures |ps| == 0 <==> |heads| == 0 || |tails| == 0
    ensures forall p :: p in ps ==> |p| > 0 && p[0] in heads && p[1..] in tails
  {
    if |heads| == 0 then []
    else
      var rest := Extend(heads[1..], tails);
      PrefixMembers(heads[0], tails);
      Prefix(heads[0], tails) + rest
  }

  lemma PrefixMembers<T>(h: T, tails: seq<seq<T>>)
    ensures forall p :: p in Prefix(h, tails) ==> |p| > 0 && p[0] == h && p[1..] in tails
  {
    forall p | p in Prefix(h, tails) ensures |p| > 0 && p[0] == h && p[1..] in tails {
      var k :| 0 <= k < |tails| && Prefix(h, tails)[k] == p;
      assert p[1..] == tails[k];
    }
  }

  /** `p` takes its `i`-th element from the `i`-th of `ls`. */
  ghost predicate IsChoice<T>(p: seq<T>, ls: seq<seq<T>>) {
    |p| == |ls| && forall i :: 0 <= i < |ls| ==> p[i] in ls[i]
  }

  lemma ConsChoice<T>(h: T, t: seq<T>, ls: seq<seq<T>>)
    requires |ls| > 0 && h in ls[0] && IsChoice(t, ls[1..])
    ensures IsChoice([h] + t, ls)
  {
    forall i | 1 <= i < |ls| ensures ([h] + t)[i] in ls[i] {
      assert ([h] + t)[i] == t[i - 1] && ls[i] == ls[1..][i - 1];
    }
  }

  /** The cartesian product, in the nested order a left-deep join
      produces. */
  function Product<T>(ls: seq<seq<T>>): (ps: seq<seq<T>>)
    ensures forall p :: p in ps ==> IsChoice(p, ls)
    decreases |ls|
  {
    if |ls| == 0 then [[]]
    else
      ExtendChoices(ls[0], Product(ls[1..]), ls);
      Extend(ls[0], Product(ls[1..]))
  }

  /** Heads from the first list in front of choices from the rest are
      choices from all of them. */
  lemma ExtendChoices<T>(heads: seq<T>, tails: seq<seq<T>>, ls: seq<seq<T>>)
    requires |ls| > 0 && heads == ls[0] && forall t :: t in tails ==> IsChoice(t, ls[1..])
    ensures forall p :: p in Extend(heads, tails) ==> IsChoice(p, ls)
  {
    forall p | p in Extend(heads, tails) ensures IsChoice(p, ls) {
      assert p == [p[0]] + p[1..];
      ConsChoice(p[0], p[1..], ls);
    }
  }

  lemma {:induction false} ProductNonEmpty<T>(ls: seq<seq<T>>)
    ensures |Product(ls)| > 0 <==> forall i :: 0 <= i < |ls| ==> |ls[i]| > 0
    decreases |ls|
  {
    if |ls| > 0 {
      ProductNonEmpty(ls[1..]);
      assert forall i :: 1 <= i < |ls| ==> ls[i] == ls[1..][i - 1];
    }
  }

  /** The output row for star `st` and one choice per join: `s.name star`,
      then each type's column, read and named under its lower-case name
      (PostgreSQL folds the unquoted `dNN.T`, as it folded the column when
      the table was created), NULL where a `LEFT JOIN` found nothing. */
  function OutRow(st: Star, ptypes: seq<string>, c: seq<Option<Record>>): (row: SqlHappy.Row)
    requires |c| == |ptypes|
    ensures |row| == |ptypes| + 1 && row[0] == ("star", st.name)
    ensures forall i :: 0 <= i < |ptypes| ==> row[i + 1] == (Lower(ptypes[i]), Cell(c[i], Lower(ptypes[i])))
  {
    [("star", st.name)] + seq(|ptypes|, i requires 0 <= i < |ptypes| => (Lower(ptypes[i]), Cell(c[i], Lower(ptypes[i]))))
  }

  function Cell(c: Option<Record>, column: string): Value {
    if c.Some? then Col(c.value, column) else Null
  }

  function OutRows(st: Star, ptypes: seq<string>, cs: seq<seq<Option<Record>>>): (rows: seq<SqlHappy.Row>)
    requires forall c :: c in cs ==> |c| == |ptypes|
    ensures |rows| == |cs| && forall k :: 0 <= k < |cs| ==> rows[k] == OutRow(st, ptypes, cs[k])
  {
    seq(|cs|, k requires 0 <= k < |cs| => OutRow(st, ptypes, cs[k]))
  }

  /** The rows star `st` contributes: none unless it is in `uq_stars`
      (and has an id a join can match), then one per combination of join
      choices. */
  function StarRows(st: Star, ptypes: seq<string>, subs: seq<seq<Record>>, left: bool): seq<SqlHappy.Row>
    requires |subs| == |ptypes|
  {
    if st.id != Null && st.id in UqStars(subs) then OutRows(st, ptypes, Product(Joined(subs, st.id, left)))
    else []
  }

  /** The whole result: the stars in star-table order, each with its rows. */
  function AllRows(stars: seq<Star>, ptypes: seq<string>, subs: seq<seq<Record>>, left: bool): (rows: seq<SqlHappy.Row>)
    requires |subs| == |ptypes|
    decreases |stars|
  {
    if |stars| == 0 then []
    else
      StarRows(stars[0], ptypes, subs, left) + AllRows(stars[1..], ptypes, subs, left)
  }

  /** `fetch_data_table(dataset, ptypes, nulls)`: the statement's rows, or
      None when there are none.  With no types the text is not valid SQL
      (an empty `uq_stars` and a dangling comma); a type without a data
      table fails as well. */
  function FetchDataTable(w: World, dataset: Value, ptypes: seq<string>, nulls: Value)
    : (r: Result<Option<seq<SqlHappy.Row>>, Error>)
    ensures r.Ok? <==> |ptypes| > 0 && forall i :: 0 <= i < |ptypes| ==> Store.TableOf(ptypes[i]) in w.db.tables
    ensures r.Ok? && r.value.Some? ==> |r.value.value| > 0
    ensures r.Ok? ==> var subs := Subs(w, dataset, ptypes).value;
                      var rows := AllRows(w.stars, ptypes, subs, nulls == Bool(true));
                      r.value == (if |rows| == 0 then None else Some(rows))
  {
    if |ptypes| == 0 then Err(DatabaseError("syntax error"))
    else
      var subs :- Subs(w, dataset, ptypes);
      Ok(SqlHappy.FetchAll(AllRows(w.stars, ptypes, subs, nulls == Bool(true)), false, []).rows)
  }

  /** `fetch_data_cols(dataset, ptypes, nulls)`: None stays None; otherwise
      the columns `['star'] + ptypes`, each read from every row under its
      lower-case name. */
  function FetchDataCols(w: World, dataset: Value, ptypes: seq<string>, nulls: Value)
    : (r: Result<Option<map<string, seq<Value>>>, Error>)
    ensures FetchDataTable(w, dataset, ptypes, nulls) == Ok(None) ==> r == Ok(None)
    ensures FetchDataTable(w, dataset, ptypes, nulls).Err? ==> r.Err?
    ensures r.Ok? && r.value.Some? ==> r.value.value.Keys == set c | c in ["star"] + ptypes
  {
    var result :- FetchDataTable(w, dataset, ptypes, nulls);
    match result
    case None => Ok(None)
    case Some(rows) =>
      var cols :- SqlHappy.Columns(rows, ["star"] + ptypes, true);
      Ok(Some(cols))
  }

  // ---- what the statement yields -------------------------------------------

  /** Sub-query `i` has a row for star `id`. */
  predicate HasStar(subs: seq<seq<Record>>, i: nat, id: Value)
    requires i < |subs|
  {
    exists r :: r in subs[i] && SqlEq(Col(r, "star"), id)
  }

  lemma JoinedNonEmpty(subs: seq<seq<Record>>, id: Value, left: bool)
    ensures forall i :: 0 <= i < |subs| ==> (|Joined(subs, id, left)[i]| > 0 <==> left || HasStar(subs, i, id))
  {
    forall i | 0 <= i < |subs| ensures |Joined(subs, id, left)[i]| > 0 <==> left || HasStar(subs, i, id) {
      var ms := MatchesStar(subs[i], id);
      if |ms| > 0 {
        assert ms[0] in ms;
      }
    }
  }

  /** A star gets rows exactly when it is in `uq_stars` and, for inner
      joins, every sub-query has a row for it. */
  lemma StarRowsNonEmpty(st: Star, ptypes: seq<string>, subs: seq<seq<Record>>, left: bool)
    requires |subs| == |ptypes|
    ensures |StarRows(st, ptypes, subs, left)| > 0 <==>
              st.id != Null && st.id in UqStars(subs)
              && (left || forall i :: 0 <= i < |subs| ==> HasStar(subs, i, st.id))
  {
    if st.id != Null && st.id in UqStars(subs) {
      JoinedNonEmpty(subs, st.id, left);
      ProductNonEmpty(Joined(subs, st.id, left));
    }
  }

  /** With `nulls=True` (`LEFT JOIN`) every star that has data of any of
      the types in the dataset gets rows. */
  lemma LeftKeepsEveryStar(st: Star, ptypes: seq<string>, subs: seq<seq<Record>>)
    requires |subs| == |ptypes|
    ensures |StarRows(st, ptypes, subs, true)| > 0 <==> st.id != Null && exists i :: 0 <= i < |subs| && HasStar(subs, i, st.id)
  {
    StarRowsNonEmpty(st, ptypes, subs, true);
    if st.id != Null && exists i :: 0 <= i < |subs| && HasStar(subs, i, st.id) {
      var i :| 0 <= i < |subs| && HasStar(subs, i, st.id);
      var r :| r in subs[i] && SqlEq(Col(r, "star"), st.id);
      assert st.id in UqStars(subs);
    }
    if st.id != Null && st.id in UqStars(subs) {
      var i, r :| 0 <= i < |subs| && r in subs[i] && Col(r, "star") == st.id;
      assert HasStar(subs, i, st.id);
    }
  }

  /** Otherwise (inner `JOIN`) a star gets rows exactly when it has data
      of every requested type in the dataset. */
  lemma InnerNeedsEveryType(st: Star, ptypes: seq<string>, subs: seq<seq<Record>>)
    requires |subs| == |ptypes| && |subs| > 0
    ensures |StarRows(st, ptypes, subs, false)| > 0 <==> st.id != Null && forall i :: 0 <= i < |subs| ==> HasStar(subs, i, st.id)
  {
    StarRowsNonEmpty(st, ptypes, subs, false);
    if st.id != Null && forall i :: 0 <= i < |subs| ==> HasStar(subs, i, st.id) {
      assert HasStar(subs, 0, st.id);
      var r :| r in subs[0] && SqlEq(Col(r, "star"), st.id);
      assert st.id in UqStars(subs);
    }
  }

  /** Cell `v` of type `i` for star `id`: the column of a row of that
      type's sub-query for the star, or NULL when a `LEFT JOIN` found none. */
  predicate CellFrom(subs: seq<seq<Record>>, i: nat, id: Value, left: bool, column: string, v: Value)
    requires i < |subs|
  {
    (exists r :: r in subs[i] && SqlEq(Col(r, "star"), id) && v == Col(r, column))
    || (left && !HasStar(subs, i, id) && v == Null)
  }

  lemma ChoiceCell(subs: seq<seq<Record>>, i: nat, id: Value, left: bool, column: string, o: Option<Record>)
    requires i < |subs| && o in Options(MatchesStar(subs[i], id), left)
    ensures CellFrom(subs, i, id, left, column, Cell(o, column))
  {
    var ms := MatchesStar(subs[i], id);
    if |ms| > 0 {
      var j :| 0 <= j < |ms| && Options(ms, left)[j] == o;
      assert ms[j] in ms;
    }
  }

  /** Every row of a star names the star and carries, per type, a cell
      drawn from that type's rows for the star. */
  lemma StarRowCells(st: Star, ptypes: seq<string>, subs: seq<seq<Record>>, left: bool, row: SqlHappy.Row)
    requires |subs| == |ptypes| && row in StarRows(st, ptypes, subs, left)
    ensures |row| == |ptypes| + 1 && row[0] == ("star", st.name)
    ensures forall i :: 0 <= i < |ptypes| ==> row[i + 1].0 == Lower(ptypes[i])
    ensures forall i :: 0 <= i < |ptypes| ==> CellFrom(subs, i, st.id, left, Lower(ptypes[i]), row[i + 1].1)
  {
    var js := Joined(subs, st.id, left);
    var cs := Product(js);
    var k :| 0 <= k < |cs| && OutRows(st, ptypes, cs)[k] == row;
    var c := cs[k];
    assert c in cs;
    assert row == OutRow(st, ptypes, c);
    forall i | 0 <= i < |ptypes| ensures CellFrom(subs, i, st.id, left, Lower(ptypes[i]), row[i + 1].1) {
      assert c[i] in js[i];
      ChoiceCell(subs, i, st.id, left, Lower(ptypes[i]), c[i]);
    }
  }

  /** Every star that gets rows appears in the result under its name. */
  lemma {:induction false} StarListed(stars: seq<Star>, ptypes: seq<string>, subs: seq<seq<Record>>, left: bool, st: Star)
    requires |subs| == |ptypes| && st in stars && |StarRows(st, ptypes, subs, left)| > 0
    ensures exists row :: row in AllRows(stars, ptypes, subs, left) && |row| > 0 && row[0] == ("star", st.name)
    decreases |stars|
  {
    var here := StarRows(stars[0], ptypes, subs, left);
    var rest := AllRows(stars[1..], ptypes, subs, left);
    assert AllRows(stars, ptypes, subs, left) == here + rest;
    if stars[0] == st {
      StarHead(st, ptypes, subs, left);
      assert here[0] in here + rest;
    } else {
      assert st in stars[1..];
      StarListed(stars[1..], ptypes, subs, left, st);
      var row :| row in rest && |row| > 0 && row[0] == ("star", st.name);
      assert row in here + rest;
    }
  }

  lemma StarHead(st: Star, ptypes: seq<string>, subs: seq<seq<Record>>, left: bool)
    requires |subs| == |ptypes| && |StarRows(st, ptypes, subs, left)| > 0
    ensures StarRows(st, ptypes, subs, left)[0][0] == ("star", st.name)
  {
    StarRowCells(st, ptypes, subs, left, StarRows(st, ptypes, subs, left)[0]);
  }

  /** Each result row names its star first and then the lower-cased types,
      in the requested order. */
  lemma AllRowsShape(stars: seq<Star>, ptypes: seq<string>, subs: seq<seq<Record>>, left: bool, row: SqlHappy.Row)
    requires |subs| == |ptypes| && row in AllRows(stars, ptypes, subs, left)
    ensures |row| == |ptypes| + 1 && row[0].0 == "star" && exists st :: st in stars && row[0] == ("star", st.name)
    ensures forall i :: 0 <= i < |ptypes| ==> row[i + 1].0 == Lower(ptypes[i])
  {
    var st := RowOwner(stars, ptypes, subs, left, row);
    StarRowCells(st, ptypes, subs, left, row);
  }

  /** The star a result row comes from. */
  lemma {:induction false} RowOwner(stars: seq<Star>, ptypes: seq<string>, subs: seq<seq<Record>>, left: bool, row: SqlHappy.Row)
    returns (st: Star)
    requires |subs| == |ptypes| && row in AllRows(stars, ptypes, subs, left)
    ensures st in stars && row in StarRows(st, ptypes, subs, left)
    decreases |stars|
  {
    var here := StarRows(stars[0], ptypes, subs, left);
    var rest := AllRows(stars[1..], ptypes, subs, left);
    assert AllRows(stars, ptypes, subs, left) == here + rest;
    if row in here {
      st := stars[0];
    } else {
      st := RowOwner(stars[1..], ptypes, subs, left, row);
    }
  }

  lemma LowerStar()
    ensures Lower("star") == "star"
  {
  }

  /** When the table has rows, `fetch_data_cols` has one column per
      requested name and, names being distinct, each column lists the
      field of every row in row order; the `star` column lists the star
      names unless a type's name folds to `star` too, whose later column
      `row['star']` would read instead. */
  lemma DataColsContents(w: World, dataset: Value, ptypes: seq<string>, nulls: Value, rows: seq<SqlHappy.Row>)
    requires FetchDataTable(w, dataset, ptypes, nulls) == Ok(Some(rows))
    ensures FetchDataCols(w, dataset, ptypes, nulls).Ok? && FetchDataCols(w, dataset, ptypes, nulls).value.Some?
    ensures var cols := FetchDataCols(w, dataset, ptypes, nulls).value.value;
            var cl := ["star"] + ptypes;
            SqlHappy.Distinct(cl) ==>
              forall k :: 0 <= k < |cl| ==>
                |cols[cl[k]]| == |rows|
                && forall i :: 0 <= i < |rows| ==> SqlHappy.Field(rows[i], Lower(cl[k])) == Ok(cols[cl[k]][i])
    ensures var cols := FetchDataCols(w, dataset, ptypes, nulls).value.value;
            SqlHappy.Distinct(["star"] + ptypes) && (forall k :: 0 <= k < |ptypes| ==> Lower(ptypes[k]) != "star") ==>
              "star" in cols && |cols["star"]| == |rows|
              && forall j :: 0 <= j < |rows| ==> |rows[j]| > 0 && cols["star"][j] == rows[j][0].1
  {
    RowsHaveFields(w, dataset, ptypes, nulls, rows);
    ColumnsOfRows(rows, ptypes);
    DataColsAreColumns(w, dataset, ptypes, nulls, rows);
  }

  /** The transpose of rows shaped as the statement yields them. */
  lemma ColumnsOfRows(rows: seq<SqlHappy.Row>, ptypes: seq<string>)
    requires forall i :: 0 <= i < |rows| ==> |rows[i]| > 0 && rows[i][0].0 == "star"
    requires (forall k :: 0 <= k < |ptypes| ==> Lower(ptypes[k]) != "star") ==>
               forall i, j :: 0 <= i < |rows| && 0 < j < |rows[i]| ==> rows[i][j].0 != "star"
    requires forall i, k :: 0 <= i < |rows| && 0 <= k < |ptypes| + 1 ==>
               SqlHappy.HasField(rows[i], SqlHappy.KeyFor((["star"] + ptypes)[k], true))
    ensures SqlHappy.Columns(rows, ["star"] + ptypes, true).Ok?
    ensures var cols := SqlHappy.Columns(rows, ["star"] + ptypes, true).value;
            var cl := ["star"] + ptypes;
            SqlHappy.Distinct(cl) ==>
              forall k :: 0 <= k < |cl| ==>
                |cols[cl[k]]| == |rows|
                && forall i :: 0 <= i < |rows| ==> SqlHappy.Field(rows[i], Lower(cl[k])) == Ok(cols[cl[k]][i])
    ensures var cols := SqlHappy.Columns(rows, ["star"] + ptypes, true).value;
            SqlHappy.Distinct(["star"] + ptypes) && (forall k :: 0 <= k < |ptypes| ==> Lower(ptypes[k]) != "star") ==>
              "star" in cols && |cols["star"]| == |rows|
              && forall j :: 0 <= j < |rows| ==> |rows[j]| > 0 && cols["star"][j] == rows[j][0].1
  {
    var cl := ["star"] + ptypes;
    LowerColumns(rows, cl);
    if SqlHappy.Distinct(cl) && (forall k :: 0 <= k < |ptypes| ==> Lower(ptypes[k]) != "star") {
      StarColumn(rows, cl);
    }
  }

  /** Once the rows are fetched, `fetch_data_cols` is their transpose. */
  lemma DataColsAreColumns(w: World, dataset: Value, ptypes: seq<string>, nulls: Value, rows: seq<SqlHappy.Row>)
    requires FetchDataTable(w, dataset, ptypes, nulls) == Ok(Some(rows))
    requires SqlHappy.Columns(rows, ["star"] + ptypes, true).Ok?
    ensures FetchDataCols(w, dataset, ptypes, nulls) == Ok(Some(SqlHappy.Columns(rows, ["star"] + ptypes, true).value))
  {
  }

  /** Columns read under lower-cased distinct names hold each row's field
      in order. */
  lemma LowerColumns(rows: seq<SqlHappy.Row>, cl: seq<string>)
    requires forall i, k :: 0 <= i < |rows| && 0 <= k < |cl| ==> SqlHappy.HasField(rows[i], SqlHappy.KeyFor(cl[k], true))
    ensures SqlHappy.Columns(rows, cl, true).Ok?
    ensures var cols := SqlHappy.Columns(rows, cl, true).value;
            SqlHappy.Distinct(cl) ==>
              forall k :: 0 <= k < |cl| ==>
                |cols[cl[k]]| == |rows|
                && forall i :: 0 <= i < |rows| ==> SqlHappy.Field(rows[i], Lower(cl[k])) == Ok(cols[cl[k]][i])
  {
    var cols := SqlHappy.Columns(rows, cl, true).value;
    if SqlHappy.Distinct(cl) {
      forall k | 0 <= k < |cl|
        ensures |cols[cl[k]]| == |rows|
        ensures forall i :: 0 <= i < |rows| ==> SqlHappy.Field(rows[i], Lower(cl[k])) == Ok(cols[cl[k]][i])
      {
        SqlHappy.ColumnsContents(rows, cl, true, k);
      }
    }
  }

  /** The `star` column of rows whose only `star` is their first column. */
  lemma StarColumn(rows: seq<SqlHappy.Row>, cl: seq<string>)
    requires |cl| > 0 && cl[0] == "star" && SqlHappy.Distinct(cl)
    requires forall i :: 0 <= i < |rows| ==> |rows[i]| > 0 && rows[i][0].0 == "star"
    requires forall i, j :: 0 <= i < |rows| && 0 < j < |rows[i]| ==> rows[i][j].0 != "star"
    requires forall i, k :: 0 <= i < |rows| && 0 <= k < |cl| ==> SqlHappy.HasField(rows[i], SqlHappy.KeyFor(cl[k], true))
    ensures SqlHappy.Columns(rows, cl, true).Ok?
    ensures var cols := SqlHappy.Columns(rows, cl, true).value;
            "star" in cols && |cols["star"]| == |rows| && forall j :: 0 <= j < |rows| ==> cols["star"][j] == rows[j][0].1
  {
    var cols := SqlHappy.Columns(rows, cl, true).value;
    LowerStar();
    SqlHappy.ColumnsContents(rows, cl, true, 0);
    forall j | 0 <= j < |rows| ensures cols["star"][j] == rows[j][0].1 {
      assert SqlHappy.Field(rows[j], "star") == Ok(cols["star"][j]);
      var r := SqlHappy.Field(rows[j], "star").value;
      var x :| 0 <= x < |rows[j]| && rows[j][x] == ("star", r)
               && forall y :: x < y < |rows[j]| ==> rows[j][y].0 != "star";
      assert x == 0;
    }
  }

  /** Every row of the table has the fields `fetch_data_cols` reads. */
  lemma RowsHaveFields(w: World, dataset: Value, ptypes: seq<string>, nulls: Value, rows: seq<SqlHappy.Row>)
    requires FetchDataTable(w, dataset, ptypes, nulls) == Ok(Some(rows))
    ensures forall i :: 0 <= i < |rows| ==> |rows[i]| > 0 && rows[i][0].0 == "star"
    ensures (forall k :: 0 <= k < |ptypes| ==> Lower(ptypes[k]) != "star") ==>
              forall i, j :: 0 <= i < |rows| && 0 < j < |rows[i]| ==> rows[i][j].0 != "star"
    ensures forall i, k :: 0 <= i < |rows| && 0 <= k < |ptypes| + 1 ==>
              SqlHappy.HasField(rows[i], SqlHappy.KeyFor((["star"] + ptypes)[k], true))
  {
    var subs := Subs(w, dataset, ptypes).value;
    var left := nulls == Bool(true);
    var cl := ["star"] + ptypes;
    assert rows == AllRows(w.stars, ptypes, subs, left);
    LowerStar();
    forall i | 0 <= i < |rows| ensures |rows[i]| > 0 && rows[i][0].0 == "star" {
      AllRowsShape(w.stars, ptypes, subs, left, rows[i]);
    }
    if forall k :: 0 <= k < |ptypes| ==> Lower(ptypes[k]) != "star" {
      forall i, j | 0 <= i < |rows| && 0 < j < |rows[i]| ensures rows[i][j].0 != "star" {
        AllRowsShape(w.stars, ptypes, subs, left, rows[i]);
        assert rows[i][(j - 1) + 1].0 == Lower(ptypes[j - 1]);
      }
    }
    forall i, k | 0 <= i < |rows| && 0 <= k < |cl| ensures SqlHappy.HasField(rows[i], SqlHappy.KeyFor(cl[k], true)) {
      AllRowsShape(w.stars, ptypes, subs, left, rows[i]);
      if k == 0 {
        assert rows[i][0].0 == "star";
      } else {
        assert rows[i][k].0 == Lower(ptypes[k - 1]);
      }
    }
  }
}

=== FILE: keyguard.dfy ===
/** The `db_bind_keys(*reqkeys)` decorator, in its current revision
    (sunstardb/database.py) and its older one (sunstardb.py): it picks the
    map of column values a write operation is called with, computes the
    required keys absent from it in declaration order, and either raises
    `DatabaseKeyError` or passes the whole map through. */
module KeyGuard {
  import opened Wrappers
  import opened Values

  /** A positional argument: a dict, or any other value. */
  datatype Arg = MapArg(m: Record) | Other(v: Value)

  /** `a` is obtained from `b` by deleting elements. */
  predicate IsSubsequence<T(==)>(a: seq<T>, b: seq<T>)
    decreases |b|
  {
    |a| == 0 || (|b| > 0 && ((a[0] == b[0] && IsSubsequence(a[1..], b[1..])) || IsSubsequence(a, b[1..])))
  }

  /** The required keys absent from `m`, in the order they were declared. */
  function MissingKeys(req: seq<string>, m: Record): (miss: seq<string>)
    ensures forall k :: k in miss <==> k in req && k !in m
    ensures IsSubsequence(miss, req)
    ensures |miss| == 0 <==> forall i :: 0 <= i < |req| ==> req[i] in m
  {
    if |req| == 0 then []
    else if req[0] in m then
      var rest := MissingKeys(req[1..], m);
      assert forall k :: k in req ==> k == req[0] || k in req[1..];
      rest
    else
      var rest := MissingKeys(req[1..], m);
      assert forall k :: k in req ==> k == req[0] || k in req[1..];
      assert ([req[0]] + rest)[1..] == rest;
      [req[0]] + rest
  }

  /** The outcome of the guard on the chosen map `m`: the map the wrapped
      function is called with, or `DatabaseKeyError(misslist, keys)`. */
  function Guard(req: seq<string>, m: Record): (r: Result<Record, Error>)
    ensures r.Ok? <==> forall i :: 0 <= i < |req| ==> req[i] in m
    ensures r.Ok? ==> r.value == m
    ensures r.Err? ==> r.error.DatabaseKeyError? && r.error.given == m.Keys
                       && |r.error.missing| > 0
                       && (forall k :: k in r.error.missing <==> k in req && k !in m)
                       && IsSubsequence(r.error.missing, req)
  {
    var miss := MissingKeys(req, m);
    if |miss| > 0 then Err(DatabaseKeyError(miss, m.Keys)) else Ok(m)
  }

  /** The argument as a dict, when it is one: a mapping, or a JSON object. */
  function AsDict(a: Arg): Option<Record> {
    match a
    case MapArg(m) => Some(m)
    case Other(v) => if v.Dict? then Some(v.fields) else None
  }

  /** `k` occurs in `s` as a substring (`k in s` on a str). */
  predicate IsSubstring(k: string, s: string) {
    exists i :: 0 <= i <= |s| && k <= s[i..]
  }

  /** Python's `k in v` on a value that is not a dict: a substring test on a
      str, an element test on a list, and false on a `NumericRange` (under
      Python 2 a str compares above both bounds); any other value supports
      no `in`, and the test raises `TypeError` (None here). */
  function Member(v: Value, k: string): Option<bool> {
    match v
    case Str(s) => Some(IsSubstring(k, s))
    case List(xs) => Some(Str(k) in xs)
    case Interval(_, _, _) => Some(false)
    case Dict(f) => Some(k in f)
    case _ => None
  }

  /** The loop `for req in reqkeys: if req not in kwargs: misslist.append(req)`
      run on a value that is not a dict. */
  function MissingIn(req: seq<string>, v: Value): (r: Result<seq<string>, Error>)
    ensures r.Err? <==> |req| > 0 && Member(v, req[0]).None?
    ensures r.Err? ==> r.error.TypeError?
    ensures r.Ok? ==> forall k :: k in r.value <==> k in req && Member(v, k) == Some(false)
    ensures r.Ok? ==> IsSubsequence(r.value, req)
  {
    if |req| == 0 then Ok([])
    else
      match Member(v, req[0])
      case None => Err(TypeError("argument is not iterable"))
      case Some(found) =>
        assert forall k :: k in req ==> k == req[0] || k in req[1..];
        assert |req| > 1 ==> (Member(v, req[1]).None? <==> Member(v, req[0]).None?) by {
          if |req| > 1 { MemberSupported(v, req[1], req[0]); }
        }
        var rest := MissingIn(req[1..], v).value;
        if found then Ok(rest)
        else
          assert ([req[0]] + rest)[1..] == rest;
          Ok([req[0]] + rest)
  }

  /** Whether a value supports `in` does not depend on the key looked for. */
  lemma MemberSupported(v: Value, k: string, k': string)
    ensures Member(v, k).None? <==> Member(v, k').None?
  {
  }

  /** `db_bind_keys(*req)` applied to a call `f(*args, **kwargs)` (current
      revision).  A single positional argument replaces the keyword
      arguments whatever it is: a dict is checked like them; a str or a
      list is searched with `in`, and then fails on `kwargs.keys()` when a
      key is missing (`AttributeError`) or on `f(self, **kwargs)` when
      none is (`TypeError`); a value without `in` fails at the first test
      (`TypeError`). */
  function BindKeys(req: seq<string>, args: seq<Arg>, kwargs: Record): (r: Result<Record, Error>)
    ensures |args| == 1 && AsDict(args[0]).Some? ==> r == Guard(req, AsDict(args[0]).value)
    ensures |args| != 1 ==> r == Guard(req, kwargs)
    ensures |args| == 1 && AsDict(args[0]).None? ==>
              r.Err? && (r.error.TypeError? || r.error.AttributeError?)
              && (r.error.AttributeError? <==> exists i :: 0 <= i < |req| && Member(args[0].v, req[i]) == Some(false))
    ensures r.Ok? ==> forall i :: 0 <= i < |req| ==> req[i] in r.value
  {
    if |args| == 1 then
      match AsDict(args[0])
      case Some(m) => Guard(req, m)
      case None =>
        var v := args[0].v;
        var miss :- MissingIn(req, v);
        assert (exists i :: 0 <= i < |req| && Member(v, req[i]) == Some(false)) <==> |miss| > 0 by {
          if |miss| > 0 { assert miss[0] in miss; }
          if i :| 0 <= i < |req| && Member(v, req[i]) == Some(false) { assert req[i] in miss; }
        }
        if |miss| > 0 then Err(AttributeError("object has no attribute 'keys'"))
        else Err(TypeError("argument after ** must be a mapping"))
    else Guard(req, kwargs)
  }

  /** `insert_star("Sun")`: the name is searched for in the string, is not
      found, and the error report then fails on `"Sun".keys()`. */
  lemma BareNameFails(kwargs: Record)
    ensures BindKeys(["name"], [Other(Str("Sun"))], kwargs).Err?
    ensures BindKeys(["name"], [Other(Str("Sun"))], kwargs).error.AttributeError?
  {
    assert !IsSubstring("name", "Sun");
    assert Member(Str("Sun"), ["name"][0]) == Some(false);
  }

  /** A string that happens to contain every key passes the search and
      fails only when it is unpacked as keyword arguments. */
  lemma StringHoldingKeysFails(kwargs: Record)
    ensures BindKeys(["name"], [Other(Str("a name"))], kwargs) == Err(TypeError("argument after ** must be a mapping"))
  {
    var k, s := "name", "a name";
    assert k <= s[2..];
    assert IsSubstring(k, s);
  }

  /** `db_bind_keys(*req)` of the older revision: a single positional
      argument is used only when it is a dict (`isinstance(args[0], dict)`),
      and the keyword arguments otherwise. */
  function LegacyBindKeys(req: seq<string>, args: seq<Arg>, kwargs: Record): (r: Result<Record, Error>)
    ensures |args| == 1 && AsDict(args[0]).Some? ==> r == Guard(req, AsDict(args[0]).value)
    ensures !(|args| == 1 && AsDict(args[0]).Some?) ==> r == Guard(req, kwargs)
    ensures r.Ok? ==> forall i :: 0 <= i < |req| ==> req[i] in r.value
    ensures r.Err? ==> r.error.DatabaseKeyError?
  {
    var m := if |args| == 1 && AsDict(args[0]).Some? then AsDict(args[0]).value else kwargs;
    Guard(req, m)
  }

  /** The two revisions agree on every call except one with a single
      positional argument that is not a dict. */
  lemma RevisionsAgree(req: seq<string>, args: seq<Arg>, kwargs: Record)
    ensures !(|args| == 1 && AsDict(args[0]).None?) <==> BindKeys(req, args, kwargs) == LegacyBindKeys(req, args, kwargs)
  {
    if |args| == 1 && AsDict(args[0]).None? {
      assert BindKeys(req, args, kwargs).Err?;
      assert !BindKeys(req, args, kwargs).error.DatabaseKeyError?;
    }
  }

  /** A single non-dict positional argument is where the two revisions part:
      the older one falls back to the keyword arguments, the current one
      treats it as the map and fails. */
  lemma RevisionsDifferOnScalarArg(req: seq<string>, v: Value, kwargs: Record)
    requires !v.Dict?
    requires forall i :: 0 <= i < |req| ==> req[i] in kwargs
    ensures LegacyBindKeys(req, [Other(v)], kwargs) == Ok(kwargs)
    ensures BindKeys(req, [Other(v)], kwargs).Err?
  {
  }
}

=== FILE: prepare.dfy ===
/** `prepare_property`, which turns a property record into the bind map
    of `insert_property`: the current revision (sunstardb/database.py)
    and the older one (sunstardb.py).  Both resolve the five ids the same
    way; they differ in how values and errors are normalised.  `float()`
    on the text of a percent error is a table of the texts it accepts. */
module Prepare {
  import opened Wrappers
  import opened Strings
  import opened Values
  import opened Catalog

  // ---- id resolution ---------------------------------------------------

  /** The lookups `prepare_property` would run, one per entity. */
  datatype Lookups = Lookups(
    star: Result<Option<Record>, Error>,
    ptype: Result<Option<Record>, Error>,
    source: Result<Option<Record>, Error>,
    reference: Result<Option<Record>, Error>,
    instrument: Result<Option<Record>, Error>)

  /** The lookups of the current revision. */
  function CurrentLookups(t: Tables, star: Record, ptype: Record, source: Record,
                          reference: Record, instrument: Record): Lookups {
    Lookups(FetchStar(t, star), FetchByName(t.ptypes, ptype), FetchSource(t.sources, source),
            FetchByName(t.references, reference), FetchByName(t.instruments, instrument))
  }

  /** The lookups of the older revision. */
  function LegacyLookups(t: Tables, star: Record, ptype: Record, source: Record,
                         reference: Record, instrument: Record): Lookups {
    Lookups(LegacyFetchStar(t, star), FetchByName(t.ptypes, ptype), LegacyFetchSource(t.sources, source),
            FetchByName(t.references, reference), FetchByName(t.instruments, instrument))
  }

  /** The instrument map handed to the lookups; an absent instrument is
      never looked up, so what stands in for it does not matter. */
  function InstrumentMap(instrument: Option<Record>): Record {
    if instrument.Some? then instrument.value else map[]
  }

  /** The exception raised when a lookup finds nothing.  The message is built
      with `%(name)s` for every entity but the star, so an entity map
      without `name` raises `KeyError` instead (reachable only for the
      source of the older revision, whose lookup is keyed on `url`). */
  function NotFound(entity: string, given: Record, byName: bool): Error {
    if byName && "name" !in given then KeyError("name") else MissingDataError(entity)
  }

  /** One entity's id: a supplied `id` is copied verbatim and no lookup
      happens; otherwise the id of the row found; a lookup that finds
      nothing raises. */
  function ResolveOne(given: Record, found: Result<Option<Record>, Error>, missing: Error): (r: Result<Value, Error>)
    ensures "id" in given ==> r == Ok(given["id"])
    ensures "id" !in given && found.Err? ==> r == Err(found.error)
    ensures "id" !in given && found == Ok(None) ==> r == Err(missing)
    ensures "id" !in given && found.Ok? && found.value.Some? ==> r == Get(found.value.value, "id")
  {
    if "id" in given then Ok(given["id"])
    else
      var row :- found;
      match row
      case None => Err(missing)
      case Some(db) => Get(db, "id")
  }

  const IdCols: set<string> := {"star_id", "type_id", "src_id", "ref_id", "inst_id"}

  /** The id-resolution half of `prepare_property`, in its order star, type,
      source, reference, instrument: the first failure is the one raised.
      An absent instrument gives `inst_id = None`. */
  function ResolveIds(property: Record, star: Record, ptype: Record, source: Record,
                      reference: Record, instrument: Option<Record>, lk: Lookups): (r: Result<Record, Error>)
    ensures r.Ok? ==> r.value.Keys == property.Keys + IdCols
    ensures r.Ok? ==> forall k :: k in property && k !in IdCols ==> r.value[k] == property[k]
    ensures r.Ok? ==> Ok(r.value["star_id"]) == ResolveOne(star, lk.star, MissingDataError("star"))
    ensures r.Ok? ==> Ok(r.value["type_id"]) == ResolveOne(ptype, lk.ptype, NotFound("property type", ptype, true))
    ensures r.Ok? ==> Ok(r.value["src_id"]) == ResolveOne(source, lk.source, NotFound("source", source, true))
    ensures r.Ok? ==> Ok(r.value["ref_id"]) == ResolveOne(reference, lk.reference, NotFound("reference", reference, true))
    ensures r.Ok? && instrument.None? ==> r.value["inst_id"] == Null
    ensures r.Ok? && instrument.Some? ==>
              Ok(r.value["inst_id"]) == ResolveOne(instrument.value, lk.instrument, NotFound("instrument", instrument.value, true))
    ensures ResolveOne(star, lk.star, MissingDataError("star")).Err? ==> r == Err(ResolveOne(star, lk.star, MissingDataError("star")).error)
  {
    var starId :- ResolveOne(star, lk.star, MissingDataError("star"));
    var typeId :- ResolveOne(ptype, lk.ptype, NotFound("property type", ptype, true));
    var srcId :- ResolveOne(source, lk.source, NotFound("source", source, true));
    var refId :- ResolveOne(reference, lk.reference, NotFound("reference", reference, true));
    var instId :- match instrument
                  case None => Ok(Null)
                  case Some(i) => ResolveOne(i, lk.instrument, NotFound("instrument", i, true));
    Ok(property["star_id" := starId]["type_id" := typeId]["src_id" := srcId]["ref_id" := refId]["inst_id" := instId])
  }

  /** With every id supplied no lookup matters: the ids are copied. */
  lemma SuppliedIdsWin(property: Record, star: Record, ptype: Record, source: Record,
                       reference: Record, instrument: Record, lk: Lookups)
    requires "id" in star && "id" in ptype && "id" in source && "id" in reference && "id" in instrument
    ensures var r := ResolveIds(property, star, ptype, source, reference, Some(instrument), lk);
            r.Ok? && r.value["star_id"] == star["id"] && r.value["type_id"] == ptype["id"]
            && r.value["src_id"] == source["id"] && r.value["ref_id"] == reference["id"]
            && r.value["inst_id"] == instrument["id"]
  {
  }

  /** The measurement columns are not id columns, so resolving the ids
      leaves them alone. */
  lemma NotIdCols()
    ensures "val" !in IdCols && "strval" !in IdCols && "err" !in IdCols
    ensures "errlo" !in IdCols && "errhi" !in IdCols && "errbounds" !in IdCols
  {
  }

  /** The ids as the current revision resolves them against `t`: a missing
      id is fetched by name (the star by its compressed name). */
  function CurrentIds(t: Tables, property: Record, star: Record, ptype: Record, source: Record,
                      reference: Record, instrument: Option<Record>): Result<Record, Error> {
    ResolveIds(property, star, ptype, source, reference, instrument,
               CurrentLookups(t, star, ptype, source, reference, InstrumentMap(instrument)))
  }

  /** The ids as the older revision resolves them against `t`: the star by
      its preferred id type, the source by url. */
  function LegacyIds(t: Tables, property: Record, star: Record, ptype: Record, source: Record,
                     reference: Record, instrument: Option<Record>): Result<Record, Error> {
    ResolveIds(property, star, ptype, source, reference, instrument,
               LegacyLookups(t, star, ptype, source, reference, InstrumentMap(instrument)))
  }

  // ---- explicit nulls ----------------------------------------------------

  /** Set each listed column to None when it is absent; present ones, even None, stay. */
  function FillNulls(p: Record, cols: set<string>): (r: Record)
    ensures r.Keys == p.Keys + cols
    ensures forall k :: k in p ==> r[k] == p[k]
    ensures forall k :: k in cols && k !in p ==> r[k] == Null
  {
    map k | k in p.Keys + cols :: if k in p then p[k] else Null
  }

  lemma FillNullsIdempotent(p: Record, cols: set<string>)
    ensures FillNulls(FillNulls(p, cols), cols) == FillNulls(p, cols)
  {
  }

  const NullableCols: set<string> := {"errlo", "errhi", "errbounds", "obs_time", "int_time", "meta"}

  // ---- error normalisation (current revision) ------------------------------

  predicate IsPercent(c: char) { c == '%' }

  /** The absolute error a percent error `text` stands for: `abs(val) *
      float(text.rstrip('%')) / 100.0`.  `val` is read first (`KeyError`
      when missing, `TypeError` when not a number), then the number is
      parsed (`ValueError` when it is not one). */
  function PercentError(p: Record, text: string, floats: map<string, real>): (r: Result<Value, Error>)
    ensures "val" !in p ==> r == Err(KeyError("val"))
    ensures "val" in p && AsReal(p["val"]).None? ==> r.Err? && r.error.TypeError?
    ensures "val" in p && AsReal(p["val"]).Some? && RStripBy(text, IsPercent) !in floats ==> r.Err? && r.error.ValueError?
    ensures r.Ok? <==> "val" in p && AsReal(p["val"]).Some? && RStripBy(text, IsPercent) in floats
    ensures r.Ok? ==> r.value == Float(Abs(AsReal(p["val"]).value) * floats[RStripBy(text, IsPercent)] / 100.0)
  {
    var val :- Get(p, "val");
    match AsReal(val)
    case None => Err(TypeError("bad operand type for abs()"))
    case Some(v) =>
      if RStripBy(text, IsPercent) !in floats then Err(ValueError("could not convert string to float"))
      else
        var x := floats[RStripBy(text, IsPercent)];
        var e := Float(Abs(v) * x / 100.0);
        assert e == Float(Abs(AsReal(p["val"]).value) * floats[RStripBy(text, IsPercent)] / 100.0);
        Ok(e)
  }

  function Abs(x: real): (r: real)
    ensures r >= 0.0 && (r == x || r == -x)
  {
    if x < 0.0 then -x else x
  }

  /** The `err` step: a percent error is made absolute, then copied to both
      `errhi` and `errlo`, and `err` is removed.  Nothing happens without `err`. */
  function NormaliseErr(p: Record, floats: map<string, real>): (r: Result<Record, Error>)
    ensures "err" !in p ==> r == Ok(p)
    ensures r.Ok? ==> "err" !in r.value
    ensures r.Ok? && "err" in p ==> r.value.Keys == p.Keys - {"err"} + {"errlo", "errhi"}
                                    && r.value["errlo"] == r.value["errhi"]
    ensures r.Ok? && "err" in p && !(p["err"].Str? && EndsWith(p["err"].s, "%")) ==> r.value["errlo"] == p["err"]
    ensures r.Ok? && "err" in p && p["err"].Str? && EndsWith(p["err"].s, "%") ==>
              Ok(r.value["errlo"]) == PercentError(p, p["err"].s, floats)
    ensures r.Ok? ==> forall k :: k in p && k !in {"err", "errlo", "errhi"} ==> k in r.value && r.value[k] == p[k]
  {
    if "err" !in p then Ok(p)
    else
      var e := p["err"];
      var abs :- if e.Str? && EndsWith(e.s, "%") then PercentError(p, e.s, floats) else Ok(e);
      Ok((p["errhi" := abs]["errlo" := abs]) - {"err"})
  }

  /** The closed interval `[val - errlo, val + errhi]`; `val` must be present
      and all three must be numbers. */
  function Bounds(p: Record): (r: Result<Value, Error>)
    requires "errlo" in p && "errhi" in p
    ensures r.Ok? ==> "val" in p && AsReal(p["val"]).Some? && AsReal(p["errlo"]).Some? && AsReal(p["errhi"]).Some?
    ensures r.Ok? ==> r.value == Interval(AsReal(p["val"]).value - AsReal(p["errlo"]).value,
                                          AsReal(p["val"]).value + AsReal(p["errhi"]).value, Closed)
    ensures "val" !in p ==> r == Err(KeyError("val"))
  {
    var val :- Get(p, "val");
    match (AsReal(val), AsReal(p["errlo"]), AsReal(p["errhi"]))
    case (Some(v), Some(lo), Some(hi)) => Ok(Interval(v - lo, v + hi, Closed))
    case _ => Err(TypeError("unsupported operand type"))
  }

  /** The `errbounds` step: derived only when it is None and both `errlo`
      and `errhi` are set; otherwise the record is returned as it is. */
  function DeriveBounds(p: Record): (r: Result<Record, Error>)
    requires NullableCols <= p.Keys
    ensures !(p["errbounds"] == Null && p["errlo"] != Null && p["errhi"] != Null) ==> r == Ok(p)
    ensures p["errbounds"] == Null && p["errlo"] != Null && p["errhi"] != Null ==>
              (r.Ok? <==> Bounds(p).Ok?) && (r.Ok? ==> r.value == p["errbounds" := Bounds(p).value])
  {
    if p["errbounds"] == Null && p["errlo"] != Null && p["errhi"] != Null then
      var b :- Bounds(p);
      Ok(p["errbounds" := b])
    else Ok(p)
  }

  /** The measurement half of the current `prepare_property`. */
  function Normalise(p: Record, floats: map<string, real>): (r: Result<Record, Error>)
    ensures r.Ok? ==> "err" !in r.value && NullableCols <= r.value.Keys
    ensures r.Ok? ==> forall k :: k in p && k !in {"err", "errlo", "errhi", "errbounds"} ==> k in r.value && r.value[k] == p[k]
  {
    var q :- NormaliseErr(FillNulls(p, NullableCols), floats);
    DeriveBounds(q)
  }

  /** `prepare_property` of the current revision: the ids are resolved
      first, so a failed lookup is what it raises; on success the record
      holds the resolved ids, a symmetric error in place of `err`, every
      nullable column, and its other entries unchanged. */
  function PrepareProperty(t: Tables, property: Record, star: Record, ptype: Record, source: Record,
                           reference: Record, instrument: Option<Record>,
                           floats: map<string, real>): (r: Result<Record, Error>)
    ensures var w := CurrentIds(t, property, star, ptype, source, reference, instrument);
            w.Err? ==> r == Err(w.error)
    ensures var w := CurrentIds(t, property, star, ptype, source, reference, instrument);
            r.Ok? ==> w.Ok? && forall k :: k in IdCols ==> k in r.value && r.value[k] == w.value[k]
    ensures r.Ok? ==> NullableCols <= r.value.Keys && "err" !in r.value
    ensures r.Ok? && instrument.None? ==> r.value["inst_id"] == Null
    ensures r.Ok? && "err" in property ==> ErrNormalised(r.value, property, floats)
    ensures r.Ok? ==> forall k :: k in property && k !in IdCols && k !in {"err", "errlo", "errhi", "errbounds"} ==>
                                  k in r.value && r.value[k] == property[k]
  {
    PrepareResolved(property, CurrentIds(t, property, star, ptype, source, reference, instrument), floats)
  }

  /** The normalisation half of `prepare_property`, applied to the outcome
      `w` of resolving the ids of `property`. */
  function PrepareResolved(property: Record, w: Result<Record, Error>, floats: map<string, real>): (r: Result<Record, Error>)
    requires w.Ok? ==> w.value.Keys == property.Keys + IdCols
    requires w.Ok? ==> forall k :: k in property && k !in IdCols ==> w.value[k] == property[k]
    ensures w.Err? ==> r == Err(w.error)
    ensures r.Ok? ==> w.Ok? && forall k :: k in IdCols ==> k in r.value && r.value[k] == w.value[k]
    ensures r.Ok? ==> NullableCols <= r.value.Keys && "err" !in r.value
    ensures r.Ok? && "err" in property ==> ErrNormalised(r.value, property, floats)
    ensures r.Ok? ==> forall k :: k in property && k !in IdCols && k !in {"err", "errlo", "errhi", "errbounds"} ==>
                                  k in r.value && r.value[k] == property[k]
  {
    var withIds :- w;
    var r := Normalise(withIds, floats);
    IdsSurviveNormalise(withIds, floats);
    NotIdCols();
    if "err" in property && r.Ok? then
      NormalisedErrOf(property, withIds, floats);
      r
    else r
  }

  /** The error columns of a record whose ids were just resolved, stated on
      the record before resolution: the ids are not error columns, and the
      percent conversion reads only `val`, which resolution keeps. */
  lemma NormalisedErrOf(p: Record, w: Record, floats: map<string, real>)
    requires "err" in p && "err" in w && w["err"] == p["err"]
    requires ("val" in p <==> "val" in w) && ("val" in p ==> w["val"] == p["val"])
    requires Normalise(w, floats).Ok?
    ensures ErrNormalised(Normalise(w, floats).value, p, floats)
  {
    NormaliseSymmetric(w, floats);
    ErrNormalisedSameErr(Normalise(w, floats).value, w, p, floats);
  }

  /** Normalisation leaves the resolved ids alone. */
  lemma IdsSurviveNormalise(p: Record, floats: map<string, real>)
    requires IdCols <= p.Keys
    ensures Normalise(p, floats).Ok? ==> forall k :: k in IdCols ==> k in Normalise(p, floats).value && Normalise(p, floats).value[k] == p[k]
  {
    var untouched := {"err", "errlo", "errhi", "errbounds"};
    assert forall k :: k in IdCols ==> k !in untouched;
  }

  /** `r` carries the error `err` of `p` normalised: `errlo == errhi`,
      holding `err` as given, or for a percent error that percent of
      `abs(val)`. */
  predicate ErrNormalised(r: Record, p: Record, floats: map<string, real>)
    requires "err" in p
  {
    "errlo" in r && "errhi" in r && r["errlo"] == r["errhi"]
    && (p["err"].Str? && EndsWith(p["err"].s, "%") ==> Ok(r["errlo"]) == PercentError(p, p["err"].s, floats))
    && (!(p["err"].Str? && EndsWith(p["err"].s, "%")) ==> r["errlo"] == p["err"])
  }

  /** Whether `r` carries the normalised error of a record depends only on
      that record's `err` and `val`. */
  lemma ErrNormalisedSameErr(r: Record, p: Record, p': Record, floats: map<string, real>)
    requires "err" in p && "err" in p' && p["err"] == p'["err"]
    requires ("val" in p <==> "val" in p') && ("val" in p ==> p["val"] == p'["val"])
    requires ErrNormalised(r, p, floats)
    ensures ErrNormalised(r, p', floats)
  {
    if p["err"].Str? {
      PercentErrorReadsVal(p, p', p["err"].s, floats);
    }
  }

  /** After normalisation the error is symmetric: `errlo == errhi`, and
      when `err` was given they hold it as given, or, for a percent error,
      that percent of `abs(val)`. */
  lemma NormaliseSymmetric(p: Record, floats: map<string, real>)
    requires "err" in p && Normalise(p, floats).Ok?
    ensures ErrNormalised(Normalise(p, floats).value, p, floats)
  {
    var f := FillNulls(p, NullableCols);
    assert f["err"] == p["err"] && ("val" in f <==> "val" in p) && ("val" in p ==> f["val"] == p["val"]);
    var q := NormaliseErr(f, floats).value;
    assert ErrNormalised(q, f, floats);
    var r := DeriveBounds(q).value;
    assert r["errlo"] == q["errlo"] && r["errhi"] == q["errhi"];
    ErrNormalisedSameErr(r, f, p, floats);
  }

  /** The percent conversion reads nothing of the record but `val`. */
  lemma PercentErrorReadsVal(p: Record, p': Record, text: string, floats: map<string, real>)
    requires ("val" in p <==> "val" in p') && ("val" in p ==> p["val"] == p'["val"])
    ensures PercentError(p, text, floats) == PercentError(p', text, floats)
  {
    if "val" in p && AsReal(p["val"]).None? {
      assert PercentError(p, text, floats) == Err(TypeError("bad operand type for abs()"));
      assert PercentError(p', text, floats) == Err(TypeError("bad operand type for abs()"));
    }
    if "val" in p && AsReal(p["val"]).Some? && RStripBy(text, IsPercent) !in floats {
      assert PercentError(p, text, floats) == Err(ValueError("could not convert string to float"));
      assert PercentError(p', text, floats) == Err(ValueError("could not convert string to float"));
    }
    if "val" in p && AsReal(p["val"]).Some? && RStripBy(text, IsPercent) in floats {
      var e := Float(Abs(AsReal(p["val"]).value) * floats[RStripBy(text, IsPercent)] / 100.0);
      assert e == Float(Abs(AsReal(p'["val"]).value) * floats[RStripBy(text, IsPercent)] / 100.0);
      var r, r' := PercentError(p, text, floats), PercentError(p', text, floats);
      assert r.Ok? && r'.Ok?;
      assert r.value == e && r'.value == e;
      assert r == Ok(r.value) && r' == Ok(r'.value);
    }
  }

  /** A record that has been normalised is a fixed point of normalisation. */
  lemma NormaliseIdempotent(p: Record, floats: map<string, real>)
    requires Normalise(p, floats).Ok?
    ensures Normalise(Normalise(p, floats).value, floats) == Normalise(p, floats)
  {
    var q := NormaliseErr(FillNulls(p, NullableCols), floats).value;
    var r := DeriveBounds(q).value;
    FillNullsFixed(r, NullableCols);
    assert NormaliseErr(r, floats) == Ok(r);
    DeriveBoundsFixed(q);
  }

  /** Filling nulls into a record that has every column changes nothing. */
  lemma FillNullsFixed(p: Record, cols: set<string>)
    requires cols <= p.Keys
    ensures FillNulls(p, cols) == p
  {
  }

  /** Deriving bounds a second time changes nothing: the first pass leaves
      either no condition to act on or an interval in `errbounds`. */
  lemma DeriveBoundsFixed(q: Record)
    requires NullableCols <= q.Keys && DeriveBounds(q).Ok?
    ensures NullableCols <= DeriveBounds(q).value.Keys
    ensures DeriveBounds(DeriveBounds(q).value) == DeriveBounds(q)
  {
    var r := DeriveBounds(q).value;
    if q["errbounds"] == Null && q["errlo"] != Null && q["errhi"] != Null {
      assert r["errbounds"].Interval?;
    }
  }

  /** A solar effective temperature of 5778 K with a 10% error is stored with
      `errlo == errhi == 577.8` and the bounds `[5200.2, 6355.8]`. */
  lemma TenPercentOfSolarTeff(floats: map<string, real>)
    requires "10" in floats && floats["10"] == 10.0
    ensures var r := Normalise(map["val" := Int(5778), "err" := Str("10%")], floats);
            r.Ok? && "err" !in r.value && r.value["val"] == Int(5778)
            && r.value["errlo"] == Float(577.8) && r.value["errhi"] == Float(577.8)
            && r.value["errbounds"] == Interval(5200.2, 6355.8, Closed)
  {
    var p := map["val" := Int(5778), "err" := Str("10%")];
    var f := FillNulls(p, NullableCols);
    assert f["err"] == Str("10%") && f["val"] == Int(5778);
    assert EndsWith("10%", "%");
    assert RStripBy("10%", IsPercent) == "10" by {
      assert "10%"[..2] == "10";
    }
    var pe := PercentError(f, "10%", floats);
    assert pe.Ok?;
    assert pe.value == Float(577.8) by {
      assert Abs(5778 as real) == 5778.0;
    }
    var q := NormaliseErr(f, floats).value;
    assert q["errlo"] == Float(577.8) && q["errhi"] == Float(577.8);
    assert q["errbounds"] == Null && q["val"] == Int(5778);
    var b := Bounds(q);
    assert b.Ok?;
    assert b.value == Interval(5200.2, 6355.8, Closed);
  }

  // ---- the older revision --------------------------------------------------

  const LegacyNullableCols: set<string> := {"val", "err", "strval", "obs_time", "int_time", "meta"}

  /** The older `prepare_property` after the ids: a string `val` moves to
      `strval` (reading `val` raises `KeyError` when it is absent, so the
      later default for `val` never applies), the nullable columns default
      to None, and a non-None `err` becomes the range `(-err, +err)` with
      the default `[)` bounds. */
  function LegacyNormalise(p: Record): (r: Result<Record, Error>)
    ensures "val" !in p ==> r == Err(KeyError("val"))
    ensures r.Ok? ==> r.value.Keys == p.Keys + LegacyNullableCols
    ensures r.Ok? && p["val"].Str? ==> r.value["strval"] == p["val"] && r.value["val"] == Null
    ensures r.Ok? && !p["val"].Str? ==>
              r.value["val"] == p["val"] && r.value["strval"] == (if "strval" in p then p["strval"] else Null)
    ensures r.Ok? && "err" in p && p["err"] != Null ==>
              AsReal(p["err"]).Some? && r.value["err"] == Interval(-AsReal(p["err"]).value, AsReal(p["err"]).value, ClosedOpen)
    ensures r.Ok? && ("err" !in p || p["err"] == Null) ==> r.value["err"] == Null
    ensures r.Ok? ==> forall k :: k in p && k !in {"val", "strval", "err"} ==> r.value[k] == p[k]
  {
    var val :- Get(p, "val");
    var moved := if val.Str? then p["strval" := val]["val" := Null] else p;
    var filled := FillNulls(moved, LegacyNullableCols);
    if filled["err"] == Null then Ok(filled)
    else match AsReal(filled["err"])
      case None => Err(TypeError("bad operand type for unary -"))
      case Some(e) => Ok(filled["err" := Interval(-e, e, ClosedOpen)])
  }

  /** `prepare_property` of the older revision: the ids are resolved
      first, then `val`, `strval` and `err` are rewritten as
      `LegacyNormalise` does; it fails after the ids only on a missing
      `val` or a non-numeric `err`. */
  function LegacyPrepareProperty(t: Tables, property: Record, star: Record, ptype: Record, source: Record,
                                 reference: Record, instrument: Option<Record>): (r: Result<Record, Error>)
    ensures var w := LegacyIds(t, property, star, ptype, source, reference, instrument);
            w.Err? ==> r == Err(w.error)
    ensures var w := LegacyIds(t, property, star, ptype, source, reference, instrument);
            r.Ok? <==> w.Ok? && "val" in property
                       && ("err" !in property || property["err"] == Null || AsReal(property["err"]).Some?)
    ensures var w := LegacyIds(t, property, star, ptype, source, reference, instrument);
            w.Ok? && "val" !in property ==> r == Err(KeyError("val"))
    ensures var w := LegacyIds(t, property, star, ptype, source, reference, instrument);
            r.Ok? ==> r.value.Keys == property.Keys + IdCols + LegacyNullableCols
                      && forall k :: k in IdCols ==> r.value[k] == w.value[k]
    ensures r.Ok? && property["val"].Str? ==> r.value["strval"] == property["val"] && r.value["val"] == Null
    ensures r.Ok? && !property["val"].Str? ==>
              r.value["val"] == property["val"] && r.value["strval"] == (if "strval" in property then property["strval"] else Null)
    ensures r.Ok? && "err" in property && property["err"] != Null ==>
              AsReal(property["err"]).Some?
              && r.value["err"] == Interval(-AsReal(property["err"]).value, AsReal(property["err"]).value, ClosedOpen)
    ensures r.Ok? && ("err" !in property || property["err"] == Null) ==> r.value["err"] == Null
    ensures r.Ok? ==> forall k :: k in property && k !in IdCols && k !in {"val", "strval", "err"} ==> r.value[k] == property[k]
  {
    var withIds :- LegacyIds(t, property, star, ptype, source, reference, instrument);
    LegacyNormaliseOf(property, withIds);
    LegacyValuesOf(property, withIds);
    LegacyErrOf(property, withIds);
    LegacyNormalise(withIds)
  }

  /** The older normalisation of a record whose ids were just resolved,
      stated on the record before resolution: when it succeeds, which keys
      it has, and that the ids and the entries it does not rewrite pass
      through. */
  lemma LegacyNormaliseOf(p: Record, w: Record)
    requires w.Keys == p.Keys + IdCols
    requires forall k :: k in p && k !in IdCols ==> w[k] == p[k]
    ensures var r := LegacyNormalise(w);
            (r.Ok? <==> "val" in p && ("err" !in p || p["err"] == Null || AsReal(p["err"]).Some?))
            && ("val" !in p ==> r == Err(KeyError("val")))
            && (r.Ok? ==> r.value.Keys == p.Keys + IdCols + LegacyNullableCols
                          && (forall k :: k in IdCols ==> r.value[k] == w[k])
                          && (forall k :: k in p && k !in IdCols && k !in {"val", "strval", "err"} ==> r.value[k] == p[k]))
  {
    NotIdCols();
    assert ("val" in w <==> "val" in p) && ("err" in w <==> "err" in p);
    LegacyNormaliseOk(w);
  }

  /** The values the older normalisation writes into `val` and `strval`,
      stated on the record before its ids were resolved. */
  lemma LegacyValuesOf(p: Record, w: Record)
    requires w.Keys == p.Keys + IdCols
    requires forall k :: k in p && k !in IdCols ==> w[k] == p[k]
    ensures var r := LegacyNormalise(w);
            r.Ok? ==> "val" in p
                      && (p["val"].Str? ==> r.value["strval"] == p["val"] && r.value["val"] == Null)
                      && (!p["val"].Str? ==> r.value["val"] == p["val"]
                                             && r.value["strval"] == (if "strval" in p then p["strval"] else Null))
  {
    var r := LegacyNormalise(w);
    if r.Ok? {
      NotIdCols();
      assert "val" in w && "val" in p && w["val"] == p["val"];
      assert ("strval" in w <==> "strval" in p) && ("strval" in p ==> w["strval"] == p["strval"]);
    }
  }

  /** The range the older normalisation writes into `err`, stated on the
      record before its ids were resolved. */
  lemma LegacyErrOf(p: Record, w: Record)
    requires w.Keys == p.Keys + IdCols
    requires forall k :: k in p && k !in IdCols ==> w[k] == p[k]
    ensures var r := LegacyNormalise(w);
            r.Ok? ==> ("err" in p && p["err"] != Null ==>
                         AsReal(p["err"]).Some?
                         && r.value["err"] == Interval(-AsReal(p["err"]).value, AsReal(p["err"]).value, ClosedOpen))
                      && ("err" !in p || p["err"] == Null ==> r.value["err"] == Null)
  {
    var r := LegacyNormalise(w);
    if r.Ok? {
      NotIdCols();
      assert ("err" in w <==> "err" in p) && ("err" in p ==> w["err"] == p["err"]);
    }
  }

  /** When the older normalisation succeeds: `val` present and `err` None
      or a number. */
  lemma LegacyNormaliseOk(p: Record)
    ensures LegacyNormalise(p).Ok? <==> "val" in p && ("err" !in p || p["err"] == Null || AsReal(p["err"]).Some?)
  {
    if "val" in p {
      var val := p["val"];
      var moved := if val.Str? then p["strval" := val]["val" := Null] else p;
      assert ("err" in moved <==> "err" in p) && ("err" in p ==> moved["err"] == p["err"]);
      var filled := FillNulls(moved, LegacyNullableCols);
      assert filled["err"] == (if "err" in p then p["err"] else Null);
    }
  }

  /** The two revisions resolve the same ids whenever the star and the
      source are given by id, the only entities they look up differently. */
  lemma RevisionsShareIds(t: Tables, property: Record, star: Record, ptype: Record, source: Record,
                          reference: Record, instrument: Option<Record>)
    requires "id" in star && "id" in source
    ensures CurrentIds(t, property, star, ptype, source, reference, instrument)
            == LegacyIds(t, property, star, ptype, source, reference, instrument)
  {
  }

  /** The older source lookup is keyed on `url`: a source given by url alone
      that is not in the table fails on the message's `%(name)s`, not with
      `MissingDataError`. */
  lemma LegacySourceMissWithoutName(t: Tables, property: Record, star: Record, ptype: Record,
                                    source: Record, reference: Record)
    requires "id" in star && "id" in ptype
    requires "id" !in source && "name" !in source && "url" in source && "version" !in source
    requires forall i :: 0 <= i < |t.sources| ==> !("url" in t.sources[i] && SqlEq(t.sources[i]["url"], source["url"]))
    ensures LegacyPrepareProperty(t, property, star, ptype, source, reference, None) == Err(KeyError("name"))
  {
    var lk := LegacyLookups(t, star, ptype, source, reference, map[]);
    var conds := SourceQuery("url", source).value;
    assert conds == [Eq("url", source["url"])];
    forall i | 0 <= i < |t.sources| ensures !Matches(t.sources[i], conds) {
      assert !Holds(t.sources[i], conds[0]);
    }
    assert lk.source == Ok(None);
  }
}

=== FILE: sqlhappy.dfy ===
/** The result-shaping and query-text helpers of the `Database` base class
    (sqlhappy.py).  A result row is a `DictRow`: its columns in SELECT
    order, readable by name or by position. */
module SqlHappy {
  import opened Wrappers
  import opened Strings
  import opened Values
  import opened Assoc

  /** A result row: (column name, value) pairs in SELECT order. */
  type Row = seq<(string, Value)>

  function Names(row: Row): (ns: seq<string>)
    ensures |ns| == |row| && forall j :: 0 <= j < |row| ==> ns[j] == row[j].0
  {
    seq(|row|, j requires 0 <= j < |row| => row[j].0)
  }

  predicate HasField(row: Row, name: string) {
    exists j :: 0 <= j < |row| && row[j].0 == name
  }

  /** `row[name]`: the value of the LAST column of that name, or `KeyError`.
      A `DictRow` indexes its columns by name in an ordered dict built over
      the cursor description, so a repeated name ends up pointing at its
      last position. */
  function Field(row: Row, name: string): (r: Result<Value, Error>)
    ensures r.Ok? <==> HasField(row, name)
    ensures r.Err? ==> r.error == KeyError(name)
    ensures r.Ok? ==> exists j :: 0 <= j < |row| && row[j] == (name, r.value)
                                  && forall i :: j < i < |row| ==> row[i].0 != name
    decreases |row|
  {
    if |row| == 0 then Err(KeyError(name))
    else if row[|row| - 1].0 == name then Ok(row[|row| - 1].1)
    else
      var init := row[..|row| - 1];
      assert forall j :: 0 <= j < |init| ==> init[j] == row[j];
      Field(init, name)
  }

  /** Column names that occur once each. */
  predicate Distinct(ns: seq<string>) {
    forall i, j :: 0 <= i < j < |ns| ==> ns[i] != ns[j]
  }

  lemma FieldAt(row: Row, j: nat)
    requires j < |row| && Distinct(Names(row))
    ensures Field(row, row[j].0) == Ok(row[j].1)
  {
    var n := row[j].0;
    assert HasField(row, n);
    var v := Field(row, n).value;
    var k :| 0 <= k < |row| && row[k] == (n, v) && forall i :: k < i < |row| ==> row[i].0 != n;
    assert Names(row)[k] == row[k].0 && Names(row)[j] == row[j].0;
    if k != j { assert false; }
  }

  /** A row with a repeated name reads the later column: the earlier one is
      out of reach by name. */
  lemma FieldRepeated(name: string, a: Value, b: Value)
    ensures Field([(name, a), (name, b)], name) == Ok(b)
  {
  }

  /** `row.keys()`: each column name once, in the order it first occurs. */
  function Keys(ns: seq<string>): (r: seq<string>)
    ensures Distinct(r)
    ensures forall n :: n in r <==> n in ns
    ensures Distinct(ns) ==> r == ns
    decreases |ns|
  {
    if |ns| == 0 then []
    else
      var init := ns[..|ns| - 1];
      var n := ns[|ns| - 1];
      assert ns == init + [n];
      var d := Keys(init);
      if n in d then d else d + [n]
  }

  /** A column selector: a position or a name (`row[0]`, `row['id']`). */
  datatype Col = ByIndex(i: nat) | ByName(name: string)

  function Select(row: Row, col: Col): (r: Result<Value, Error>)
    ensures col.ByIndex? ==> (r.Ok? <==> col.i < |row|) && (r.Ok? ==> r.value == row[col.i].1)
    ensures col.ByName? ==> r == Field(row, col.name)
  {
    match col
    case ByIndex(i) => if i < |row| then Ok(row[i].1) else Err(IndexError("tuple index out of range"))
    case ByName(n) => Field(row, n)
  }

  // ---- fetchall / scalar ---------------------------------------------------

  /** What `fetchall` returns: the rows, or the pair `(rows, colnames)`. */
  datatype Fetched = Rows(rows: Option<seq<Row>>) | RowsAndNames(rows: Option<seq<Row>>, names: seq<string>)

  /** `fetchall(sql, colnames=wantNames)` on a result of `rows` whose cursor
      description names `described`: no rows is None, never an empty list;
      the names come back only when asked for and non-empty (an empty tuple
      is falsy). */
  function FetchAll(rows: seq<Row>, wantNames: bool, described: seq<string>): (r: Fetched)
    ensures r.rows.None? <==> |rows| == 0
    ensures r.rows.Some? ==> r.rows.value == rows && |r.rows.value| > 0
    ensures r.RowsAndNames? <==> wantNames && |described| > 0
    ensures r.RowsAndNames? ==> r.names == described
  {
    var all := if |rows| == 0 then None else Some(rows);
    if wantNames && |described| > 0 then RowsAndNames(all, described) else Rows(all)
  }

  /** `scalar(result, col)`: `row[col]` of the first row, None without rows. */
  function Scalar(rows: seq<Row>, col: Col): (r: Result<Value, Error>)
    ensures |rows| == 0 ==> r == Ok(Null)
    ensures |rows| > 0 && col.ByIndex? ==>
              (r.Ok? <==> col.i < |rows[0]|) && (r.Ok? ==> r.value == rows[0][col.i].1)
              && (r.Err? ==> r.error.IndexError?)
    ensures |rows| > 0 && col.ByName? ==>
              (r.Ok? <==> HasField(rows[0], col.name)) && (r.Err? ==> r.error == KeyError(col.name))
              && (r.Ok? ==> exists j :: 0 <= j < |rows[0]| && rows[0][j] == (col.name, r.value)
                                        && forall i :: j < i < |rows[0]| ==> rows[0][i].0 != col.name)
  {
    if |rows| == 0 then Ok(Null) else Select(rows[0], col)
  }

  /** `scalar` cannot tell an empty result from a NULL in the first row. */
  lemma ScalarNullAmbiguous(name: string)
    ensures Scalar([], ByName(name)) == Scalar([[(name, Null)]], ByName(name)) == Ok(Null)
  {
    assert [(name, Null)][0].0 == name;
  }

  /** Only the first row is read: rows after it do not change the answer. */
  lemma ScalarFirstRowOnly(first: Row, rest: seq<Row>, col: Col)
    ensures Scalar([first] + rest, col) == Scalar([first], col)
  {
  }

  // ---- list_to_columns (and the transpose of fetch_data_cols) ----------------

  /** The name a column is read under: itself, or lower-cased (`c.lower()`). */
  function KeyFor(c: string, lower: bool): string {
    if lower then Lower(c) else c
  }

  /** One row appended to the columns: `cols[c].append(row[key(c)])` for
      each `c` in order; the first missing field raises `KeyError`. */
  function AppendRow(cols: map<string, seq<Value>>, row: Row, cl: seq<string>, lower: bool)
    : (r: Result<map<string, seq<Value>>, Error>)
    ensures r.Ok? <==> forall j :: 0 <= j < |cl| ==> HasField(row, KeyFor(cl[j], lower))
    ensures r.Ok? ==> r.value.Keys == cols.Keys + set c | c in cl
    ensures r.Ok? ==> forall c :: c in cols && c !in cl ==> r.value[c] == cols[c]
    decreases |cl|
  {
    if |cl| == 0 then Ok(cols)
    else
      var init := cl[..|cl| - 1];
      var c := cl[|cl| - 1];
      LastColumn(cl, row, lower);
      match AppendRow(cols, row, init, lower)
      case Err(e) => Err(e)
      case Ok(m) =>
        match Field(row, KeyFor(c, lower))
        case Err(e) => Err(e)
        case Ok(v) => Ok(m[c := (if c in m then m[c] else []) + [v]])
  }

  /** Splitting the last column name off a column list. */
  lemma LastColumn(cl: seq<string>, row: Row, lower: bool)
    requires |cl| > 0
    ensures var init, c := cl[..|cl| - 1], cl[|cl| - 1];
            (set x | x in cl) == (set x | x in init) + {c}
            && ((forall j :: 0 <= j < |cl| ==> HasField(row, KeyFor(cl[j], lower)))
                <==> (forall j :: 0 <= j < |init| ==> HasField(row, KeyFor(init[j], lower))) && HasField(row, KeyFor(c, lower)))
  {
    var init := cl[..|cl| - 1];
    assert forall j :: 0 <= j < |init| ==> init[j] == cl[j];
    assert cl == init + [cl[|cl| - 1]];
  }

  /** With distinct column names, each column gains exactly its field. */
  lemma {:induction false} AppendRowDistinct(cols: map<string, seq<Value>>, row: Row, cl: seq<string>, lower: bool, k: nat)
    requires Distinct(cl) && k < |cl| && cl[k] in cols
    requires AppendRow(cols, row, cl, lower).Ok?
    ensures cl[k] in AppendRow(cols, row, cl, lower).value
    ensures AppendRow(cols, row, cl, lower).value[cl[k]] == cols[cl[k]] + [Field(row, KeyFor(cl[k], lower)).value]
    decreases |cl|
  {
    var init := cl[..|cl| - 1];
    var c := cl[|cl| - 1];
    assert forall j :: 0 <= j < |init| ==> init[j] == cl[j];
    var m := AppendRow(cols, row, init, lower).value;
    if k == |cl| - 1 {
      assert c !in init;
      assert m[c] == cols[c];
    } else {
      assert init[k] == cl[k] && cl[k] != c;
      AppendRowDistinct(cols, row, init, lower, k);
    }
  }

  function Transpose(cols: map<string, seq<Value>>, rows: seq<Row>, cl: seq<string>, lower: bool)
    : (r: Result<map<string, seq<Value>>, Error>)
    ensures r.Ok? <==> forall i, j :: 0 <= i < |rows| && 0 <= j < |cl| ==> HasField(rows[i], KeyFor(cl[j], lower))
    ensures r.Ok? && |rows| > 0 ==> r.value.Keys == cols.Keys + set c | c in cl
    ensures r.Ok? && |rows| == 0 ==> r.value == cols
    decreases |rows|
  {
    if |rows| == 0 then Ok(cols)
    else
      match AppendRow(cols, rows[0], cl, lower)
      case Err(e) => Err(e)
      case Ok(cols') =>
        var r := Transpose(cols', rows[1..], cl, lower);
        assert forall i :: 1 <= i < |rows| ==> rows[i] == rows[1..][i - 1];
        r
  }

  /** Column `k` of the rows: `[row[k] for row in rows]`. */
  function ColumnValues(rows: seq<Row>, k: string): (vs: seq<Value>)
    requires forall i :: 0 <= i < |rows| ==> HasField(rows[i], k)
    ensures |vs| == |rows| && forall i :: 0 <= i < |rows| ==> Field(rows[i], k) == Ok(vs[i])
    decreases |rows|
  {
    if |rows| == 0 then []
    else
      assert forall i :: 1 <= i < |rows| ==> rows[i] == rows[1..][i - 1];
      [Field(rows[0], k).value] + ColumnValues(rows[1..], k)
  }

  /** One step of the transpose: the first row is appended, then the rest. */
  lemma TransposeStep(cols: map<string, seq<Value>>, rows: seq<Row>, cl: seq<string>, lower: bool)
    requires |rows| > 0 && Transpose(cols, rows, cl, lower).Ok?
    ensures AppendRow(cols, rows[0], cl, lower).Ok?
    ensures Transpose(cols, rows, cl, lower) == Transpose(AppendRow(cols, rows[0], cl, lower).value, rows[1..], cl, lower)
  {
  }

  lemma TransposeHasField(cols: map<string, seq<Value>>, rows: seq<Row>, cl: seq<string>, lower: bool, k: nat)
    requires k < |cl| && Transpose(cols, rows, cl, lower).Ok?
    ensures forall i :: 0 <= i < |rows| ==> HasField(rows[i], KeyFor(cl[k], lower))
  {
  }

  lemma ConcatStep(x: seq<Value>, y: seq<Value>, a: seq<Value>, f: Value, b: seq<Value>)
    requires x == y + b && y == a + [f]
    ensures x == a + ([f] + b)
  {
  }

  lemma {:induction false} TransposeDistinct(cols: map<string, seq<Value>>, rows: seq<Row>, cl: seq<string>, lower: bool, k: nat)
    requires Distinct(cl) && k < |cl| && cl[k] in cols
    requires Transpose(cols, rows, cl, lower).Ok?
    requires forall i :: 0 <= i < |rows| ==> HasField(rows[i], KeyFor(cl[k], lower))
    ensures cl[k] in Transpose(cols, rows, cl, lower).value
    ensures Transpose(cols, rows, cl, lower).value[cl[k]] == cols[cl[k]] + ColumnValues(rows, KeyFor(cl[k], lower))
    decreases |rows|
  {
    var key := KeyFor(cl[k], lower);
    if |rows| > 0 {
      TransposeStep(cols, rows, cl, lower);
      var cols' := AppendRow(cols, rows[0], cl, lower).value;
      AppendRowDistinct(cols, rows[0], cl, lower, k);
      assert forall i :: 0 <= i < |rows[1..]| ==> rows[1..][i] == rows[i + 1];
      TransposeDistinct(cols', rows[1..], cl, lower, k);
      var t, t' := Transpose(cols, rows, cl, lower).value, Transpose(cols', rows[1..], cl, lower).value;
      assert t == t';
      var f := Field(rows[0], key).value;
      assert ColumnValues(rows, key) == [f] + ColumnValues(rows[1..], key);
      ConcatStep(t'[cl[k]], cols'[cl[k]], cols[cl[k]], f, ColumnValues(rows[1..], key));
    } else {
      assert ColumnValues(rows, key) == [];
    }
  }

  /** The columns, all empty, before the first row: `cols[c] = []`. */
  function EmptyColumns(cl: seq<string>): (m: map<string, seq<Value>>)
    ensures m.Keys == set c | c in cl
    ensures forall c :: c in m ==> m[c] == []
  {
    map c | c in cl :: []
  }

  /** `fetch_data_cols`-style transpose over a named column list. */
  function Columns(rows: seq<Row>, cl: seq<string>, lower: bool): (r: Result<map<string, seq<Value>>, Error>)
    ensures r.Ok? <==> forall i, j :: 0 <= i < |rows| && 0 <= j < |cl| ==> HasField(rows[i], KeyFor(cl[j], lower))
    ensures r.Ok? ==> r.value.Keys == set c | c in cl
  {
    Transpose(EmptyColumns(cl), rows, cl, lower)
  }

  /** With distinct names, every column lists its field for every row, in row order. */
  lemma ColumnsContents(rows: seq<Row>, cl: seq<string>, lower: bool, k: nat)
    requires Distinct(cl) && k < |cl| && Columns(rows, cl, lower).Ok?
    ensures forall i :: 0 <= i < |rows| ==> HasField(rows[i], KeyFor(cl[k], lower))
    ensures Columns(rows, cl, lower).value[cl[k]] == ColumnValues(rows, KeyFor(cl[k], lower))
  {
    var e := EmptyColumns(cl);
    assert cl[k] in e && e[cl[k]] == [];
    TransposeHasField(e, rows, cl, lower, k);
    TransposeDistinct(e, rows, cl, lower, k);
    assert e[cl[k]] + ColumnValues(rows, KeyFor(cl[k], lower)) == ColumnValues(rows, KeyFor(cl[k], lower));
  }

  /** `list_to_columns(result)`: None stays None; otherwise the columns are
      named after the first row's keys and hold each row's field.  An empty
      list fails on `result[0]`. */
  function ListToColumns(result: Option<seq<Row>>): (r: Result<Option<map<string, seq<Value>>>, Error>)
    ensures result.None? ==> r == Ok(None)
    ensures result == Some([]) ==> r.Err? && r.error.IndexError?
    ensures result.Some? && |result.value| > 0 ==>
              (r.Ok? <==> forall i, n :: 0 <= i < |result.value| && n in Names(result.value[0]) ==> HasField(result.value[i], n))
    ensures result.Some? && |result.value| > 0 && r.Err? ==> r.error.KeyError?
    ensures result.Some? && |result.value| > 0 && r.Ok? ==>
              r.value.Some? && r.value.value.Keys == set j | 0 <= j < |result.value[0]| :: result.value[0][j].0
  {
    match result
    case None => Ok(None)
    case Some(rows) =>
      if |rows| == 0 then Err(IndexError("list index out of range"))
      else
        var ks := Keys(Names(rows[0]));
        KeysCover(rows, ks);
        var cols :- ColumnsErr(rows, ks);
        Ok(Some(cols))
  }

  /** The first row's keys, read as plain names, ask for exactly the fields
      the first row names, and make exactly its name set. */
  lemma KeysCover(rows: seq<Row>, ks: seq<string>)
    requires |rows| > 0 && ks == Keys(Names(rows[0]))
    ensures (forall i, j :: 0 <= i < |rows| && 0 <= j < |ks| ==> HasField(rows[i], KeyFor(ks[j], false)))
            <==> (forall i, n :: 0 <= i < |rows| && n in Names(rows[0]) ==> HasField(rows[i], n))
    ensures (set c | c in ks) == set j | 0 <= j < |rows[0]| :: rows[0][j].0
  {
    KeyNames(rows[0], ks);
    assert forall j :: 0 <= j < |ks| ==> KeyFor(ks[j], false) == ks[j];
    if forall i, j :: 0 <= i < |rows| && 0 <= j < |ks| ==> HasField(rows[i], KeyFor(ks[j], false)) {
      forall i, n | 0 <= i < |rows| && n in Names(rows[0]) ensures HasField(rows[i], n) {
        var j :| 0 <= j < |ks| && ks[j] == n;
        assert HasField(rows[i], KeyFor(ks[j], false));
      }
    }
    if forall i, n :: 0 <= i < |rows| && n in Names(rows[0]) ==> HasField(rows[i], n) {
      forall i, j | 0 <= i < |rows| && 0 <= j < |ks| ensures HasField(rows[i], KeyFor(ks[j], false)) {
        assert ks[j] in Names(rows[0]);
      }
    }
  }

  /** A row's keys make up its set of column names. */
  lemma KeyNames(row: Row, ks: seq<string>)
    requires ks == Keys(Names(row))
    ensures (set c | c in ks) == set j | 0 <= j < |row| :: row[j].0
  {
    forall x | x in ks ensures x in set j | 0 <= j < |row| :: row[j].0 {
      var j :| 0 <= j < |row| && Names(row)[j] == x;
    }
    forall j | 0 <= j < |row| ensures row[j].0 in ks {
      assert Names(row)[j] == row[j].0;
    }
  }

  /** The transpose under the first row's own names, whose only error is a
      missing field. */
  function ColumnsErr(rows: seq<Row>, ks: seq<string>): (r: Result<map<string, seq<Value>>, Error>)
    ensures r == Columns(rows, ks, false)
    ensures r.Err? ==> r.error.KeyError?
  {
    TransposeKeyError(EmptyColumns(ks), rows, ks, false);
    Columns(rows, ks, false)
  }

  lemma {:induction false} TransposeKeyError(cols: map<string, seq<Value>>, rows: seq<Row>, cl: seq<string>, lower: bool)
    ensures Transpose(cols, rows, cl, lower).Err? ==> Transpose(cols, rows, cl, lower).error.KeyError?
    decreases |rows|
  {
    if |rows| > 0 {
      AppendRowKeyError(cols, rows[0], cl, lower);
      if AppendRow(cols, rows[0], cl, lower).Ok? {
        TransposeKeyError(AppendRow(cols, rows[0], cl, lower).value, rows[1..], cl, lower);
      }
    }
  }

  lemma {:induction false} AppendRowKeyError(cols: map<string, seq<Value>>, row: Row, cl: seq<string>, lower: bool)
    ensures AppendRow(cols, row, cl, lower).Err? ==> AppendRow(cols, row, cl, lower).error.KeyError?
    decreases |cl|
  {
    if |cl| > 0 {
      AppendRowKeyError(cols, row, cl[..|cl| - 1], lower);
    }
  }

  /** Every column of `list_to_columns` lists, for every row in order, the
      value that row gives for the column's name. */
  lemma ListToColumnsContents(rows: seq<Row>, n: string)
    requires |rows| > 0 && ListToColumns(Some(rows)).Ok? && n in Names(rows[0])
    ensures n in ListToColumns(Some(rows)).value.value
    ensures ListToColumns(Some(rows)).value.value[n] == ColumnValues(rows, n)
  {
    var ks := Keys(Names(rows[0]));
    assert ListToColumns(Some(rows)) == Ok(Some(Columns(rows, ks, false).value));
    var k :| 0 <= k < |ks| && ks[k] == n;
    ColumnsContents(rows, ks, false, k);
  }

  /** `fetchall_columns(sql)`: `list_to_columns(fetchall(sql))`.  Since
      `fetchall` never returns an empty list, no rows gives None and the
      `result[0]` IndexError cannot happen; the only failure left is a
      later row missing a name the first row has. */
  function FetchAllColumns(rows: seq<Row>): (r: Result<Option<map<string, seq<Value>>>, Error>)
    ensures r == Ok(None) <==> |rows| == 0
    ensures r.Err? ==> r.error.KeyError?
    ensures |rows| > 0 ==> r == ListToColumns(Some(rows))
  {
    ListToColumns(FetchAll(rows, false, []).rows)
  }

  /** `scalar(result, name)` is the first entry of the column
      `list_to_columns` builds under that name. */
  lemma ScalarIsFirstOfColumn(rows: seq<Row>, n: string)
    requires |rows| > 0 && ListToColumns(Some(rows)).Ok? && n in Names(rows[0])
    ensures n in ListToColumns(Some(rows)).value.value
    ensures |ListToColumns(Some(rows)).value.value[n]| > 0
    ensures Scalar(rows, ByName(n)) == Ok(ListToColumns(Some(rows)).value.value[n][0])
  {
    ListToColumnsContents(rows, n);
  }

  /** Row `i` rebuilt from the columns, in the column order `ns`. */
  function RowFromColumns(cols: map<string, seq<Value>>, ns: seq<string>, i: nat): Row
    requires forall j :: 0 <= j < |ns| ==> ns[j] in cols && i < |cols[ns[j]]|
  {
    seq(|ns|, j requires 0 <= j < |ns| && ns[j] in cols && i < |cols[ns[j]]| => (ns[j], cols[ns[j]][i]))
  }

  /** Rows that all carry the same names as the first have every column. */
  lemma SharedNamesCover(rows: seq<Row>)
    requires |rows| > 0
    requires forall r :: 0 <= r < |rows| ==> Names(rows[r]) == Names(rows[0])
    ensures Columns(rows, Names(rows[0]), false).Ok?
  {
    var ns := Names(rows[0]);
    forall r, j | 0 <= r < |rows| && 0 <= j < |ns| ensures HasField(rows[r], KeyFor(ns[j], false)) {
      assert Names(rows[r])[j] == ns[j];
      assert rows[r][j].0 == ns[j];
    }
  }

  /** Column `ns[j]` holds, at position `i`, the value row `i` has there. */
  lemma {:induction false} ColumnEntry(rows: seq<Row>, cols: map<string, seq<Value>>, i: nat, j: nat)
    requires |rows| > 0 && i < |rows| && j < |rows[0]| && j < |rows[i]|
    requires Distinct(Names(rows[0]))
    requires forall r :: 0 <= r < |rows| ==> Names(rows[r]) == Names(rows[0])
    requires Columns(rows, Names(rows[0]), false) == Ok(cols)
    ensures rows[0][j].0 in cols && |cols[rows[0][j].0]| == |rows|
    ensures cols[rows[0][j].0][i] == rows[i][j].1
  {
    var ns := Names(rows[0]);
    var n := ns[j];
    ColumnsContents(rows, ns, false, j);
    assert KeyFor(n, false) == n;
    var cv := ColumnValues(rows, n);
    assert cols[n] == cv;
    assert Field(rows[i], n) == Ok(cv[i]);
    assert Names(rows[i]) == ns;
    assert rows[i][j].0 == n;
    FieldAt(rows[i], j);
  }

  /** On rows sharing distinct names, `list_to_columns` is the transpose
      under those names. */
  lemma ListToColumnsShared(rows: seq<Row>)
    requires |rows| > 0
    requires Distinct(Names(rows[0]))
    requires forall r :: 0 <= r < |rows| ==> Names(rows[r]) == Names(rows[0])
    ensures Columns(rows, Names(rows[0]), false).Ok?
    ensures ListToColumns(Some(rows)) == Ok(Some(Columns(rows, Names(rows[0]), false).value))
  {
    SharedNamesCover(rows);
    assert Keys(Names(rows[0])) == Names(rows[0]);
  }

  /** A row is rebuilt from columns that hold its values under its names. */
  lemma RowFromColumnsEq(cols: map<string, seq<Value>>, ns: seq<string>, row: Row, i: nat)
    requires |row| == |ns|
    requires forall j :: 0 <= j < |ns| ==> ns[j] in cols && i < |cols[ns[j]]|
    requires forall j :: 0 <= j < |ns| ==> row[j].0 == ns[j] && cols[ns[j]][i] == row[j].1
    ensures RowFromColumns(cols, ns, i) == row
  {
    var back := RowFromColumns(cols, ns, i);
    forall j | 0 <= j < |ns| ensures back[j] == row[j] {
    }
  }

  /** `list_to_columns` loses nothing on a result whose rows share the first
      row's (distinct) column names: every row is rebuilt from the columns. */
  lemma {:induction false} ListToColumnsRoundTrip(rows: seq<Row>, i: nat)
    requires |rows| > 0 && i < |rows|
    requires Distinct(Names(rows[0]))
    requires forall r :: 0 <= r < |rows| ==> Names(rows[r]) == Names(rows[0])
    ensures ListToColumns(Some(rows)).Ok?
    ensures var cols := ListToColumns(Some(rows)).value.value;
            var ns := Names(rows[0]);
            (forall j :: 0 <= j < |ns| ==> ns[j] in cols && |cols[ns[j]]| == |rows|)
            && RowFromColumns(cols, ns, i) == rows[i]
  {
    var ns := Names(rows[0]);
    ListToColumnsShared(rows);
    var cols := Columns(rows, ns, false).value;
    assert Names(rows[i]) == ns;
    forall j | 0 <= j < |ns|
      ensures ns[j] in cols && |cols[ns[j]]| == |rows| && rows[i][j].0 == ns[j] && cols[ns[j]][i] == rows[i][j].1
    {
      ColumnEntry(rows, cols, i, j);
    }
    RowFromColumnsEq(cols, ns, rows[i], i);
  }

  // ---- dict_ -------------------------------------------------------------------

  /** A value Python can use as a dict key (lists and dicts cannot). */
  predicate Hashable(v: Value) { !v.List? && !v.Dict? }

  /** The `(row[key], row[val])` pairs in row order; `row[val]` is read
      before `row[key]` (the right-hand side of an assignment comes first),
      and an unhashable key raises `TypeError`. */
  function Entries(rows: seq<Row>, key: Col, val: Col): (r: Result<seq<(Value, Value)>, Error>)
    ensures r.Ok? <==> forall i :: 0 <= i < |rows| ==> Select(rows[i], val).Ok? && Select(rows[i], key).Ok?
                                                       && Hashable(Select(rows[i], key).value)
    ensures r.Ok? ==> |r.value| == |rows| && forall i :: 0 <= i < |rows| ==>
                        r.value[i] == (Select(rows[i], key).value, Select(rows[i], val).value)
  {
    if |rows| == 0 then Ok([])
    else
      var v :- Select(rows[0], val);
      var k :- Select(rows[0], key);
      if !Hashable(k) then Err(TypeError("unhashable type"))
      else
        var rest :- Entries(rows[1..], key, val);
        assert forall i :: 1 <= i < |rows| ==> rows[i] == rows[1..][i - 1];
        Ok([(k, v)] + rest)
  }

  function EntryKey(e: (Value, Value)): Option<Value> { Some(e.0) }
  function EntryVal(e: (Value, Value)): Value { e.1 }

  /** `dict_(result, key, val)`: `{row[key]: row[val]}` over the rows. */
  function Dict_(rows: seq<Row>, key: Col, val: Col): (r: Result<map<Value, Value>, Error>)
    ensures r.Ok? <==> Entries(rows, key, val).Ok?
    ensures r.Ok? ==> r.value.Keys == set i | 0 <= i < |rows| :: Select(rows[i], key).value
  {
    var es :- Entries(rows, key, val);
    var m := AssocBy(es, EntryKey, EntryVal);
    assert m.Keys == set i | 0 <= i < |rows| :: Select(rows[i], key).value by {
      assert forall i :: 0 <= i < |es| ==> EntryKey(es[i]).value == Select(rows[i], key).value;
    }
    Ok(m)
  }

  /** For a repeated key the later row wins: a key maps to the value of the
      last row carrying it. */
  lemma Dict_LastWins(rows: seq<Row>, key: Col, val: Col, i: nat)
    requires Dict_(rows, key, val).Ok? && i < |rows|
    requires forall j :: i < j < |rows| ==> Select(rows[j], key) != Select(rows[i], key)
    ensures Select(rows[i], key).value in Dict_(rows, key, val).value
    ensures Dict_(rows, key, val).value[Select(rows[i], key).value] == Select(rows[i], val).value
  {
    var es := Entries(rows, key, val).value;
    forall j | i < j < |es| ensures EntryKey(es[j]) != EntryKey(es[i]) {
      assert Select(rows[j], key).Ok? && Select(rows[i], key).Ok?;
    }
    LastWins(es, EntryKey, EntryVal, i);
  }

  // ---- clean_binds ----------------------------------------------------------

  /** `clean_binds`: numpy floats become floats and numpy integers become
      ints, in place; nothing else changes. */
  function CleanValue(v: Value): (w: Value)
    ensures AsReal(w) == AsReal(v)
    ensures !v.NpFloat? && !v.NpInt? ==> w == v
    ensures !w.NpFloat? && !w.NpInt?
  {
    match v
    case NpFloat(f) => Float(f)
    case NpInt(i) => Int(i)
    case _ => v
  }

  function CleanBinds(binds: Record): (r: Record)
    ensures r.Keys == binds.Keys
    ensures forall k :: k in binds ==> r[k] == CleanValue(binds[k])
  {
    map k | k in binds :: CleanValue(binds[k])
  }

  /** Cleaning twice is cleaning once, and the numbers bound are unchanged. */
  lemma CleanBindsIdempotent(binds: Record)
    ensures CleanBinds(CleanBinds(binds)) == CleanBinds(binds)
    ensures forall k :: k in binds ==> AsReal(CleanBinds(binds)[k]) == AsReal(binds[k])
  {
  }

  // ---- rowsize ---------------------------------------------------------------

  /** The size `rowsize` counts for one value: `intsize` for a bool, int or
      float (numpy floats are floats; numpy integers are not ints under
      Python 3, so they count one byte), the length of a string, the
      recursive size of a list, and 1 for anything else. */
  function ValueSize(v: Value, intsize: real): (r: real)
    ensures intsize >= 0.0 ==> r >= 0.0
    decreases v, 1
  {
    match v
    case Bool(_) => intsize
    case Int(_) => intsize
    case Float(_) => intsize
    case NpFloat(_) => intsize
    case Str(s) => |s| as real
    case List(items) => ListSize(items, intsize)
    case _ => 1.0
  }

  /** The size of a list: the sum of its items' sizes, never negative. */
  function ListSize(vs: seq<Value>, intsize: real): (r: real)
    ensures intsize >= 0.0 ==> r >= 0.0
    decreases vs, 0
  {
    if |vs| == 0 then 0.0 else ValueSize(vs[0], intsize) + ListSize(vs[1..], intsize)
  }

  /** `row.values()`: one value per key of the row, in key order, each the
      value `row[key]` reads. */
  function RowValues(row: Row): (vs: seq<Value>)
    ensures |vs| == |Keys(Names(row))|
    ensures forall j :: 0 <= j < |vs| ==> Field(row, Keys(Names(row))[j]) == Ok(vs[j])
  {
    var ks := Keys(Names(row));
    assert forall j :: 0 <= j < |ks| ==> HasField(row, ks[j]) by {
      forall j | 0 <= j < |ks| ensures HasField(row, ks[j]) {
        assert ks[j] in Names(row);
        var i :| 0 <= i < |row| && Names(row)[i] == ks[j];
      }
    }
    seq(|ks|, j requires 0 <= j < |ks| && HasField(row, ks[j]) => Field(row, ks[j]).value)
  }

  /** The values of a row whose column names are distinct are its columns'
      values, in SELECT order. */
  lemma RowValuesDistinct(row: Row)
    requires Distinct(Names(row))
    ensures RowValues(row) == seq(|row|, j requires 0 <= j < |row| => row[j].1)
  {
    var vs := RowValues(row);
    assert Keys(Names(row)) == Names(row);
    forall j | 0 <= j < |row| ensures vs[j] == row[j].1 {
      FieldAt(row, j);
    }
  }

  /** `rowsize(row)`: the size of the row's values; with distinct names,
      the size of every column's value. */
  function RowSize(row: Row, intsize: real): (r: real)
    ensures intsize >= 0.0 ==> r >= 0.0
    ensures Distinct(Names(row)) ==> r == ListSize(seq(|row|, j requires 0 <= j < |row| => row[j].1), intsize)
  {
    if Distinct(Names(row)) then RowValuesDistinct(row); ListSize(RowValues(row), intsize)
    else ListSize(RowValues(row), intsize)
  }

  /** A repeated column name is weighed once, with the value `row[name]`
      reads. */
  lemma RowSizeRepeated(n: string)
    ensures RowSize([(n, Str("ab")), (n, Str("c"))], 8.0) == 1.0
  {
    RepeatedRowValues(n);
    assert ListSize([Str("c")], 8.0) == 1.0 by {
      assert [Str("c")][1..] == [];
    }
  }

  lemma RepeatedRowValues(n: string)
    ensures !Distinct(Names([(n, Str("ab")), (n, Str("c"))]))
    ensures RowValues([(n, Str("ab")), (n, Str("c"))]) == [Str("c")]
  {
    var row := [(n, Str("ab")), (n, Str("c"))];
    assert Names(row) == [n, n];
    KeysRepeated(n);
    FieldRepeated(n, Str("ab"), Str("c"));
    var vs := RowValues(row);
    assert |vs| == 1 && Field(row, n) == Ok(vs[0]);
  }

  lemma KeysRepeated(n: string)
    ensures Keys([n, n]) == [n]
  {
    assert [n, n][..1] == [n];
    assert [n][..0] == [];
  }

  /** The size of a list is the sum of the sizes of its parts. */
  lemma {:induction false} ListSizeAppend(a: seq<Value>, b: seq<Value>, intsize: real)
    ensures ListSize(a + b, intsize) == ListSize(a, intsize) + ListSize(b, intsize)
  {
    if |a| > 0 {
      assert (a + b)[0] == a[0];
      assert (a + b)[1..] == a[1..] + b;
      ListSizeAppend(a[1..], b, intsize);
    } else {
      assert a + b == b;
    }
  }

  /** A row weighs what its columns weigh: splitting it anywhere splits the
      size. */
  lemma RowSizeSplit(a: Row, b: Row, intsize: real)
    requires Distinct(Names(a + b))
    ensures RowSize(a + b, intsize) == RowSize(a, intsize) + RowSize(b, intsize)
  {
    var va := seq(|a|, j requires 0 <= j < |a| => a[j].1);
    var vb := seq(|b|, j requires 0 <= j < |b| => b[j].1);
    var ab := a + b;
    assert Distinct(Names(a)) && Distinct(Names(b)) by {
      assert forall j :: 0 <= j < |a| ==> Names(a)[j] == Names(ab)[j];
      assert forall j :: 0 <= j < |b| ==> Names(b)[j] == Names(ab)[|a| + j];
    }
    assert seq(|ab|, j requires 0 <= j < |ab| => ab[j].1) == va + vb;
    ListSizeAppend(va, vb, intsize);
  }

  /** The non-list values inside a list, in order, with nesting removed. */
  function Flatten(vs: seq<Value>): (r: seq<Value>)
    ensures forall i :: 0 <= i < |r| ==> !r[i].List?
    decreases vs
  {
    if |vs| == 0 then []
    else
      match vs[0]
      case List(items) => Flatten(items) + Flatten(vs[1..])
      case _ => [vs[0]] + Flatten(vs[1..])
  }

  /** Nesting does not change the size: a list weighs what its leaves weigh. */
  lemma {:induction false} ListSizeFlatten(vs: seq<Value>, intsize: real)
    ensures ListSize(vs, intsize) == ListSize(Flatten(vs), intsize)
    decreases vs
  {
    if |vs| > 0 {
      ListSizeFlatten(vs[1..], intsize);
      match vs[0]
      case List(items) =>
        ListSizeFlatten(items, intsize);
        ListSizeAppend(Flatten(items), Flatten(vs[1..]), intsize);
      case _ =>
        assert ([vs[0]] + Flatten(vs[1..]))[1..] == Flatten(vs[1..]);
    }
  }

  // ---- build_filter -----------------------------------------------------------

  /** One clause: `colmap[b] + op + '%(b)s'`. */
  function Clause(col: string, op: string, b: string): string {
    col + op + "%(" + b + ")s"
  }

  /** The bind keys that name a column, in bind order. */
  function Mapped(binds: seq<string>, colmap: map<string, string>): (r: seq<string>)
    ensures forall b :: b in r <==> b in binds && b in colmap
    ensures |r| <= |binds|
  {
    if |binds| == 0 then []
    else if binds[0] in colmap then [binds[0]] + Mapped(binds[1..], colmap)
    else Mapped(binds[1..], colmap)
  }

  function Clauses(binds: seq<string>, colmap: map<string, string>, op: string): (cs: seq<string>)
    ensures |cs| == |Mapped(binds, colmap)|
    ensures forall i :: 0 <= i < |cs| ==>
              var b := Mapped(binds, colmap)[i];
              b in colmap && cs[i] == Clause(colmap[b], op, b)
  {
    if |binds| == 0 then []
    else if binds[0] in colmap then [Clause(colmap[binds[0]], op, binds[0])] + Clauses(binds[1..], colmap, op)
    else Clauses(binds[1..], colmap, op)
  }

  /** `build_filter(binds, colmap, default_op, clause_op, where)` (the
      second, effective definition): the clauses joined by
      `' ' + clause_op + ' '`, prefixed by `' WHERE '` when non-empty and
      asked for. */
  function BuildFilter(binds: seq<string>, colmap: map<string, string>, op: string, clauseOp: string, where: bool): (f: string)
    ensures |Mapped(binds, colmap)| == 0 ==> f == ""
    ensures |Mapped(binds, colmap)| > 0 && !where ==> f == Join(Clauses(binds, colmap, op), " " + clauseOp + " ")
    ensures |Mapped(binds, colmap)| > 0 && where ==> f == " WHERE " + Join(Clauses(binds, colmap, op), " " + clauseOp + " ")
  {
    var filter := Join(Clauses(binds, colmap, op), " " + clauseOp + " ");
    FilterNonEmpty(binds, colmap, op, " " + clauseOp + " ");
    if |filter| > 0 && where then " WHERE " + filter else filter
  }

  /** The joined clauses are empty exactly when no bind key is mapped. */
  lemma FilterNonEmpty(binds: seq<string>, colmap: map<string, string>, op: string, sep: string)
    ensures |Join(Clauses(binds, colmap, op), sep)| > 0 <==> |Mapped(binds, colmap)| > 0
  {
    var cs := Clauses(binds, colmap, op);
    if |cs| > 0 {
      assert |cs[0]| > 0;
    }
  }

  /** Bind keys outside the column map do not affect the filter. */
  lemma {:induction false} BuildFilterIgnoresUnmapped(binds: seq<string>, extra: string, colmap: map<string, string>,
                                                      op: string, clauseOp: string, where: bool, k: nat)
    requires extra !in colmap && k <= |binds|
    ensures BuildFilter(binds[..k] + [extra] + binds[k..], colmap, op, clauseOp, where) == BuildFilter(binds, colmap, op, clauseOp, where)
  {
    MappedSkip(binds, extra, colmap, op, k);
  }

  lemma {:induction false} MappedSkip(binds: seq<string>, extra: string, colmap: map<string, string>, op: string, k: nat)
    requires extra !in colmap && k <= |binds|
    ensures Mapped(binds[..k] + [extra] + binds[k..], colmap) == Mapped(binds, colmap)
    ensures Clauses(binds[..k] + [extra] + binds[k..], colmap, op) == Clauses(binds, colmap, op)
  {
    var s := binds[..k] + [extra] + binds[k..];
    if k == 0 {
      assert s == [extra] + binds;
      assert s[1..] == binds;
    } else {
      assert s[0] == binds[0];
      assert s[1..] == binds[1..][..k - 1] + [extra] + binds[1..][k - 1..];
      MappedSkip(binds[1..], extra, colmap, op, k - 1);
    }
  }
}

=== FILE: starids.dfy ===
/** Star identifiers: SIMBAD id splitting and stripping
    (sunstardb/database.py), the older column/prefix tables, id-type
    preference, id extraction and the SIMBAD id fold (sunstardb.py), the
    older `insert_star` row and the current `insert_star` with its Sun
    bootstrap.  The SIMBAD service is an oracle parameter. */
module StarIds {
  import opened Wrappers
  import opened Strings
  import opened Values
  import opened Assoc
  import KeyGuard

  // ---- split_simbad_id / strip_simbad_id --------------------------------

  /** `split_simbad_id`: split at the first space and strip both halves;
      `None` is the `ValueError` of an id without a space. */
  function SplitSimbadId(id: string): (r: Option<(string, string)>)
    ensures r.None? <==> ' ' !in id
    ensures r.Some? ==> exists a, b :: ' ' !in a && id == a + " " + b && r.value == (Strip(a), Strip(b))
  {
    match SplitOnce(id, ' ')
    case None => None
    case Some((a, b)) => Some((Strip(a), Strip(b)))
  }

  /** An id written as `TYPE id`, with no stray whitespace, splits back into its parts. */
  lemma SplitSimbadIdGlue(t: string, i: string)
    requires ' ' !in t && NoEdgeSpace(t) && NoEdgeSpace(i)
    ensures SplitSimbadId(t + " " + i) == Some((t, i))
  {
    var id := t + " " + i;
    assert id == t + [' '] + i;
    SplitOnceGlue(t, ' ', i);
    assert SplitOnce(id, ' ') == Some((t, i));
    StripNoEdge(t);
    StripNoEdge(i);
  }

  predicate IsStrippedPrefix(t: string) {
    t == "NAME" || t == "*" || t == "**"
  }

  /** `strip_simbad_id`: only the id part for the `NAME`, `*` and `**`
      prefixes; the input unchanged otherwise. */
  function StripSimbadId(id: string): (r: Option<string>)
    ensures r.None? <==> ' ' !in id
    ensures r.Some? && IsStrippedPrefix(SplitSimbadId(id).value.0) ==> r.value == SplitSimbadId(id).value.1
    ensures r.Some? && !IsStrippedPrefix(SplitSimbadId(id).value.0) ==> r.value == id
  {
    match SplitSimbadId(id)
    case None => None
    case Some((t, i)) => if IsStrippedPrefix(t) then Some(i) else Some(id)
  }

  /** On a `TYPE id` string: the bare id for the name and star prefixes,
      the whole string for catalogue prefixes such as `HD`. */
  lemma StripSimbadIdGlue(t: string, x: string)
    requires ' ' !in t && NoEdgeSpace(t) && NoEdgeSpace(x)
    ensures IsStrippedPrefix(t) ==> StripSimbadId(t + " " + x) == Some(x)
    ensures !IsStrippedPrefix(t) ==> StripSimbadId(t + " " + x) == Some(t + " " + x)
  {
    SplitSimbadIdGlue(t, x);
  }

  // ---- COLS2SIMBAD / SIMBAD2COLS / IDTYPES (sunstardb.py) ---------------

  /** Star table column to SIMBAD id prefix. */
  const Cols2Simbad: map<string, string> := map["hd" := "HD", "bright" := "*", "proper" := "NAME"]

  /** The inverted table `SIMBAD2COLS`, written out. */
  const Simbad2Cols: map<string, string> := map["HD" := "hd", "*" := "bright", "NAME" := "proper"]

  /** Star id columns in order of preference. */
  const IdTypes: seq<string> := ["id", "hd", "bright", "proper"]

  /** The two tables invert each other. */
  lemma ColsSimbadInverse()
    ensures Simbad2Cols.Keys == Cols2Simbad.Values
    ensures forall k :: k in Cols2Simbad ==> Simbad2Cols[Cols2Simbad[k]] == k
    ensures forall t :: t in Simbad2Cols ==> Simbad2Cols[t] in Cols2Simbad && Cols2Simbad[Simbad2Cols[t]] == t
  {
    assert Cols2Simbad.Keys == {"hd", "bright", "proper"};
    assert Cols2Simbad.Values == {"HD", "*", "NAME"} by {
      assert Cols2Simbad["hd"] == "HD" && Cols2Simbad["bright"] == "*" && Cols2Simbad["proper"] == "NAME";
    }
  }

  predicate Present(names: Record, t: string) {
    t in names && names[t] != Null
  }

  function FirstPresent(names: Record, ts: seq<string>): (r: Option<nat>)
    ensures r.Some? ==> r.value < |ts| && Present(names, ts[r.value])
                        && forall i :: 0 <= i < r.value ==> !Present(names, ts[i])
    ensures r.None? ==> forall i :: 0 <= i < |ts| ==> !Present(names, ts[i])
  {
    if |ts| == 0 then None
    else if Present(names, ts[0]) then Some(0)
    else match FirstPresent(names, ts[1..])
      case None => None
      case Some(j) => Some(j + 1)
  }

  /** `pref_idtype`: the first of `id, hd, bright, proper` present with a
      non-None value. */
  function PrefIdType(names: Record): (r: Option<string>)
    ensures r.Some? ==> exists j :: 0 <= j < |IdTypes| && IdTypes[j] == r.value && Present(names, r.value)
                                    && forall i :: 0 <= i < j ==> !Present(names, IdTypes[i])
    ensures r.None? <==> forall i :: 0 <= i < |IdTypes| ==> !Present(names, IdTypes[i])
  {
    match FirstPresent(names, IdTypes)
    case None => None
    case Some(j) => Some(IdTypes[j])
  }

  /** `extract_star`: the id-type keys present in `x`, None values
      included; `None` when there is none. */
  function ExtractStar(x: Record): (r: Option<Record>)
    ensures r.None? <==> forall i :: 0 <= i < |IdTypes| ==> IdTypes[i] !in x
    ensures r.Some? ==> (forall k :: k in r.value <==> k in x && k in IdTypes)
                        && forall k :: k in r.value ==> r.value[k] == x[k]
  {
    var y := map k | k in x && k in IdTypes :: x[k];
    if y == map[] then
      assert forall i :: 0 <= i < |IdTypes| ==> IdTypes[i] !in y;
      None
    else
      Some(y)
  }

  // ---- lookup_simbad_ids fold (sunstardb.py) ----------------------------

  function SplitAll(rows: seq<string>): (r: Option<seq<(string, string)>>)
    ensures r.Some? <==> forall i :: 0 <= i < |rows| ==> ' ' in rows[i]
    ensures r.Some? ==> |r.value| == |rows|
                        && forall i :: 0 <= i < |rows| ==> SplitSimbadId(rows[i]) == Some(r.value[i])
  {
    if forall i :: 0 <= i < |rows| ==> ' ' in rows[i] then
      Some(seq(|rows|, i requires 0 <= i < |rows| => SplitSimbadId(rows[i]).value))
    else None
  }

  /** The star column a SIMBAD `(type, id)` pair is stored under, if any. */
  function ColumnOf(p: (string, string)): Option<string> {
    if p.0 in Simbad2Cols then Some(Simbad2Cols[p.0]) else None
  }

  function IdOf(p: (string, string)): string { p.1 }

  /** The id fold of the older `lookup_simbad_ids` over the ids SIMBAD
      returned: only the `HD`, `*` and `NAME` types are kept, each stored
      (stripped) under its column; a later id of a type replaces an
      earlier one.  `None` is the `ValueError` of an id without a space. */
  function LegacyIdFold(rows: seq<string>): (r: Option<map<string, string>>)
    ensures r.Some? <==> forall i :: 0 <= i < |rows| ==> ' ' in rows[i]
    ensures r.Some? ==> forall k :: k in r.value ==> k in Cols2Simbad
  {
    match SplitAll(rows)
    case None => None
    case Some(ps) =>
      ColsSimbadInverse();
      Some(AssocBy(ps, ColumnOf, IdOf))
  }

  /** The fold keeps, for each column, the id of the last row of its type. */
  lemma LegacyIdFoldLastWins(rows: seq<string>, i: nat)
    requires forall j :: 0 <= j < |rows| ==> ' ' in rows[j]
    requires i < |rows| && SplitSimbadId(rows[i]).value.0 in Simbad2Cols
    requires forall j :: i < j < |rows| ==> SplitSimbadId(rows[j]).value.0 != SplitSimbadId(rows[i]).value.0
    ensures Simbad2Cols[SplitSimbadId(rows[i]).value.0] in LegacyIdFold(rows).value
    ensures LegacyIdFold(rows).value[Simbad2Cols[SplitSimbadId(rows[i]).value.0]] == SplitSimbadId(rows[i]).value.1
  {
    var ps := SplitAll(rows).value;
    ColsSimbadInverse();
    forall j | i < j < |ps| ensures ColumnOf(ps[j]) != ColumnOf(ps[i]) {
      assert SplitSimbadId(rows[j]).value == ps[j];
      if ps[j].0 in Simbad2Cols {
        assert Cols2Simbad[Simbad2Cols[ps[j].0]] == ps[j].0;
      }
    }
    LastWins(ps, ColumnOf, IdOf, i);
  }

  /** A column is filled exactly when some row has a type stored under it. */
  lemma LegacyIdFoldKeys(rows: seq<string>, k: string)
    requires forall j :: 0 <= j < |rows| ==> ' ' in rows[j]
    ensures k in LegacyIdFold(rows).value <==>
              exists j :: 0 <= j < |rows| && ColumnOf(SplitSimbadId(rows[j]).value) == Some(k)
  {
    var ps := SplitAll(rows).value;
    var m := AssocBy(ps, ColumnOf, IdOf);
    assert LegacyIdFold(rows) == Some(m);
    forall j | 0 <= j < |rows|
      ensures ColumnOf(SplitSimbadId(rows[j]).value) == ColumnOf(ps[j])
      ensures ColumnOf(ps[j]).Some? ==> ColumnOf(ps[j]).value in m
    {
      assert SplitSimbadId(rows[j]) == Some(ps[j]);
    }
    if k in m {
      var j :| 0 <= j < |ps| && ColumnOf(ps[j]).Some? && ColumnOf(ps[j]).value == k;
      assert ColumnOf(SplitSimbadId(rows[j]).value) == Some(k);
    }
  }

  // ---- insert_star (sunstardb.py) ---------------------------------------

  /** The null-filling before the insert: every id column absent from the
      star map is set to None; present ones are untouched. */
  function FillStarColumns(star: Record): (r: Record)
    ensures r.Keys == star.Keys + Cols2Simbad.Keys
    ensures forall k :: k in star ==> r[k] == star[k]
    ensures forall k :: k in Cols2Simbad && k !in star ==> r[k] == Null
  {
    map k | k in star.Keys + Cols2Simbad.Keys :: if k in star then star[k] else Null
  }

  function StrRecord(m: map<string, string>): (r: Record)
    ensures r.Keys == m.Keys
    ensures forall k :: k in m ==> r[k] == Str(m[k])
  {
    map k | k in m :: Str(m[k])
  }

  /** A preferred id type other than `id` means `id` itself is absent. */
  lemma NoIdBeforePreferred(names: Record)
    requires PrefIdType(names).Some? && PrefIdType(names).value != "id"
    ensures !Present(names, "id")
  {
    var j :| 0 <= j < |IdTypes| && IdTypes[j] == PrefIdType(names).value
             && forall i :: 0 <= i < j ==> !Present(names, IdTypes[i]);
    assert IdTypes[0] == "id";
  }

  /** The SIMBAD query of the older `insert_star`: the preferred id type
      and the object name `PREFIX id` built from it.  The type must be one of
      the SIMBAD columns (`KeyError` otherwise, including when there is
      none) and its value a string (`TypeError` from the concatenation
      otherwise). */
  function LegacyQuery(kwargs: Record): (r: Result<(string, string), Error>)
    ensures PrefIdType(kwargs).None? ==> r.Err? && r.error.KeyError?
    ensures PrefIdType(kwargs).Some? && PrefIdType(kwargs).value !in Cols2Simbad ==> r.Err? && r.error.KeyError?
    ensures PrefIdType(kwargs).Some? && PrefIdType(kwargs).value in Cols2Simbad ==>
              var t := PrefIdType(kwargs).value;
              (kwargs[t].Str? ==> r == Ok((t, Cols2Simbad[t] + " " + kwargs[t].s)))
              && (!kwargs[t].Str? ==> r.Err? && r.error.TypeError?)
    ensures r.Ok? ==> !Present(kwargs, "id")
  {
    match PrefIdType(kwargs)
    case None => Err(KeyError("None"))
    case Some(t) =>
      if t !in Cols2Simbad then Err(KeyError(t))
      else if !kwargs[t].Str? then Err(TypeError("cannot concatenate a non-string id"))
      else
        assert "id" !in Cols2Simbad;
        NoIdBeforePreferred(kwargs);
        Ok((t, Cols2Simbad[t] + " " + kwargs[t].s))
  }

  /** The row built from SIMBAD's answer: when SIMBAD knows the object its
      folded ids replace the caller's map entirely, otherwise the caller's
      map is kept; missing id columns are filled with None. */
  function LegacyRowFrom(kwargs: Record, found: Option<seq<string>>): (r: Result<Record, Error>)
    ensures found.None? ==> r.Ok? && r.value.Keys == kwargs.Keys + Cols2Simbad.Keys
                            && forall k :: k in kwargs ==> r.value[k] == kwargs[k]
    ensures found.Some? ==> (r.Ok? <==> LegacyIdFold(found.value).Some?)
    ensures found.Some? && r.Err? ==> r.error.ValueError?
    ensures found.Some? && r.Ok? ==>
              r.value.Keys == Cols2Simbad.Keys
              && forall k :: k in Cols2Simbad ==>
                   r.value[k] == (if k in LegacyIdFold(found.value).value then Str(LegacyIdFold(found.value).value[k]) else Null)
  {
    match found
    case None => Ok(FillStarColumns(kwargs))
    case Some(rows) => SimbadRow(rows)
  }

  /** The row built from the ids SIMBAD returned: the folded ids, and None
      in the id columns no returned id fills. */
  function SimbadRow(rows: seq<string>): (r: Result<Record, Error>)
    ensures r.Ok? <==> LegacyIdFold(rows).Some?
    ensures r.Err? ==> r.error.ValueError?
    ensures r.Ok? ==> r.value.Keys == Cols2Simbad.Keys
    ensures r.Ok? ==> forall k :: k in Cols2Simbad ==>
              r.value[k] == (if k in LegacyIdFold(rows).value then Str(LegacyIdFold(rows).value[k]) else Null)
  {
    match LegacyIdFold(rows)
    case None => Err(ValueError("SIMBAD id without a space"))
    case Some(names) =>
      FillFoldedIds(names);
      Ok(FillStarColumns(StrRecord(names)))
  }

  /** Filling the folded ids gives exactly the three id columns. */
  lemma FillFoldedIds(names: map<string, string>)
    requires forall k :: k in names ==> k in Cols2Simbad
    ensures FillStarColumns(StrRecord(names)).Keys == Cols2Simbad.Keys
    ensures forall k :: k in Cols2Simbad ==>
              FillStarColumns(StrRecord(names))[k] == (if k in names then Str(names[k]) else Null)
  {
    assert StrRecord(names).Keys <= Cols2Simbad.Keys;
  }

  /** The row the older `insert_star` inserts: it asks SIMBAD for
      `PREFIX id` built from the preferred id type, takes the folded ids
      when SIMBAD knows the object and the caller's map otherwise, and
      fills the missing id columns with None. */
  function LegacyInsertStarRow(kwargs: Record, simbad: string -> Option<seq<string>>): (r: Result<Record, Error>)
    ensures r.Ok? ==> forall k :: k in Cols2Simbad ==> k in r.value
    ensures r.Ok? ==> !Present(r.value, "id")
    ensures PrefIdType(kwargs).None? ==> r.Err?
    ensures r.Ok? ==> PrefIdType(kwargs).Some? && PrefIdType(kwargs).value in Cols2Simbad
    ensures r.Ok? && kwargs[PrefIdType(kwargs).value].Str?
            && simbad(Cols2Simbad[PrefIdType(kwargs).value] + " " + kwargs[PrefIdType(kwargs).value].s).None? ==>
              forall k :: k in kwargs ==> k in r.value && r.value[k] == kwargs[k]
    ensures PrefIdType(kwargs).Some? && PrefIdType(kwargs).value in Cols2Simbad && !kwargs[PrefIdType(kwargs).value].Str? ==>
              r.Err? && r.error.TypeError?
    ensures LegacyQuery(kwargs).Err? ==> r == Err(LegacyQuery(kwargs).error)
    ensures LegacyQuery(kwargs).Ok? ==>
              var found := simbad(LegacyQuery(kwargs).value.1);
              (found.None? ==> r.Ok? && forall k :: k in kwargs ==> k in r.value && r.value[k] == kwargs[k])
              && (found.Some? ==> (r.Ok? <==> LegacyIdFold(found.value).Some?))
    ensures LegacyQuery(kwargs).Ok? && r.Ok? && simbad(LegacyQuery(kwargs).value.1).Some? ==>
              var names := LegacyIdFold(simbad(LegacyQuery(kwargs).value.1).value).value;
              r.value.Keys == Cols2Simbad.Keys
              && forall k :: k in Cols2Simbad ==> r.value[k] == (if k in names then Str(names[k]) else Null)
  {
    var q :- LegacyQuery(kwargs);
    var r := LegacyRowFrom(kwargs, simbad(q.1));
    assert "id" !in Cols2Simbad && Cols2Simbad.Keys == {"hd", "bright", "proper"};
    r
  }

  // ---- insert_star (sunstardb/database.py) ------------------------------

  /** The descriptive record `lookup_simbad_info` returns. */
  datatype StarInfo = StarInfo(mainId: string, coord: string, ra: real, dec: real)

  /** What `insert_star` writes: the star row and its aliases. */
  datatype NewStar = NewStar(info: StarInfo, aliases: set<(string, string)>)

  const SunInfo: StarInfo := StarInfo("Sun", "00 00 0.0 +00 00 0.0", 0.0, 0.0)

  function Aliases(ids: map<string, seq<string>>): set<(string, string)> {
    set t, n | t in ids.Keys && n in ids[t] :: (t, n)
  }

  /** `insert_star(name)`: SIMBAD's aliases and info for `name`; when SIMBAD
      has no ids, the Sun is substituted by a fixed record and any other
      object raises.  The raise refers to an undefined `simbad_name`, so the
      exception is a `NameError` rather than the intended message.  When
      SIMBAD has ids but no info, the insert runs without bind values and
      the database rejects it. */
  function InsertStar(kwargs: Record, ids: string -> Option<map<string, seq<string>>>,
                      info: string -> Option<StarInfo>): (r: Result<NewStar, Error>)
    ensures "name" !in kwargs ==> r.Err? && r.error.DatabaseKeyError? && "name" in r.error.missing
    ensures r.Ok? ==> "name" in kwargs && kwargs["name"].Str?
    ensures r.Ok? && ids(kwargs["name"].s).Some? ==>
              info(kwargs["name"].s).Some? && r.value.info == info(kwargs["name"].s).value
              && forall t, n :: (t, n) in r.value.aliases <==> t in ids(kwargs["name"].s).value && n in ids(kwargs["name"].s).value[t]
    ensures "name" in kwargs && kwargs["name"] == Str("Sun") && ids("Sun").None? ==>
              r == Ok(NewStar(SunInfo, {("NAME", "Sun")}))
    ensures "name" in kwargs && kwargs["name"].Str? && kwargs["name"].s != "Sun" && ids(kwargs["name"].s).None? ==>
              r == Err(NameError("simbad_name"))
  {
    match KeyGuard.Guard(["name"], kwargs)
    case Err(e) => Err(e)
    case Ok(_) =>
      if !kwargs["name"].Str? then Err(TypeError("object name is not a string"))
      else
        var star := kwargs["name"].s;
        match ids(star)
        case None =>
          if star == "Sun" then
            var sunIds := map["NAME" := ["Sun"]];
            assert Aliases(sunIds) == {("NAME", "Sun")};
            Ok(NewStar(SunInfo, Aliases(sunIds)))
          else Err(NameError("simbad_name"))
        case Some(found) =>
          match info(star)
          case None => Err(DatabaseError("star insert executed without bind values"))
          case Some(i) => Ok(NewStar(i, Aliases(found)))
  }
}

=== FILE: store.dfy ===
/** The write side of `SunStarDB` (sunstardb/database.py) over an abstract
    store: the property-type catalogue with one data table `dat_NAME` per
    type, the properties, and the dataset map.  Each operation either
    succeeds with the new store or raises; a raised error leaves the store to
    the caller's rollback, so the model returns no store with it. */
module Store {
  import opened Wrappers
  import opened Values
  import opened Strings
  import KeyGuard
  import Templates
  import SqlHappy

  /** A `property_type` row. */
  datatype PType = PType(id: Value, name: Value, kind: Value, units: Value, description: Value)

  /** A `property` row. */
  datatype Property = Property(id: Value, star: Value, ptype: Value, source: Value, reference: Value, instrument: Value)

  /** A `dataset_map` row. */
  datatype MapEntry = MapEntry(dataset: Value, star: Value, ptype: Value, property: Value)

  /** The store: rows in storage order, the data tables by table name, and
      the next value of the id sequence. */
  datatype Db = Db(ptypes: seq<PType>, properties: seq<Property>, datasetMap: seq<MapEntry>,
                   tables: map<string, seq<Record>>, nextId: int)

  /** The elements of `xs` that satisfy `p`, in order (a `DELETE ... WHERE not p`). */
  function Keep<T(!new)>(xs: seq<T>, p: T -> bool): (r: seq<T>)
    ensures |r| <= |xs|
    ensures forall x :: x in r <==> x in xs && p(x)
  {
    if |xs| == 0 then []
    else if p(xs[0]) then [xs[0]] + Keep(xs[1..], p)
    else Keep(xs[1..], p)
  }

  /** Nothing is deleted when every row is kept. */
  lemma {:induction false} KeepAll<T(!new)>(xs: seq<T>, p: T -> bool)
    requires forall x :: x in xs ==> p(x)
    ensures Keep(xs, p) == xs
  {
    if |xs| > 0 {
      assert xs[0] in xs;
      assert forall x :: x in xs[1..] ==> x in xs;
      KeepAll(xs[1..], p);
      assert [xs[0]] + xs[1..] == xs;
    }
  }

  /** The data table of a type named `name`: `dat_NAME`, which PostgreSQL
      folds to lower case since the name is spliced in unquoted. */
  function TableOf(name: string): string { "dat_" + Lower(name) }

  /** Two type names share a data table exactly when they agree but for
      letter case. */
  lemma TableOfInjective(a: string, b: string)
    ensures TableOf(a) == TableOf(b) <==> Lower(a) == Lower(b)
  {
    if TableOf(a) == TableOf(b) {
      assert Lower(a) == TableOf(a)[4..] && Lower(b) == TableOf(b)[4..];
    }
  }

  /** SQL `v IN (ids)`: a NULL is in no list. */
  predicate SqlIn(v: Value, ids: set<Value>) {
    v != Null && v in ids
  }

  function TypeIds(db: Db): set<Value> { set t | t in db.ptypes :: t.id }
  function PropertyIds(db: Db): set<Value> { set p | p in db.properties :: p.id }
  function DataTables(db: Db): set<string> { set t | t in db.ptypes && t.name.Str? :: TableOf(t.name.s) }

  /** An id handed out by the sequence before `next`. */
  predicate IssuedBefore(id: Value, next: int) { id.Int? && id.i < next }

  /** The store's referential integrity: map entries name existing
      properties and types and agree with their property on the type,
      properties name existing types, every type has a string name and its
      data table, there is no other data table, and ids are unique and were
      issued by the sequence; no two types share a data table. */
  predicate Integrity(db: Db) {
    (forall e :: e in db.datasetMap ==> e.property in PropertyIds(db) && e.ptype in TypeIds(db))
    && (forall e, p :: e in db.datasetMap && p in db.properties && e.property == p.id ==> e.ptype == p.ptype)
    && (forall p :: p in db.properties ==> p.ptype in TypeIds(db) && IssuedBefore(p.id, db.nextId))
    && (forall t :: t in db.ptypes ==> t.name.Str? && IssuedBefore(t.id, db.nextId))
    && (forall s, t :: s in db.ptypes && t in db.ptypes && s.id == t.id ==> s == t)
    && (forall s, t :: (s in db.ptypes && t in db.ptypes && s.name.Str? && t.name.Str?
                        && TableOf(s.name.s) == TableOf(t.name.s)) ==> s == t)
    && (forall p, q :: p in db.properties && q in db.properties && p.id == q.id ==> p == q)
    && db.tables.Keys == DataTables(db)
  }

  // ---- drop_property_type ----------------------------------------------------

  /** The ids of the types named `name` (`SELECT id FROM property_type WHERE name = %(name)s`). */
  function IdsNamed(db: Db, name: Value): set<Value> {
    set t | t in db.ptypes && SqlEq(t.name, name) :: t.id
  }

  /** `DELETE FROM dataset_map WHERE type IN (ids)`. */
  function DeleteMapEntries(db: Db, ids: set<Value>): (r: Db)
    ensures r == db.(datasetMap := r.datasetMap)
    ensures forall e :: e in r.datasetMap <==> e in db.datasetMap && !SqlIn(e.ptype, ids)
  {
    db.(datasetMap := Keep(db.datasetMap, (e: MapEntry) => !SqlIn(e.ptype, ids)))
  }

  /** `DELETE FROM property WHERE type IN (ids)`. */
  function DeleteProperties(db: Db, ids: set<Value>): (r: Db)
    ensures r == db.(properties := r.properties)
    ensures forall p :: p in r.properties <==> p in db.properties && !SqlIn(p.ptype, ids)
  {
    db.(properties := Keep(db.properties, (p: Property) => !SqlIn(p.ptype, ids)))
  }

  /** `DELETE FROM property_type WHERE name = %(name)s`. */
  function DeleteTypes(db: Db, name: Value): (r: Db)
    ensures r == db.(ptypes := r.ptypes)
    ensures forall t :: t in r.ptypes <==> t in db.ptypes && !SqlEq(t.name, name)
  {
    db.(ptypes := Keep(db.ptypes, (t: PType) => !SqlEq(t.name, name)))
  }

  /** `DROP TABLE dat_NAME`: an error when no such table exists.  A name
      that is not a string names no table. */
  function DropTable(db: Db, name: Value): (r: Result<Db, Error>)
    ensures r.Ok? <==> name.Str? && TableOf(name.s) in db.tables
    ensures r.Ok? ==> r.value == db.(tables := db.tables - {TableOf(name.s)})
  {
    if name.Str? && TableOf(name.s) in db.tables then Ok(db.(tables := db.tables - {TableOf(name.s)}))
    else Err(DatabaseError("table does not exist"))
  }

  /** `drop_property_type(name=...)`: the dataset map entries, the
      properties and the type rows of that name go, in that order, and then
      its data table. */
  function DropPropertyType(db: Db, kwargs: Record): (r: Result<Db, Error>)
    ensures r.Ok? <==> "name" in kwargs && kwargs["name"].Str? && TableOf(kwargs["name"].s) in db.tables
    ensures "name" !in kwargs ==> r == Err(DatabaseKeyError(["name"], kwargs.Keys))
    ensures r.Ok? ==>
              var name := kwargs["name"];
              var ids := IdsNamed(db, name);
              (forall t :: t in r.value.ptypes <==> t in db.ptypes && t.name != name)
              && (forall p :: p in r.value.properties <==> p in db.properties && !SqlIn(p.ptype, ids))
              && (forall e :: e in r.value.datasetMap <==> e in db.datasetMap && !SqlIn(e.ptype, ids))
              && r.value.tables == db.tables - {TableOf(name.s)}
              && r.value.nextId == db.nextId
  {
    assert "name" !in kwargs ==> KeyGuard.MissingKeys(["name"], kwargs) == ["name"];
    var m :- KeyGuard.Guard(["name"], kwargs);
    var name := m["name"];
    var ids := IdsNamed(db, name);
    var d1 := DeleteMapEntries(db, ids);
    var d2 := DeleteProperties(d1, ids);
    var d3 := DeleteTypes(d2, name);
    DropTable(d3, name)
  }

  /** Deleting a type's map entries keeps the store consistent. */
  lemma DeleteMapEntriesIntegrity(db: Db, ids: set<Value>)
    requires Integrity(db)
    ensures Integrity(DeleteMapEntries(db, ids))
  {
  }

  /** Properties may go once no map entry refers to them. */
  lemma DeletePropertiesIntegrity(db: Db, ids: set<Value>)
    requires Integrity(db)
    requires forall e :: e in db.datasetMap ==> !SqlIn(e.ptype, ids)
    ensures Integrity(DeleteProperties(db, ids))
  {
    var r := DeleteProperties(db, ids);
    forall e | e in r.datasetMap ensures e.property in PropertyIds(r) {
      var p :| p in db.properties && p.id == e.property;
      assert p in r.properties;
    }
  }

  /** The types sharing `name`'s data table are spelled exactly `name`:
      the `DELETE ... WHERE name = %(name)s` (which compares exactly) then
      removes every type whose table `DROP TABLE dat_NAME` (which folds
      case) removes. */
  predicate SpelledAsStored(db: Db, name: Value)
    requires name.Str?
  {
    forall t :: t in db.ptypes && t.name.Str? && TableOf(t.name.s) == TableOf(name.s) ==> t.name == name
  }

  /** A type id that no deleted type carries survives `DeleteTypes`. */
  lemma KeptTypeId(db: Db, name: Value, r: Db, v: Value)
    requires forall t :: t in db.ptypes ==> IssuedBefore(t.id, db.nextId)
    requires v in TypeIds(db) && !SqlIn(v, IdsNamed(db, name))
    requires forall t :: t in r.ptypes <==> t in db.ptypes && !SqlEq(t.name, name)
    ensures v in TypeIds(r)
  {
    var t :| t in db.ptypes && t.id == v;
    assert t in r.ptypes;
  }

  /** A data table other than `name`'s still belongs to a surviving type. */
  lemma KeptTable(db: Db, name: Value, r: Db, x: string)
    requires name.Str? && x in DataTables(db) && x != TableOf(name.s)
    requires forall t :: t in r.ptypes <==> t in db.ptypes && !SqlEq(t.name, name)
    ensures x in DataTables(r)
  {
    var t :| t in db.ptypes && t.name.Str? && TableOf(t.name.s) == x;
    assert t in r.ptypes;
  }

  /** A surviving type's data table is not `name`'s. */
  lemma SurvivorTable(db: Db, name: Value, r: Db, x: string)
    requires name.Str? && SpelledAsStored(db, name) && x in DataTables(r)
    requires forall t :: t in r.ptypes <==> t in db.ptypes && !SqlEq(t.name, name)
    ensures x in DataTables(db) && x != TableOf(name.s)
  {
    var t :| t in r.ptypes && t.name.Str? && TableOf(t.name.s) == x;
    assert t.name != name;
  }

  /** Types may go once no property refers to them; their tables go with them. */
  lemma DeleteTypesIntegrity(db: Db, name: Value)
    requires Integrity(db) && name.Str? && SpelledAsStored(db, name)
    requires forall p :: p in db.properties ==> !SqlIn(p.ptype, IdsNamed(db, name))
    requires forall e :: e in db.datasetMap ==> !SqlIn(e.ptype, IdsNamed(db, name))
    requires TableOf(name.s) in db.tables
    ensures DropTable(DeleteTypes(db, name), name).Ok?
    ensures Integrity(DropTable(DeleteTypes(db, name), name).value)
  {
    var d := DeleteTypes(db, name);
    var r := DropTable(d, name).value;
    forall p | p in r.properties ensures p.ptype in TypeIds(r) {
      KeptTypeId(db, name, r, p.ptype);
    }
    forall e | e in r.datasetMap ensures e.ptype in TypeIds(r) {
      KeptTypeId(db, name, r, e.ptype);
    }
    forall x | x in r.tables ensures x in DataTables(r) {
      KeptTable(db, name, r, x);
    }
    forall x | x in DataTables(r) ensures x in r.tables {
      SurvivorTable(db, name, r, x);
    }
  }

  /** `drop_property_type` keeps the store consistent when the name is
      spelled as stored: each delete removes what the next one's rows were
      still referred to by. */
  lemma DropIntegrity(db: Db, kwargs: Record)
    requires Integrity(db) && DropPropertyType(db, kwargs).Ok?
    requires SpelledAsStored(db, kwargs["name"])
    ensures Integrity(DropPropertyType(db, kwargs).value)
  {
    var name := kwargs["name"];
    var ids := IdsNamed(db, name);
    DropSteps(db, kwargs);
    var d1 := DeleteMapEntries(db, ids);
    DeleteMapEntriesIntegrity(db, ids);
    var d2 := DeleteProperties(d1, ids);
    DeletePropertiesIntegrity(d1, ids);
    assert IdsNamed(d2, name) == ids;
    DeleteTypesIntegrity(d2, name);
  }

  /** A successful drop is the three deletes and the table drop in order. */
  lemma DropSteps(db: Db, kwargs: Record)
    requires DropPropertyType(db, kwargs).Ok?
    ensures var name := kwargs["name"];
            var ids := IdsNamed(db, name);
            DropPropertyType(db, kwargs)
            == DropTable(DeleteTypes(DeleteProperties(DeleteMapEntries(db, ids), ids), name), name)
  {
    assert KeyGuard.Guard(["name"], kwargs).Ok?;
  }

  /** The store with one MEASURE type `teff` (id 0) and its empty table. */
  function TeffDb(): Db {
    Db([PType(Int(0), Str("teff"), Str("MEASURE"), Null, Null)], [], [], map["dat_teff" := []], 1)
  }

  lemma LowerTeff()
    ensures Lower("teff") == "teff" && Lower("Teff") == "teff"
  {
    assert "Teff"[0] == 'T' && ToLower('T') == 't';
    assert forall i :: 1 <= i < 4 ==> !IsUpper("Teff"[i]);
  }

  lemma TeffDbIntegrity()
    ensures Integrity(TeffDb())
  {
    var db := TeffDb();
    LowerTeff();
    assert TableOf("teff") == "dat_teff";
    assert DataTables(db) == {"dat_teff"} by { assert db.ptypes[0] in db.ptypes; }
  }

  /** Spelled with another case, `drop_property_type` deletes no row (the
      `WHERE name = ...` tests compare exactly) yet drops the folded table
      `dat_teff`, leaving a type without its data table. */
  lemma DropOtherCaseBreaksIntegrity()
    ensures Integrity(TeffDb())
    ensures DropPropertyType(TeffDb(), map["name" := Str("Teff")]).Ok?
    ensures !Integrity(DropPropertyType(TeffDb(), map["name" := Str("Teff")]).value)
  {
    var db := TeffDb();
    var t := db.ptypes[0];
    LowerTeff();
    assert TableOf("teff") == "dat_teff" && TableOf("Teff") == "dat_teff";
    TeffDbIntegrity();
    var kw := map["name" := Str("Teff")];
    assert KeyGuard.Guard(["name"], kw) == Ok(kw);
    assert IdsNamed(db, Str("Teff")) == {};
    KeepAll(db.ptypes, (u: PType) => !SqlEq(u.name, Str("Teff")));
    var r := DropPropertyType(db, kw).value;
    assert r.ptypes == db.ptypes && r.tables == map[];
    assert t in r.ptypes && "dat_teff" in DataTables(r);
  }

  /** A store with one type `teff` (id 0), one property of it (id 1) and
      one dataset map entry for that property. */
  function TeffPropertyDb(): Db {
    var t := PType(Int(0), Str("teff"), Str("MEASURE"), Null, Null);
    var p := Property(Int(1), Int(7), Int(0), Int(3), Int(4), Null);
    var e := MapEntry(Int(5), Int(7), Int(0), Int(1));
    Db([t], [p], [e], map[TableOf("teff") := []], 2)
  }

  lemma TeffPropertyDbIntegrity()
    ensures Integrity(TeffPropertyDb())
  {
    var db := TeffPropertyDb();
    var t, p := db.ptypes[0], db.properties[0];
    assert DataTables(db) == {TableOf("teff")} by {
      assert t in db.ptypes;
    }
    assert PropertyIds(db) == {Int(1)} by { assert p in db.properties; }
    assert TypeIds(db) == {Int(0)} by { assert t in db.ptypes; }
  }

  /** The order matters: deleting the properties before the dataset map
      entries that refer to them leaves dangling entries. */
  lemma PropertiesBeforeMapBreaksIntegrity()
    ensures var db := TeffPropertyDb();
            Integrity(db) && !Integrity(DeleteProperties(db, IdsNamed(db, Str("teff"))))
  {
    var db := TeffPropertyDb();
    TeffPropertyDbIntegrity();
    var t, e := db.ptypes[0], db.datasetMap[0];
    assert t in db.ptypes;
    assert IdsNamed(db, Str("teff")) == {Int(0)};
    var r := DeleteProperties(db, {Int(0)});
    assert r.properties == [];
    assert e in r.datasetMap && PropertyIds(r) == {};
  }

  // ---- insert_property_type --------------------------------------------------

  function TypeName(t: PType): Value { t.name }
  function TypeId(t: PType): Value { t.id }

  /** The first row, in storage order, whose `pick` matches `v` (SQL `=`). */
  function FirstType(ts: seq<PType>, pick: PType -> Value, v: Value): (r: Option<PType>)
    ensures r.None? <==> forall t :: t in ts ==> !SqlEq(pick(t), v)
    ensures r.Some? ==> r.value in ts && SqlEq(pick(r.value), v)
  {
    if |ts| == 0 then None
    else if SqlEq(pick(ts[0]), v) then Some(ts[0])
    else
      assert forall t :: t in ts ==> t == ts[0] || t in ts[1..];
      FirstType(ts[1..], pick, v)
  }

  /** A type row found by name or id is the first such row: with no earlier
      match, the answer is the appended row. */
  lemma FirstTypeAppended(ts: seq<PType>, pick: PType -> Value, t: PType)
    requires SqlEq(pick(t), pick(t))
    requires forall u :: u in ts ==> !SqlEq(pick(u), pick(t))
    ensures FirstType(ts + [t], pick, pick(t)) == Some(t)
    decreases |ts|
  {
    if |ts| > 0 {
      assert ts[0] in ts;
      assert (ts + [t])[1..] == ts[1..] + [t];
      assert forall u :: u in ts[1..] ==> u in ts;
      FirstTypeAppended(ts[1..], pick, t);
    } else {
      assert ts + [t] == [t];
    }
  }

  /** An earlier match hides the appended row. */
  lemma FirstTypePrefix(ts: seq<PType>, pick: PType -> Value, v: Value, x: PType)
    requires exists u :: u in ts && SqlEq(pick(u), v)
    ensures FirstType(ts + [x], pick, v) == FirstType(ts, pick, v)
    decreases |ts|
  {
    assert (ts + [x])[0] == ts[0];
    if !SqlEq(pick(ts[0]), v) {
      assert (ts + [x])[1..] == ts[1..] + [x];
      var u :| u in ts && SqlEq(pick(u), v);
      assert u in ts[1..];
      FirstTypePrefix(ts[1..], pick, v, x);
    }
  }

  /** What `insert_property_type` leaves: the store, the template cache,
      and the fetched type row it returns. */
  datatype TypeInserted = TypeInserted(db: Db, templates: map<string, string>, ptype: PType)

  predicate HasTypeKeys(m: Record) {
    "name" in m && "type" in m && "units" in m && "description" in m
  }

  /** The row `INSERT INTO property_type` adds, under the next id. */
  function NewType(db: Db, m: Record): PType
    requires HasTypeKeys(m)
  {
    PType(Int(db.nextId), m["name"], m["type"], m["units"], m["description"])
  }

  /** The body of `insert_property_type` once its keys are checked and the
      templates are loaded: insert, fetch back by name, pick the template of
      the row's kind (`KeyError` if none) and create its data table
      (`template % ptype`), which fails if the table exists. */
  function AddType(db: Db, templates: map<string, string>, m: Record): (r: Result<TypeInserted, Error>)
    requires HasTypeKeys(m)
    ensures r.Ok? ==> r.value.templates == templates
    ensures r.Ok? ==> r.value.ptype.kind.Str? && r.value.ptype.kind.s in templates
    ensures r.Ok? ==> r.value.ptype.name.Str? && SqlEq(r.value.ptype.name, m["name"])
    ensures r.Ok? ==> TableOf(r.value.ptype.name.s) !in db.tables
    ensures r.Ok? ==> r.value.db == Db(db.ptypes + [NewType(db, m)], db.properties, db.datasetMap,
                                       db.tables[TableOf(r.value.ptype.name.s) := []], db.nextId + 1)
  {
    var db1 := db.(ptypes := db.ptypes + [NewType(db, m)], nextId := db.nextId + 1);
    match FirstType(db1.ptypes, TypeName, m["name"])
    case None => Err(TypeError("'NoneType' object is not subscriptable"))
    case Some(t) =>
      if !(t.kind.Str? && t.kind.s in templates) then Err(KeyError(if t.kind.Str? then t.kind.s else "type"))
      else if !t.name.Str? || TableOf(t.name.s) in db1.tables then Err(DatabaseError("cannot create data table"))
      else Ok(TypeInserted(db1.(tables := db1.tables[TableOf(t.name.s) := []]), templates, t))
  }

  /** `if not TABLE_TEMPLATES: _set_templates()`: the cache afterwards, and
      the error the parse raised, if any.  A non-empty cache is used as it
      is; an empty one is filled from the schema, and keeps what the scan
      read even when the parse then fails on an unclosed template. */
  function LoadTemplates(cache: map<string, string>, schema: seq<string>): (r: (map<string, string>, Option<Error>))
    ensures |cache| > 0 ==> r == (cache, None)
    ensures |cache| == 0 ==> r.0 == Templates.Parsed(schema)
    ensures |cache| == 0 ==> (r.1.None? <==> Templates.ParseTemplates(schema).Ok?)
    ensures |cache| == 0 && r.1.Some? ==> r.1.value == Templates.ParseTemplates(schema).error
                                          && r.1.value.UnclosedTemplate? && r.1.value.name in r.0
  {
    if |cache| > 0 then (cache, None)
    else
      match Templates.ParseTemplates(schema)
      case Ok(t) => (t, None)
      case Err(e) => (Templates.Parsed(schema), Some(e))
  }

  /** `insert_property_type(name, type, units, description)`: the template
      cache afterwards, and the outcome.  The keys are checked before the
      cache is touched; a failed parse still leaves its partial templates
      in the cache. */
  function InsertPropertyType(db: Db, cache: map<string, string>, schema: seq<string>, kwargs: Record)
    : (r: (map<string, string>, Result<TypeInserted, Error>))
    ensures !HasTypeKeys(kwargs) ==> r.0 == cache && r.1.Err? && r.1.error.DatabaseKeyError?
    ensures HasTypeKeys(kwargs) ==> r.0 == LoadTemplates(cache, schema).0
    ensures HasTypeKeys(kwargs) && LoadTemplates(cache, schema).1.Some? ==> r.1 == Err(LoadTemplates(cache, schema).1.value)
    ensures r.1.Ok? ==> HasTypeKeys(kwargs) && LoadTemplates(cache, schema).1.None?
                        && r.1 == AddType(db, r.0, kwargs) && r.1.value.templates == r.0
  {
    match KeyGuard.Guard(["name", "type", "units", "description"], kwargs)
    case Err(e) => (cache, Err(e))
    case Ok(m) =>
      var (templates, failed) := LoadTemplates(cache, schema);
      if failed.Some? then (templates, Err(failed.value))
      else (templates, AddType(db, templates, m))
  }

  /** A schema that fails to parse still fills the cache, so the next call
      skips the parse and goes on with the partial templates, including the
      unclosed one. */
  lemma FailedParseIsCached(db: Db, schema: seq<string>, kwargs: Record, schema': seq<string>, kwargs': Record)
    requires HasTypeKeys(kwargs) && HasTypeKeys(kwargs') && Templates.ParseTemplates(schema).Err?
    ensures var first := InsertPropertyType(db, map[], schema, kwargs);
            first.1 == Err(Templates.ParseTemplates(schema).error)
            && |first.0| > 0 && Templates.ParseTemplates(schema).error.name in first.0
            && InsertPropertyType(db, first.0, schema', kwargs') == (first.0, AddType(db, first.0, kwargs'))
  {
    var first := InsertPropertyType(db, map[], schema, kwargs);
    assert Templates.ParseTemplates(schema).error.name in first.0;
  }

  /** In a consistent store a type is added exactly when its name is a
      string that no type has yet, even in another letter case (the data
      table name is folded), and its kind has a template; the row returned
      is the one inserted. */
  lemma AddTypeOk(db: Db, templates: map<string, string>, m: Record)
    requires Integrity(db) && HasTypeKeys(m)
    ensures AddType(db, templates, m).Ok? <==>
              m["name"].Str? && m["type"].Str? && m["type"].s in templates
              && forall t :: t in db.ptypes ==> Lower(t.name.s) != Lower(m["name"].s)
    ensures AddType(db, templates, m).Ok? ==> AddType(db, templates, m).value.ptype == NewType(db, m)
  {
    var name := m["name"];
    if name.Str? {
      if forall t :: t in db.ptypes ==> Lower(t.name.s) != Lower(name.s) {
        AddTypeFresh(db, templates, m);
      } else {
        var t :| t in db.ptypes && Lower(t.name.s) == Lower(name.s);
        if exists u :: u in db.ptypes && u.name == name {
          var u :| u in db.ptypes && u.name == name;
          AddTypeSameName(db, templates, m, u);
        } else {
          AddTypeOtherCase(db, templates, m, t);
        }
      }
    }
  }

  /** A name no type has in any letter case: the new row is found and its
      table is new, so only the template can be missing. */
  lemma AddTypeFresh(db: Db, templates: map<string, string>, m: Record)
    requires Integrity(db) && HasTypeKeys(m) && m["name"].Str?
    requires forall t :: t in db.ptypes ==> Lower(t.name.s) != Lower(m["name"].s)
    ensures AddType(db, templates, m).Ok? <==> m["type"].Str? && m["type"].s in templates
    ensures AddType(db, templates, m).Ok? ==> AddType(db, templates, m).value.ptype == NewType(db, m)
  {
    var name := m["name"];
    FirstTypeAppended(db.ptypes, TypeName, NewType(db, m));
    assert TableOf(name.s) !in db.tables by {
      if TableOf(name.s) in db.tables {
        var t :| t in db.ptypes && t.name.Str? && TableOf(t.name.s) == TableOf(name.s);
        TableOfInjective(t.name.s, name.s);
      }
    }
  }

  /** A name already stored: the fetch finds the old row, whose table exists. */
  lemma AddTypeSameName(db: Db, templates: map<string, string>, m: Record, u: PType)
    requires Integrity(db) && HasTypeKeys(m) && m["name"].Str? && u in db.ptypes && u.name == m["name"]
    ensures AddType(db, templates, m).Err?
  {
    var name := m["name"];
    assert SqlEq(TypeName(u), name);
    FirstTypePrefix(db.ptypes, TypeName, name, NewType(db, m));
    var f := FirstType(db.ptypes, TypeName, name).value;
    assert TableOf(f.name.s) in db.tables;
  }

  /** A name stored only in another letter case: the fetch finds the new
      row, but its folded table is the other type's. */
  lemma AddTypeOtherCase(db: Db, templates: map<string, string>, m: Record, t: PType)
    requires Integrity(db) && HasTypeKeys(m) && m["name"].Str? && t in db.ptypes
    requires Lower(t.name.s) == Lower(m["name"].s)
    requires forall u :: u in db.ptypes ==> u.name != m["name"]
    ensures AddType(db, templates, m).Err?
  {
    var name := m["name"];
    FirstTypeAppended(db.ptypes, TypeName, NewType(db, m));
    TableOfInjective(t.name.s, name.s);
    assert TableOf(t.name.s) in db.tables;
  }

  lemma {:induction false} KeepAppend<T(!new)>(xs: seq<T>, x: T, p: T -> bool)
    ensures Keep(xs + [x], p) == Keep(xs, p) + (if p(x) then [x] else [])
  {
    if |xs| == 0 {
      assert xs + [x] == [x];
      assert [x][1..] == [];
    } else {
      assert (xs + [x])[0] == xs[0];
      assert (xs + [x])[1..] == xs[1..] + [x];
      KeepAppend(xs[1..], x, p);
    }
  }

  /** Adding a type keeps the store consistent. */
  lemma AddTypeIntegrity(db: Db, templates: map<string, string>, m: Record)
    requires Integrity(db) && HasTypeKeys(m) && AddType(db, templates, m).Ok?
    ensures Integrity(AddType(db, templates, m).value.db)
  {
    var res := AddType(db, templates, m).value;
    AddTypeOk(db, templates, m);
    assert res.db == WithType(db, res.ptype);
    AppendTypeIntegrity(db, res.ptype);
  }

  /** The store after a type row and its empty data table are added. */
  function WithType(db: Db, row: PType): Db
    requires row.name.Str?
  {
    Db(db.ptypes + [row], db.properties, db.datasetMap, db.tables[TableOf(row.name.s) := []], db.nextId + 1)
  }

  /** A type row under the next id, with a string name and a new empty data
      table, keeps the store consistent. */
  lemma AppendTypeIntegrity(db: Db, row: PType)
    requires Integrity(db) && row.id == Int(db.nextId) && row.name.Str? && TableOf(row.name.s) !in db.tables
    ensures Integrity(WithType(db, row))
  {
    AppendTypeIds(db, row);
    AppendTypeTables(db, row);
    AppendTypeRefs(db, row);
  }

  /** Rows that referred to existing types still do; no property id changes. */
  lemma AppendTypeRefs(db: Db, row: PType)
    requires Integrity(db) && row.id == Int(db.nextId) && row.name.Str?
    ensures var r := WithType(db, row);
            (forall e :: e in r.datasetMap ==> e.property in PropertyIds(r) && e.ptype in TypeIds(r))
            && (forall e, p :: e in r.datasetMap && p in r.properties && e.property == p.id ==> e.ptype == p.ptype)
            && (forall p :: p in r.properties ==> p.ptype in TypeIds(r) && IssuedBefore(p.id, r.nextId))
            && (forall p, q :: p in r.properties && q in r.properties && p.id == q.id ==> p == q)
  {
    var r := WithType(db, row);
    assert PropertyIds(r) == PropertyIds(db);
    AppendTypeIds(db, row);
  }

  /** The new row's id is new and above every id issued so far. */
  lemma AppendTypeIds(db: Db, row: PType)
    requires forall t :: t in db.ptypes ==> t.name.Str? && IssuedBefore(t.id, db.nextId)
    requires forall s, t :: s in db.ptypes && t in db.ptypes && s.id == t.id ==> s == t
    requires row.id == Int(db.nextId) && row.name.Str?
    ensures var r := WithType(db, row);
            TypeIds(r) == TypeIds(db) + {row.id}
            && (forall t :: t in r.ptypes ==> t.name.Str? && IssuedBefore(t.id, r.nextId))
            && (forall s, t :: s in r.ptypes && t in r.ptypes && s.id == t.id ==> s == t)
  {
    var r := WithType(db, row);
    assert row in r.ptypes;
    assert forall t :: t in r.ptypes ==> t in db.ptypes || t == row;
  }

  /** The new row's table is new, and the table map gains exactly it. */
  lemma AppendTypeTables(db: Db, row: PType)
    requires forall t :: t in db.ptypes ==> t.name.Str?
    requires db.tables.Keys == DataTables(db)
    requires row.name.Str? && TableOf(row.name.s) !in db.tables
    requires forall s, t :: (s in db.ptypes && t in db.ptypes && s.name.Str? && t.name.Str?
                             && TableOf(s.name.s) == TableOf(t.name.s)) ==> s == t
    ensures var r := WithType(db, row);
            r.tables.Keys == DataTables(r)
            && (forall s, t :: (s in r.ptypes && t in r.ptypes && s.name.Str? && t.name.Str?
                                && TableOf(s.name.s) == TableOf(t.name.s)) ==> s == t)
  {
    var r := WithType(db, row);
    assert row in r.ptypes;
    assert DataTables(r) == DataTables(db) + {TableOf(row.name.s)};
    assert forall t :: t in r.ptypes ==> t in db.ptypes || t == row;
  }

  /** No row of a consistent store refers to the id the sequence hands out next. */
  lemma {:induction false} NextIdUnused(db: Db)
    requires Integrity(db)
    ensures forall e :: e in db.datasetMap ==> !SqlIn(e.ptype, {Int(db.nextId)})
    ensures forall p :: p in db.properties ==> !SqlIn(p.ptype, {Int(db.nextId)})
  {
    forall e | e in db.datasetMap ensures !SqlIn(e.ptype, {Int(db.nextId)}) {
      var t :| t in db.ptypes && t.id == e.ptype;
    }
    forall p | p in db.properties ensures !SqlIn(p.ptype, {Int(db.nextId)}) {
      var t :| t in db.ptypes && t.id == p.ptype;
    }
  }

  /** Dropping a fresh type removes exactly its row and its empty table. */
  lemma DropFresh(db: Db, row: PType)
    requires Integrity(db) && row.id == Int(db.nextId) && row.name.Str?
    requires forall t :: t in db.ptypes ==> t.name != row.name
    requires TableOf(row.name.s) !in db.tables
    ensures DropPropertyType(WithType(db, row), map["name" := row.name]) == Ok(db.(nextId := db.nextId + 1))
  {
    var name := row.name;
    var r := WithType(db, row);
    assert row in r.ptypes;
    assert IdsNamed(r, name) == {row.id};
    DeleteFreshType(db, row);
    assert KeyGuard.Guard(["name"], map["name" := name]) == Ok(map["name" := name]);
    assert r.tables - {TableOf(name.s)} == db.tables;
  }

  /** The three deletions of `drop_property_type`, applied to a fresh type,
      remove its row and nothing else. */
  lemma {:induction false} DeleteFreshType(db: Db, row: PType)
    requires Integrity(db) && row.id == Int(db.nextId) && row.name.Str?
    requires forall t :: t in db.ptypes ==> t.name != row.name
    ensures var r := WithType(db, row);
            DeleteTypes(DeleteProperties(DeleteMapEntries(r, {row.id}), {row.id}), row.name)
            == db.(tables := r.tables, nextId := db.nextId + 1)
  {
    var ids := {row.id};
    NextIdUnused(db);
    KeepAll(db.datasetMap, (e: MapEntry) => !SqlIn(e.ptype, ids));
    KeepAll(db.properties, (p: Property) => !SqlIn(p.ptype, ids));
    var keepType := (t: PType) => !SqlEq(t.name, row.name);
    KeepAppend(db.ptypes, row, keepType);
    KeepAll(db.ptypes, keepType);
  }

  /** Dropping a type just added gives the store back, the id sequence
      apart. */
  lemma AddThenDrop(db: Db, templates: map<string, string>, m: Record)
    requires Integrity(db) && HasTypeKeys(m) && AddType(db, templates, m).Ok?
    ensures DropPropertyType(AddType(db, templates, m).value.db, map["name" := m["name"]])
            == Ok(db.(nextId := db.nextId + 1))
  {
    var res := AddType(db, templates, m).value;
    AddTypeOk(db, templates, m);
    assert res.db == WithType(db, res.ptype);
    DropFresh(db, res.ptype);
  }

  // ---- insert_property -------------------------------------------------------

  /** What `insert_property` leaves: the store and the property row it returns. */
  datatype PropInserted = PropInserted(db: Db, property: Property)

  /** The keys `insert_property`, `insert_measure` and `insert_label` require. */
  predicate HasPropertyKeys(m: Record) {
    "star_id" in m && "type_id" in m && "src_id" in m && "ref_id" in m && "inst_id" in m && "meta" in m
  }
  predicate HasMeasureKeys(m: Record) {
    "name" in m && "prop_id" in m && "star_id" in m && "src_id" in m && "val" in m && "errlo" in m
    && "errhi" in m && "errbounds" in m && "obs_time" in m && "int_time" in m && "meta" in m
  }
  predicate HasLabelKeys(m: Record) {
    "name" in m && "prop_id" in m && "star_id" in m && "src_id" in m && "label" in m && "meta" in m
  }

  /** The columns of a data table besides the one named after its type. */
  const MeasureCols: set<string> := {"property", "star", "source", "errlo", "errhi", "errbounds", "obs_time", "int_time", "meta"}
  const LabelCols: set<string> := {"property", "star", "source", "meta"}

  const MeasureReq: seq<string> := ["name", "prop_id", "star_id", "src_id", "val", "errlo", "errhi",
                                     "errbounds", "obs_time", "int_time", "meta"]
  const LabelReq: seq<string> := ["name", "prop_id", "star_id", "src_id", "label", "meta"]

  lemma MeasureReqKeys(m: Record)
    ensures (forall i :: 0 <= i < |MeasureReq| ==> MeasureReq[i] in m) <==> HasMeasureKeys(m)
  {
    if HasMeasureKeys(m) {
      forall i | 0 <= i < |MeasureReq| ensures MeasureReq[i] in m {
        assert MeasureReq[i] in {"name", "prop_id", "star_id", "src_id", "val", "errlo", "errhi",
                                 "errbounds", "obs_time", "int_time", "meta"};
      }
    } else {
      assert MeasureReq[0] == "name" && MeasureReq[1] == "prop_id" && MeasureReq[2] == "star_id";
      assert MeasureReq[3] == "src_id" && MeasureReq[4] == "val" && MeasureReq[5] == "errlo";
      assert MeasureReq[6] == "errhi" && MeasureReq[7] == "errbounds" && MeasureReq[8] == "obs_time";
      assert MeasureReq[9] == "int_time" && MeasureReq[10] == "meta";
    }
  }

  lemma LabelReqKeys(m: Record)
    ensures (forall i :: 0 <= i < |LabelReq| ==> LabelReq[i] in m) <==> HasLabelKeys(m)
  {
    if HasLabelKeys(m) {
      forall i | 0 <= i < |LabelReq| ensures LabelReq[i] in m {
        assert LabelReq[i] in {"name", "prop_id", "star_id", "src_id", "label", "meta"};
      }
    } else {
      assert LabelReq[0] == "name" && LabelReq[1] == "prop_id" && LabelReq[2] == "star_id";
      assert LabelReq[3] == "src_id" && LabelReq[4] == "label" && LabelReq[5] == "meta";
    }
  }

  /** `INSERT INTO dat_NAME ...`: the row is appended to the table, which
      must exist. */
  function TableInsert(db: Db, table: string, row: Record): (r: Result<Db, Error>)
    ensures r.Ok? <==> table in db.tables
    ensures r.Ok? ==> r.value == db.(tables := db.tables[table := db.tables[table] + [row]])
  {
    if table in db.tables then Ok(db.(tables := db.tables[table := db.tables[table] + [row]]))
    else Err(DatabaseError("relation does not exist"))
  }

  /** The `dat_NAME` row of a measurement: the value under the type's own
      column (named, like the table, in lower case), with its errors, times
      and meta.  (A type named like one of the fixed columns would list a
      column twice, an SQL error.) */
  function MeasureRow(m: Record): (row: Record)
    requires HasMeasureKeys(m) && m["name"].Str? && Lower(m["name"].s) !in MeasureCols
    ensures row.Keys == MeasureCols + {Lower(m["name"].s)}
    ensures row["property"] == m["prop_id"] && row["star"] == m["star_id"] && row["source"] == m["src_id"]
    ensures row["errlo"] == m["errlo"] && row["errhi"] == m["errhi"] && row["errbounds"] == m["errbounds"]
    ensures row["obs_time"] == m["obs_time"] && row["int_time"] == m["int_time"]
    ensures row[Lower(m["name"].s)] == m["val"] && row["meta"] == m["meta"]
  {
    map["property" := m["prop_id"], "star" := m["star_id"], "source" := m["src_id"],
        "errlo" := m["errlo"], "errhi" := m["errhi"], "errbounds" := m["errbounds"],
        "obs_time" := m["obs_time"], "int_time" := m["int_time"], "meta" := m["meta"],
        Lower(m["name"].s) := m["val"]]
  }

  /** The `dat_NAME` row of a label: the label under the type's own
      (lower-case) column, and meta. */
  function LabelRow(m: Record): (row: Record)
    requires HasLabelKeys(m) && m["name"].Str? && Lower(m["name"].s) !in LabelCols
    ensures row.Keys == LabelCols + {Lower(m["name"].s)}
    ensures row["property"] == m["prop_id"] && row["star"] == m["star_id"] && row["source"] == m["src_id"]
    ensures row[Lower(m["name"].s)] == m["label"] && row["meta"] == m["meta"]
  {
    map["property" := m["prop_id"], "star" := m["star_id"], "source" := m["src_id"], "meta" := m["meta"],
        Lower(m["name"].s) := m["label"]]
  }

  /** `insert_measure(**kwargs)`: one row appended to the type's folded
      `dat_name` table. */
  function InsertMeasure(db: Db, kwargs: Record): (r: Result<Db, Error>)
    ensures !HasMeasureKeys(kwargs) ==> r.Err? && r.error.DatabaseKeyError?
    ensures r.Ok? <==> HasMeasureKeys(kwargs) && kwargs["name"].Str? && Lower(kwargs["name"].s) !in MeasureCols
                       && TableOf(kwargs["name"].s) in db.tables
    ensures r.Ok? ==> var t := TableOf(kwargs["name"].s);
                      r.value == db.(tables := db.tables[t := db.tables[t] + [MeasureRow(kwargs)]])
  {
    MeasureReqKeys(kwargs);
    var m :- KeyGuard.Guard(MeasureReq, kwargs);
    if m["name"].Str? && Lower(m["name"].s) !in MeasureCols then TableInsert(db, TableOf(m["name"].s), MeasureRow(m))
    else Err(DatabaseError("cannot insert into data table"))
  }

  /** `insert_label(**kwargs)`: one row appended to the type's folded
      `dat_name` table. */
  function InsertLabel(db: Db, kwargs: Record): (r: Result<Db, Error>)
    ensures !HasLabelKeys(kwargs) ==> r.Err? && r.error.DatabaseKeyError?
    ensures r.Ok? <==> HasLabelKeys(kwargs) && kwargs["name"].Str? && Lower(kwargs["name"].s) !in LabelCols
                       && TableOf(kwargs["name"].s) in db.tables
    ensures r.Ok? ==> var t := TableOf(kwargs["name"].s);
                      r.value == db.(tables := db.tables[t := db.tables[t] + [LabelRow(kwargs)]])
  {
    LabelReqKeys(kwargs);
    var m :- KeyGuard.Guard(LabelReq, kwargs);
    if m["name"].Str? && Lower(m["name"].s) !in LabelCols then TableInsert(db, TableOf(m["name"].s), LabelRow(m))
    else Err(DatabaseError("cannot insert into data table"))
  }

  /** Spelling a type name in another case reaches the same data table and
      the same column. */
  lemma InsertMeasureFoldsCase(db: Db, kwargs: Record, other: string)
    requires HasMeasureKeys(kwargs) && kwargs["name"].Str? && Lower(other) == Lower(kwargs["name"].s)
    ensures InsertMeasure(db, kwargs["name" := Str(other)]) == InsertMeasure(db, kwargs)
  {
    var kw := kwargs["name" := Str(other)];
    MeasureReqKeys(kwargs);
    MeasureReqKeys(kw);
    if InsertMeasure(db, kwargs).Ok? {
      assert MeasureRow(kw) == MeasureRow(kwargs);
    }
  }

  /** The text of a kind in an error message. */
  function KindText(kind: Value): string { if kind.Str? then kind.s else "" }

  /** The dispatch on `property_type.type`: MEASURE rows go through
      `insert_measure`, LABEL rows through `insert_label`, anything else raises. */
  function InsertData(db: Db, kind: Value, kwargs: Record): (r: Result<Db, Error>)
    ensures kind != Str("MEASURE") && kind != Str("LABEL") ==> r == Err(UnexpectedPropertyType(KindText(kind)))
    ensures kind == Str("MEASURE") ==> r == InsertMeasure(db, kwargs)
    ensures kind == Str("LABEL") ==> r == InsertLabel(db, kwargs)
  {
    if kind == Str("MEASURE") then InsertMeasure(db, kwargs)
    else if kind == Str("LABEL") then InsertLabel(db, kwargs)
    else Err(UnexpectedPropertyType(KindText(kind)))
  }

  /** The row `INSERT INTO property` adds, under the next id. */
  function NewProperty(db: Db, m: Record): Property
    requires HasPropertyKeys(m)
  {
    Property(Int(db.nextId), m["star_id"], m["type_id"], m["src_id"], m["ref_id"], m["inst_id"])
  }

  /** The rows `fetch_property_by_id` joins and filters: same star, type and
      source, a type row to join, and a reference to join (the star, source
      and reference rows themselves are assumed to exist). */
  predicate FetchedBy(db: Db, p: Property, m: Record)
    requires "star_id" in m && "type_id" in m && "src_id" in m
  {
    SqlEq(p.star, m["star_id"]) && SqlEq(p.ptype, m["type_id"]) && SqlEq(p.source, m["src_id"])
    && p.ptype in TypeIds(db) && p.reference != Null
  }

  /** `fetch_property_by_id`: the first such row in storage order. */
  function FetchPropertyById(db: Db, m: Record): (r: Option<Property>)
    requires "star_id" in m && "type_id" in m && "src_id" in m
    ensures r.None? <==> forall i :: 0 <= i < |db.properties| ==> !FetchedBy(db, db.properties[i], m)
    ensures r.Some? ==> exists i :: 0 <= i < |db.properties| && db.properties[i] == r.value && FetchedBy(db, r.value, m)
                                    && forall j :: 0 <= j < i ==> !FetchedBy(db, db.properties[j], m)
  {
    FetchFrom(db, m, 0)
  }

  /** The scan behind `FetchPropertyById`, from position `i` on. */
  function FetchFrom(db: Db, m: Record, i: nat): (r: Option<Property>)
    requires "star_id" in m && "type_id" in m && "src_id" in m && i <= |db.properties|
    ensures r.None? <==> forall k :: i <= k < |db.properties| ==> !FetchedBy(db, db.properties[k], m)
    ensures r.Some? ==> exists k :: i <= k < |db.properties| && db.properties[k] == r.value && FetchedBy(db, r.value, m)
                                    && forall j :: i <= j < k ==> !FetchedBy(db, db.properties[j], m)
    decreases |db.properties| - i
  {
    if i == |db.properties| then None
    else if FetchedBy(db, db.properties[i], m) then Some(db.properties[i])
    else FetchFrom(db, m, i + 1)
  }

  /** The second half of `insert_property`: fetch the type by id, record
      `prop_id` and `name` in the bind map, and dispatch on the kind. */
  function AttachData(db: Db, m: Record, prop: Property): (r: Result<PropInserted, Error>)
    requires "type_id" in m
    ensures r.Ok? ==> r.value.property == prop
    ensures r.Ok? ==> FirstType(db.ptypes, TypeId, m["type_id"]).Some?
    ensures r.Ok? ==> var t := FirstType(db.ptypes, TypeId, m["type_id"]).value;
                      (t.kind == Str("MEASURE") || t.kind == Str("LABEL"))
                      && InsertData(db, t.kind, m["prop_id" := prop.id]["name" := t.name]) == Ok(r.value.db)
  {
    match FirstType(db.ptypes, TypeId, m["type_id"])
    case None => Err(TypeError("'NoneType' object is not subscriptable"))
    case Some(ty) =>
      var d :- InsertData(db, ty.kind, m["prop_id" := prop.id]["name" := ty.name]);
      Ok(PropInserted(d, prop))
  }

  lemma PropertyReqKeys(m: Record)
    ensures KeyGuard.Guard(["star_id", "type_id", "src_id", "ref_id", "inst_id", "meta"], m).Ok? <==> HasPropertyKeys(m)
  {
    var req := ["star_id", "type_id", "src_id", "ref_id", "inst_id", "meta"];
    if !HasPropertyKeys(m) {
      assert req[0] == "star_id" && req[1] == "type_id" && req[2] == "src_id";
      assert req[3] == "ref_id" && req[4] == "inst_id" && req[5] == "meta";
    }
  }

  /** The store once `INSERT INTO property` has run with bind map `m`. */
  function WithProperty(db: Db, m: Record): (r: Db)
    requires HasPropertyKeys(m)
    ensures r.properties == db.properties + [NewProperty(db, m)] && r.nextId == db.nextId + 1
    ensures r.ptypes == db.ptypes && r.datasetMap == db.datasetMap && r.tables == db.tables
  {
    db.(properties := db.properties + [NewProperty(db, m)], nextId := db.nextId + 1)
  }

  /** `insert_property(star_id, type_id, src_id, ref_id, inst_id, meta)` as
      written: after the insert, the property row it links the data to and
      returns is whatever `fetch_property_by_id` finds first for the same
      star, type and source. */
  function InsertPropertyAsWritten(db: Db, kwargs: Record): (r: Result<PropInserted, Error>)
    ensures !HasPropertyKeys(kwargs) ==> r.Err? && r.error.DatabaseKeyError?
    ensures r.Ok? ==> HasPropertyKeys(kwargs)
    ensures r.Ok? ==> var m := SqlHappy.CleanBinds(kwargs);
                      FetchPropertyById(WithProperty(db, m), m) == Some(r.value.property)
                      && AttachData(WithProperty(db, m), m, r.value.property) == r
  {
    PropertyReqKeys(kwargs);
    var m0 :- KeyGuard.Guard(["star_id", "type_id", "src_id", "ref_id", "inst_id", "meta"], kwargs);
    var m := SqlHappy.CleanBinds(m0);
    var db1 := WithProperty(db, m);
    match FetchPropertyById(db1, m)
    case None => Err(TypeError("'NoneType' object is not subscriptable"))
    case Some(prop) => AttachData(db1, m, prop)
  }

  /** `insert_property` as intended: the data row and the returned row are
      the property just inserted (an `INSERT ... RETURNING id`, which
      `insert_returning_id` in sqlhappy.py offers). */
  function InsertProperty(db: Db, kwargs: Record): (r: Result<PropInserted, Error>)
    ensures !HasPropertyKeys(kwargs) ==> r.Err? && r.error.DatabaseKeyError?
    ensures r.Ok? ==> HasPropertyKeys(kwargs)
    ensures r.Ok? ==> var m := SqlHappy.CleanBinds(kwargs);
                      r.value.property == NewProperty(db, m) && r.value.property.id == Int(db.nextId)
                      && AttachData(WithProperty(db, m), m, NewProperty(db, m)) == r
  {
    PropertyReqKeys(kwargs);
    var m0 :- KeyGuard.Guard(["star_id", "type_id", "src_id", "ref_id", "inst_id", "meta"], kwargs);
    var m := SqlHappy.CleanBinds(m0);
    AttachData(WithProperty(db, m), m, NewProperty(db, m))
  }

  /** `d1` is `d0` with one row appended to data table `t`, and that row's
      `property` column is `id`. */
  predicate DataRowAppended(d0: Db, d1: Db, t: string, id: Value) {
    t in d0.tables && t in d1.tables && d1.tables == d0.tables[t := d1.tables[t]]
    && |d1.tables[t]| == |d0.tables[t]| + 1 && d1.tables[t][..|d0.tables[t]|] == d0.tables[t]
    && "property" in d1.tables[t][|d0.tables[t]|] && d1.tables[t][|d0.tables[t]|]["property"] == id
  }

  /** Attaching data touches only the data table of the property's type,
      where it appends one row pointing at the property. */
  lemma AttachDataShape(db: Db, m: Record, prop: Property)
    requires "type_id" in m && AttachData(db, m, prop).Ok?
    ensures var r := AttachData(db, m, prop).value.db;
            var ty := FirstType(db.ptypes, TypeId, m["type_id"]).value;
            r.ptypes == db.ptypes && r.properties == db.properties && r.datasetMap == db.datasetMap
            && r.nextId == db.nextId && ty.name.Str? && DataRowAppended(db, r, TableOf(ty.name.s), prop.id)
  {
    var ty := FirstType(db.ptypes, TypeId, m["type_id"]).value;
    var m' := m["prop_id" := prop.id]["name" := ty.name];
    var r := AttachData(db, m, prop).value.db;
    var t := TableOf(ty.name.s);
    if ty.kind == Str("MEASURE") {
      assert r.tables[t] == db.tables[t] + [MeasureRow(m')];
    } else {
      assert r.tables[t] == db.tables[t] + [LabelRow(m')];
    }
    assert r.tables[t][..|db.tables[t]|] == db.tables[t];
  }

  /** The property `insert_property` returns is the row it inserted, and its
      data row points at it: the type's data table gains exactly one row,
      whose `property` is the new id. */
  lemma InsertPropertyLinksData(db: Db, kwargs: Record)
    requires InsertProperty(db, kwargs).Ok?
    ensures var r := InsertProperty(db, kwargs).value;
            var m := SqlHappy.CleanBinds(kwargs);
            var ty := FirstType(db.ptypes, TypeId, m["type_id"]);
            r.property.id == Int(db.nextId) && r.db.properties == db.properties + [r.property]
            && r.db.ptypes == db.ptypes && r.db.datasetMap == db.datasetMap && r.db.nextId == db.nextId + 1
            && ty.Some? && ty.value.name.Str? && DataRowAppended(db, r.db, TableOf(ty.value.name.s), Int(db.nextId))
  {
    var m := SqlHappy.CleanBinds(kwargs);
    AttachDataShape(WithProperty(db, m), m, NewProperty(db, m));
  }

  /** A store stays consistent when a property under the next id, of an
      existing type, is added and data tables only gain rows. */
  lemma {:induction false} AddPropertyIntegrity(db: Db, r: Db, p: Property)
    requires Integrity(db) && p.id == Int(db.nextId) && p.ptype in TypeIds(db)
    requires r.properties == db.properties + [p] && r.ptypes == db.ptypes && r.datasetMap == db.datasetMap
    requires r.nextId == db.nextId + 1 && r.tables.Keys == db.tables.Keys
    ensures Integrity(r)
  {
    assert TypeIds(r) == TypeIds(db) && DataTables(r) == DataTables(db);
    assert PropertyIds(r) == PropertyIds(db) + {p.id};
    forall e | e in db.datasetMap ensures e.property != p.id {
      var q :| q in db.properties && q.id == e.property;
    }
  }

  /** Inserting a property keeps a consistent store consistent. */
  lemma InsertPropertyIntegrity(db: Db, kwargs: Record)
    requires Integrity(db) && InsertProperty(db, kwargs).Ok?
    ensures Integrity(InsertProperty(db, kwargs).value.db)
  {
    var m := SqlHappy.CleanBinds(kwargs);
    var r := InsertProperty(db, kwargs).value;
    InsertPropertyLinksData(db, kwargs);
    var ty := FirstType(db.ptypes, TypeId, m["type_id"]).value;
    assert ty.id == r.property.ptype;
    AddPropertyIntegrity(db, r.db, r.property);
  }

  /** When no earlier property has the same star, type and source, and the
      new row can be joined (its reference is set and its type exists), the
      code as written links the data to the new row after all. */
  lemma AsWrittenAgreesWhenUnique(db: Db, kwargs: Record)
    requires HasPropertyKeys(kwargs)
    requires var m := SqlHappy.CleanBinds(kwargs);
             FetchedBy(db, NewProperty(db, m), m)
             && forall i :: 0 <= i < |db.properties| ==> !FetchedBy(db, db.properties[i], m)
    ensures InsertPropertyAsWritten(db, kwargs) == InsertProperty(db, kwargs)
  {
    var m := SqlHappy.CleanBinds(kwargs);
    var db1 := WithProperty(db, m);
    var p := NewProperty(db, m);
    assert TypeIds(db1) == TypeIds(db);
    assert FetchedBy(db1, db1.properties[|db.properties|], m);
    assert forall i :: 0 <= i < |db.properties| ==> db1.properties[i] == db.properties[i];
    assert FetchPropertyById(db1, m) == Some(p);
    PropertyReqKeys(kwargs);
  }

  /** A store with one MEASURE type `teff` (id 1) and one `teff` property
      (id 2) of star 10 from source 20. */
  function SampleDb(): Db {
    Db([PType(Int(1), Str("teff"), Str("MEASURE"), Null, Null)],
       [Property(Int(2), Int(10), Int(1), Int(20), Int(30), Null)], [], map["dat_teff" := []], 3)
  }

  /** A second `teff` measurement of star 10 from source 20. */
  function SampleKwargs(): Record {
    map["star_id" := Int(10), "type_id" := Int(1), "src_id" := Int(20), "ref_id" := Int(30),
        "inst_id" := Null, "meta" := Null, "val" := Float(5772.0), "errlo" := Null,
        "errhi" := Null, "errbounds" := Null, "obs_time" := Null, "int_time" := Null]
  }

  /** The sample type's name is not a fixed column, and its table is `dat_teff`. */
  lemma SampleTable()
    ensures "teff" !in MeasureCols && Lower("teff") == "teff" && TableOf("teff") == "dat_teff"
  {
    assert "teff"[0] == 't' && "teff"[1] == 'e';
    LowerTeff();
  }

  /** The bind map of the sample once cleaned and given `prop_id` and `name`. */
  lemma SampleBinds(id: Value)
    ensures var m := SqlHappy.CleanBinds(SampleKwargs());
            HasPropertyKeys(m) && m["star_id"] == Int(10) && m["type_id"] == Int(1) && m["src_id"] == Int(20)
            && m["ref_id"] == Int(30) && HasMeasureKeys(m["prop_id" := id]["name" := Str("teff")])
  {
    var kw := SampleKwargs();
    var m := SqlHappy.CleanBinds(kw);
    assert m["star_id"] == SqlHappy.CleanValue(kw["star_id"]);
  }

  /** As written, the sample's new value is linked to property 2, the row
      already there, and that row is returned. */
  lemma SampleAsWritten()
    ensures var r := InsertPropertyAsWritten(SampleDb(), SampleKwargs());
            r.Ok? && r.value.property == SampleDb().properties[0]
            && DataRowAppended(SampleDb(), r.value.db, "dat_teff", Int(2))
  {
    var db := SampleDb();
    var kw := SampleKwargs();
    var first := db.properties[0];
    var m := SqlHappy.CleanBinds(kw);
    SampleBinds(first.id);
    PropertyReqKeys(kw);
    var db1 := WithProperty(db, m);
    SampleFetch();
    assert InsertPropertyAsWritten(db, kw) == AttachData(db1, m, first);
    SampleAttach(first);
  }

  /** Once the sample's row is inserted, `fetch_property_by_id` finds the
      earlier row first. */
  lemma SampleFetch()
    ensures var m := SqlHappy.CleanBinds(SampleKwargs());
            HasPropertyKeys(m) && FetchPropertyById(WithProperty(SampleDb(), m), m) == Some(SampleDb().properties[0])
  {
    var db := SampleDb();
    var first := db.properties[0];
    var m := SqlHappy.CleanBinds(SampleKwargs());
    SampleBinds(first.id);
    var db1 := WithProperty(db, m);
    assert db1.ptypes[0] in db1.ptypes && db1.properties[0] == first;
    assert FetchedBy(db1, first, m);
    assert FetchFrom(db1, m, 0) == Some(first);
  }

  /** Attaching the sample's value to a property `prop` writes one row to
      `dat_teff` pointing at it. */
  lemma SampleAttach(prop: Property)
    ensures var m := SqlHappy.CleanBinds(SampleKwargs());
            var db1 := WithProperty(SampleDb(), m);
            HasPropertyKeys(m) && AttachData(db1, m, prop).Ok? && AttachData(db1, m, prop).value.property == prop
            && DataRowAppended(db1, AttachData(db1, m, prop).value.db, "dat_teff", prop.id)
  {
    var db := SampleDb();
    var m := SqlHappy.CleanBinds(SampleKwargs());
    SampleBinds(prop.id);
    var db1 := WithProperty(db, m);
    assert FirstType(db1.ptypes, TypeId, Int(1)) == Some(db.ptypes[0]);
    var m' := m["prop_id" := prop.id]["name" := Str("teff")];
    SampleTable();
    assert InsertMeasure(db1, m').Ok?;
    assert AttachData(db1, m, prop).Ok?;
    AttachDataShape(db1, m, prop);
  }

  /** As intended, the sample's new value is linked to property 3, the row
      just inserted. */
  lemma SampleIntended()
    ensures var r := InsertProperty(SampleDb(), SampleKwargs());
            r.Ok? && r.value.property.id == Int(3) && DataRowAppended(SampleDb(), r.value.db, "dat_teff", Int(3))
  {
    var db := SampleDb();
    var kw := SampleKwargs();
    var m := SqlHappy.CleanBinds(kw);
    SampleBinds(Int(3));
    PropertyReqKeys(kw);
    SampleAttach(NewProperty(db, m));
  }

  /** A second measurement of the same type for the same star from the same
      source: the code as written links the new value to the property
      already there, while the row it inserted gets no data. */
  lemma AsWrittenLinksEarlierProperty()
    ensures InsertPropertyAsWritten(SampleDb(), SampleKwargs()).Ok? && InsertProperty(SampleDb(), SampleKwargs()).Ok?
    ensures InsertPropertyAsWritten(SampleDb(), SampleKwargs()).value.property.id == Int(2)
    ensures InsertProperty(SampleDb(), SampleKwargs()).value.property.id == Int(3)
    ensures InsertPropertyAsWritten(SampleDb(), SampleKwargs()) != InsertProperty(SampleDb(), SampleKwargs())
  {
    SampleAsWritten();
    SampleIntended();
  }

  // ---- check_exists_all_stars --------------------------------------------------

  /** The subquery: the stars of the properties from `src` whose type is
      named `ptype`. */
  function StarsWithType(db: Db, ptype: Value, src: Value): set<Value> {
    set p, t | p in db.properties && t in db.ptypes && SqlEq(t.id, p.ptype) && SqlEq(p.source, src)
                 && SqlEq(t.name, ptype) :: p.star
  }

  /** The stars with some property from `src` (a NULL star joins no star row). */
  function StarsOfSource(db: Db, src: Value): set<Value> {
    set p | p in db.properties && SqlEq(p.source, src) && p.star != Null :: p.star
  }

  /** Star `star` has a property of the type named `ptype` from `src`. */
  predicate HasTypeFrom(db: Db, star: Value, ptype: Value, src: Value) {
    exists p, t :: p in db.properties && t in db.ptypes && p.star == star && SqlEq(t.id, p.ptype)
                   && SqlEq(p.source, src) && SqlEq(t.name, ptype)
  }

  /** The stars the query returns: `p.star NOT IN (subquery)` holds only when
      the star is not in the subquery and the subquery has no NULL. */
  function LackingStars(db: Db, ptype: Value, src: Value): set<Value> {
    var covered := StarsWithType(db, ptype, src);
    if Null in covered then {} else StarsOfSource(db, src) - covered
  }

  /** `check_exists_all_stars(ptype, src_id)`: `True` when every star of the
      source has data of the type, otherwise it raises, listing the stars
      that lack it. */
  function CheckExistsAllStars(db: Db, ptype: Value, src: Value): (r: Result<bool, Error>)
    ensures r.Ok? ==> r.value
    ensures r.Err? ==> r.error.CompletenessViolation? && r.error.stars != {}
    ensures r.Err? ==> forall s :: s in r.error.stars ==>
                         s != Null && !HasTypeFrom(db, s, ptype, src)
                         && exists p :: p in db.properties && p.star == s && SqlEq(p.source, src)
  {
    var bad := LackingStars(db, ptype, src);
    if bad == {} then Ok(true) else Err(CompletenessViolation(bad))
  }

  /** The check passes exactly when every star with a property from the
      source has one of the type, or some such property of the type has a
      NULL star (which makes `NOT IN` reject every star). */
  lemma CheckExistsAllStarsOk(db: Db, ptype: Value, src: Value)
    ensures CheckExistsAllStars(db, ptype, src).Ok? <==>
              HasTypeFrom(db, Null, ptype, src)
              || forall p :: p in db.properties && SqlEq(p.source, src) && p.star != Null ==>
                               HasTypeFrom(db, p.star, ptype, src)
  {
    CoveredIff(db, ptype, src);
    LackingEmpty(db, ptype, src);
  }

  /** The subquery holds exactly the stars with data of the type from the source. */
  lemma CoveredIff(db: Db, ptype: Value, src: Value)
    ensures forall s :: s in StarsWithType(db, ptype, src) <==> HasTypeFrom(db, s, ptype, src)
  {
    forall s | HasTypeFrom(db, s, ptype, src) ensures s in StarsWithType(db, ptype, src) {
      var q, t :| q in db.properties && t in db.ptypes && q.star == s && SqlEq(t.id, q.ptype)
                  && SqlEq(q.source, src) && SqlEq(t.name, ptype);
    }
  }

  lemma LackingEmpty(db: Db, ptype: Value, src: Value)
    ensures LackingStars(db, ptype, src) == {} <==>
              Null in StarsWithType(db, ptype, src)
              || forall p :: p in db.properties && SqlEq(p.source, src) && p.star != Null ==>
                               p.star in StarsWithType(db, ptype, src)
  {
    var covered := StarsWithType(db, ptype, src);
    if Null !in covered && LackingStars(db, ptype, src) == {} {
      forall p | p in db.properties && SqlEq(p.source, src) && p.star != Null ensures p.star in covered {
        assert p.star in StarsOfSource(db, src);
        assert p.star !in StarsOfSource(db, src) - covered;
      }
    }
    if LackingStars(db, ptype, src) != {} {
      var s :| s in LackingStars(db, ptype, src);
      var p :| p in db.properties && SqlEq(p.source, src) && p.star != Null && p.star == s;
    }
  }

  /** Adding a property of the checked type, for a star, from the checked
      source, takes exactly that star off the list. */
  lemma CheckShrinks(db: Db, ptype: Value, src: Value, p: Property, t: PType)
    requires t in db.ptypes && SqlEq(t.id, p.ptype) && SqlEq(t.name, ptype) && SqlEq(p.source, src) && p.star != Null
    ensures LackingStars(db.(properties := db.properties + [p]), ptype, src) == LackingStars(db, ptype, src) - {p.star}
  {
    var db' := db.(properties := db.properties + [p]);
    assert StarsWithType(db', ptype, src) == StarsWithType(db, ptype, src) + {p.star};
    assert StarsOfSource(db', src) == StarsOfSource(db, src) + {p.star};
  }
}

=== FILE: strings.dfy ===
/** The Python string operations the system relies on, over `seq<char>`:
    `strip`/`rstrip`, `split(sep)`, `split(sep, 1)`, `sep.join(...)`,
    `endswith`, `int(...)` and `"%i"` / `"%02i"` formatting, and ASCII case
    mapping.  Whitespace is Python 2 `str` whitespace (the C locale
    `isspace`): space, tab, newline, carriage return, vertical tab and form
    feed. */
module Strings {
  import opened Wrappers

  predicate IsSpace(c: char) {
    c == ' ' || c == '\t' || c == '\n' || c == '\r' || c == '\U{0B}' || c == '\U{0C}'
  }

  predicate AllSatisfy(s: string, p: char -> bool) {
    forall i :: 0 <= i < |s| ==> p(s[i])
  }

  /** `s.rstrip(chars)`: drops the longest suffix whose characters satisfy `drop`. */
  function RStripBy(s: string, drop: char -> bool): (r: string)
    ensures r <= s
    ensures |r| == 0 || !drop(r[|r| - 1])
    ensures forall i :: |r| <= i < |s| ==> drop(s[i])
  {
    if |s| > 0 && drop(s[|s| - 1]) then RStripBy(s[..|s| - 1], drop) else s
  }

  /** Length of the longest prefix of `s` whose characters satisfy `drop`. */
  function LeadCount(s: string, drop: char -> bool): (n: nat)
    ensures n <= |s|
    ensures forall i :: 0 <= i < n ==> drop(s[i])
    ensures n == |s| || !drop(s[n])
  {
    if |s| > 0 && drop(s[0]) then 1 + LeadCount(s[1..], drop) else 0
  }

  /** `s.lstrip(chars)`: drops the longest prefix whose characters satisfy `drop`. */
  function LStripBy(s: string, drop: char -> bool): (r: string)
    ensures |r| <= |s| && r == s[|s| - |r|..]
    ensures |r| == 0 || !drop(r[0])
    ensures forall i :: 0 <= i < |s| - |r| ==> drop(s[i])
  {
    s[LeadCount(s, drop)..]
  }

  function RStrip(s: string): string {
    RStripBy(s, IsSpace)
  }

  predicate NoEdgeSpace(s: string) {
    |s| == 0 || (!IsSpace(s[0]) && !IsSpace(s[|s| - 1]))
  }

  /** `t` occurs in `s` at position `k` with only whitespace before and
      after it. */
  predicate Placed(t: string, s: string, k: int) {
    0 <= k && k + |t| <= |s|
    && (forall i :: 0 <= i < |t| ==> s[k + i] == t[i])
    && (forall i :: 0 <= i < k ==> IsSpace(s[i]))
    && (forall i :: k + |t| <= i < |s| ==> IsSpace(s[i]))
  }

  /** `t` is `s` with the whitespace at both ends removed, stated without
      reference to how `strip` computes it. */
  predicate StrippedFrom(t: string, s: string) {
    NoEdgeSpace(t) && exists k :: 0 <= k <= |s| && Placed(t, s, k)
  }

  /** `s.strip()`: the middle of `s` once the whitespace at both ends is
      removed. */
  function Strip(s: string): (r: string)
    ensures StrippedFrom(r, s)
  {
    StripParts(s);
    LStripBy(RStripBy(s, IsSpace), IsSpace)
  }

  /** Where the stripped text sits in `s`: after the leading whitespace,
      before the trailing whitespace. */
  lemma {:induction false} StripParts(s: string)
    ensures var t := RStripBy(s, IsSpace);
            var r := LStripBy(t, IsSpace);
            NoEdgeSpace(r) && Placed(r, s, |t| - |r|)
  {
    var t := RStripBy(s, IsSpace);
    var r := LStripBy(t, IsSpace);
    var k := |t| - |r|;
    forall i | 0 <= i < |r|
      ensures s[k + i] == r[i]
    {
      assert s[k + i] == t[k + i];
    }
    forall i | 0 <= i < k
      ensures IsSpace(s[i])
    {
      assert s[i] == t[i];
    }
    forall i | k + |r| <= i < |s|
      ensures IsSpace(s[i])
    {
    }
    if |r| > 0 {
      assert r[|r| - 1] == t[|t| - 1];
    }
  }

  lemma PlacedAt(t: string, s: string, k: int, i: int)
    requires Placed(t, s, k) && 0 <= i < |t|
    ensures s[k + i] == t[i]
  {
  }

  lemma PlacedOutside(t: string, s: string, k: int, i: int)
    requires Placed(t, s, k) && 0 <= i < |s| && (i < k || k + |t| <= i)
    ensures IsSpace(s[i])
  {
  }

  /** `s.strip()` is empty exactly when `s` is all whitespace. */
  lemma {:induction false} StripEmpty(s: string)
    ensures Strip(s) == "" <==> AllSatisfy(s, IsSpace)
  {
    var r := Strip(s);
    var k :| 0 <= k <= |s| && Placed(r, s, k);
    if r == "" {
      forall i | 0 <= i < |s|
        ensures IsSpace(s[i])
      {
        PlacedOutside(r, s, k, i);
      }
    } else {
      PlacedAt(r, s, k, 0);
    }
  }

  /** Only one text is `s` stripped. */
  lemma {:induction false} StrippedSame(t: string, u: string, s: string)
    requires StrippedFrom(t, s) && StrippedFrom(u, s)
    ensures t == u
  {
    var k :| 0 <= k <= |s| && Placed(t, s, k);
    var j :| 0 <= j <= |s| && Placed(u, s, j);
    if |t| > 0 && |u| > 0 {
      PlacedAt(t, s, k, 0);
      PlacedAt(u, s, j, 0);
      if k < j {
        PlacedOutside(u, s, j, k);
        assert false;
      } else if j < k {
        PlacedOutside(t, s, k, j);
        assert false;
      }
      PlacedAt(t, s, k, |t| - 1);
      PlacedAt(u, s, j, |u| - 1);
      if |t| < |u| {
        PlacedOutside(t, s, k, j + |u| - 1);
        assert false;
      } else if |u| < |t| {
        PlacedOutside(u, s, j, k + |t| - 1);
        assert false;
      }
      forall i | 0 <= i < |t|
        ensures t[i] == u[i]
      {
        PlacedAt(t, s, k, i);
        PlacedAt(u, s, j, i);
      }
    } else if |t| > 0 {
      PlacedAt(t, s, k, 0);
      PlacedOutside(u, s, j, k);
      assert false;
    } else if |u| > 0 {
      PlacedAt(u, s, j, 0);
      PlacedOutside(t, s, k, j);
      assert false;
    }
  }

  /** Any text that is `s` stripped is what `strip` computes. */
  lemma {:induction false} StripUnique(t: string, s: string)
    requires StrippedFrom(t, s)
    ensures t == Strip(s)
  {
    StrippedSame(t, Strip(s), s);
  }

  lemma StripNoEdge(s: string)
    requires NoEdgeSpace(s)
    ensures Strip(s) == s
  {
  }

  /** `strip` is idempotent. */
  lemma StripIdempotent(s: string)
    ensures Strip(Strip(s)) == Strip(s)
  {
    StripNoEdge(Strip(s));
  }

  predicate EndsWith(s: string, suffix: string) {
    |suffix| <= |s| && s[|s| - |suffix|..] == suffix
  }

  /** Position of the first occurrence of `c`. */
  function IndexOf(s: string, c: char): (i: nat)
    requires c in s
    ensures i < |s| && s[i] == c && c !in s[..i]
  {
    if s[0] == c then 0 else 1 + IndexOf(s[1..], c)
  }

  /** `s.split(c, 1)` unpacked into two names: `None` stands for the
      `ValueError` Python raises when `c` does not occur. */
  function SplitOnce(s: string, c: char): (r: Option<(string, string)>)
    ensures r.None? <==> c !in s
    ensures r.Some? ==> c !in r.value.0 && s == r.value.0 + [c] + r.value.1
  {
    if c !in s then None
    else
      var i := IndexOf(s, c);
      assert s == s[..i] + [c] + s[i + 1..];
      Some((s[..i], s[i + 1..]))
  }

  lemma {:induction false} IndexOfUnique(s: string, c: char, k: nat)
    requires k < |s| && s[k] == c && c !in s[..k]
    ensures IndexOf(s, c) == k
  {
    if k > 0 {
      assert s[0] in s[..k];
      assert s[1..][k - 1] == c;
      assert s[1..][..k - 1] == s[1..k];
      assert forall x :: x in s[1..k] ==> x in s[..k];
      IndexOfUnique(s[1..], c, k - 1);
    }
  }

  /** `SplitOnce` undoes gluing two parts around the first separator. */
  lemma SplitOnceGlue(a: string, c: char, b: string)
    requires c !in a
    ensures SplitOnce(a + [c] + b, c) == Some((a, b))
  {
    var s := a + [c] + b;
    assert s[..|a|] == a;
    IndexOfUnique(s, c, |a|);
    assert s[|a| + 1..] == b;
  }

  /** `s.split(sep)` for a one-character separator. */
  function Split(s: string, sep: char): (parts: seq<string>)
    ensures |parts| >= 1
    ensures forall i :: 0 <= i < |parts| ==> sep !in parts[i]
  {
    if |s| == 0 then [""]
    else
      var rest := Split(s[1..], sep);
      if s[0] == sep then [""] + rest
      else [[s[0]] + rest[0]] + rest[1..]
  }

  /** `sep.join(parts)`. */
  function Join(parts: seq<string>, sep: string): string {
    if |parts| == 0 then ""
    else if |parts| == 1 then parts[0]
    else parts[0] + sep + Join(parts[1..], sep)
  }

  /** Joining the pieces of a split gives back the original string. */
  lemma {:induction false} JoinSplit(s: string, sep: char)
    ensures Join(Split(s, sep), [sep]) == s
  {
    if |s| == 0 {
    } else {
      var rest := Split(s[1..], sep);
      JoinSplit(s[1..], sep);
      if s[0] == sep {
        assert Split(s, sep) == [""] + rest;
        assert ([""] + rest)[1..] == rest;
      } else {
        var parts := Split(s, sep);
        assert parts == [[s[0]] + rest[0]] + rest[1..];
        if |rest| == 1 {
          assert parts == [[s[0]] + rest[0]];
        } else {
          assert parts[1..] == rest[1..];
          assert Join(rest, [sep]) == rest[0] + [sep] + Join(rest[1..], [sep]);
          assert s == [s[0]] + s[1..];
        }
      }
    }
  }

  lemma {:induction false} SplitNoSep(a: string, sep: char)
    requires sep !in a
    ensures Split(a, sep) == [a]
  {
    if |a| > 0 {
      assert sep !in a[1..];
      SplitNoSep(a[1..], sep);
      assert [a[0]] + a[1..] == a;
    }
  }

  lemma {:induction false} SplitGlue(a: string, sep: char, t: string)
    requires sep !in a
    ensures Split(a + [sep] + t, sep) == [a] + Split(t, sep)
  {
    var s := a + [sep] + t;
    if |a| == 0 {
      assert s[1..] == t;
    } else {
      assert s[1..] == a[1..] + [sep] + t;
      assert sep !in a[1..];
      SplitGlue(a[1..], sep, t);
      assert [a[0]] + a[1..] == a;
    }
  }

  /** Splitting a join of separator-free pieces gives back the pieces. */
  lemma {:induction false} SplitJoin(parts: seq<string>, sep: char)
    requires |parts| >= 1
    requires forall i :: 0 <= i < |parts| ==> sep !in parts[i]
    ensures Split(Join(parts, [sep]), sep) == parts
  {
    if |parts| == 1 {
      SplitNoSep(parts[0], sep);
    } else {
      SplitJoin(parts[1..], sep);
      SplitGlue(parts[0], sep, Join(parts[1..], [sep]));
      assert [parts[0]] + parts[1..] == parts;
    }
  }

  /** Joining is compositional at a split point of the list. */
  lemma {:induction false} JoinAppend(a: seq<string>, b: seq<string>, sep: string)
    requires |a| >= 1 && |b| >= 1
    ensures Join(a + b, sep) == Join(a, sep) + sep + Join(b, sep)
  {
    if |a| == 1 {
      assert (a + b)[1..] == b;
    } else {
      assert (a + b)[1..] == a[1..] + b;
      JoinAppend(a[1..], b, sep);
    }
  }

  // ---- decimal integers -------------------------------------------------

  predicate IsDigit(c: char) { '0' <= c <= '9' }

  function DigitChar(d: nat): (c: char)
    requires d < 10
    ensures IsDigit(c)
  {
    ('0' as int + d) as char
  }

  function DigitValue(c: char): nat
    requires IsDigit(c)
  {
    c as int - '0' as int
  }

  /** `"%i" % n` for a non-negative `n`. */
  function NatToString(n: nat): (s: string)
    ensures |s| >= 1 && AllSatisfy(s, IsDigit)
  {
    if n < 10 then [DigitChar(n)] else NatToString(n / 10) + [DigitChar(n % 10)]
  }

  /** `"%02i" % n` for a non-negative `n`: zero-padded to two digits. */
  function Pad2(n: nat): (s: string)
    ensures |s| >= 2 && AllSatisfy(s, IsDigit)
  {
    if n < 10 then "0" + NatToString(n) else NatToString(n)
  }

  /** Value of a string of decimal digits (leading zeros allowed). */
  function DigitsValue(s: string): nat
    requires AllSatisfy(s, IsDigit)
  {
    if |s| == 0 then 0 else DigitsValue(s[..|s| - 1]) * 10 + DigitValue(s[|s| - 1])
  }

  /** `int(s)` on an already stripped string: an optional sign followed by
      at least one decimal digit; anything else is the `ValueError` case. */
  function ParseInt(s: string): (r: Option<int>)
    ensures r.Some? ==> |s| >= 1
  {
    if |s| >= 2 && (s[0] == '-' || s[0] == '+') && AllSatisfy(s[1..], IsDigit) then
      var v: int := if s[0] == '-' then -(DigitsValue(s[1..]) as int) else DigitsValue(s[1..]);
      Some(v)
    else if |s| >= 1 && AllSatisfy(s, IsDigit) then Some(DigitsValue(s))
    else None
  }

  lemma {:induction false} DigitsValueOfNat(n: nat)
    ensures DigitsValue(NatToString(n)) == n
  {
    if n >= 10 {
      var s := NatToString(n);
      DigitsValueOfNat(n / 10);
      assert s[..|s| - 1] == NatToString(n / 10);
    }
  }

  /** `int("%i" % n) == n`. */
  lemma ParseNatToString(n: nat)
    ensures ParseInt(NatToString(n)) == Some(n)
  {
    DigitsValueOfNat(n);
  }

  /** `int("%02i" % n) == n`, hence `"%02i"` formatting is injective. */
  lemma ParsePad2(n: nat)
    ensures ParseInt(Pad2(n)) == Some(n)
  {
    DigitsValueOfNat(n);
    if n < 10 {
      var s := Pad2(n);
      assert s[..|s| - 1] == "0";
      assert DigitsValue("0") == DigitsValue("") * 10 + 0;
    }
  }

  lemma Pad2Injective(a: nat, b: nat)
    requires Pad2(a) == Pad2(b)
    ensures a == b
  {
    ParsePad2(a);
    ParsePad2(b);
  }

  // ---- ASCII case -------------------------------------------------------

  predicate IsUpper(c: char) { 'A' <= c <= 'Z' }
  predicate IsLower(c: char) { 'a' <= c <= 'z' }
  predicate IsAlpha(c: char) { IsUpper(c) || IsLower(c) }

  function ToLower(c: char): (d: char)
    ensures IsAlpha(c) <==> IsAlpha(d)
    ensures !IsAlpha(c) ==> d == c
    ensures !IsUpper(d)
  {
    if IsUpper(c) then (c as int + 32) as char else c
  }

  function ToUpper(c: char): (d: char)
    ensures IsAlpha(c) <==> IsAlpha(d)
    ensures !IsAlpha(c) ==> d == c
    ensures !IsLower(d)
    ensures ToLower(d) == ToLower(c)
  {
    if IsLower(c) then (c as int - 32) as char else c
  }

  /** `s.lower()` on ASCII text. */
  function Lower(s: string): (r: string)
    ensures |r| == |s|
    ensures forall i :: 0 <= i < |s| ==> r[i] == ToLower(s[i])
  {
    seq(|s|, i requires 0 <= i < |s| => ToLower(s[i]))
  }
}

=== FILE: templates.dfy ===
/** The schema-template parser `_set_templates` (sunstardb/database.py): a
    line-oriented scan of the schema document that turns each
    `<NAME>` ... `</NAME>` region into a template body, keyed by NAME. */
module Templates {
  import opened Wrappers
  import opened Strings
  import opened Values

  /** An opening tag line `<NAME>` (after right-stripping). */
  predicate IsOpenTag(line: string) {
    |line| > 3 && line[0] == '<' && line[|line| - 1] == '>' && line[1] != '/'
  }

  /** A closing tag line `</...>`; the name in it is never looked at. */
  predicate IsCloseTag(line: string) {
    |line| > 3 && line[..2] == "</" && line[|line| - 1] == '>'
  }

  function TagName(line: string): string
    requires |line| >= 2
  {
    line[1..|line| - 1]
  }

  /** The scan state: templates so far and the name of the open region. */
  datatype Scan = Scan(templates: map<string, string>, open: Option<string>)

  predicate Valid(st: Scan) {
    st.open.Some? ==> st.open.value in st.templates
  }

  /** One iteration of the loop over the document's lines. */
  function Step(st: Scan, raw: string): (r: Scan)
    requires Valid(st)
    ensures Valid(r)
    ensures IsOpenTag(RStrip(raw)) ==> r.open == Some(TagName(RStrip(raw))) && r.templates[r.open.value] == ""
    ensures st.open.None? && !IsOpenTag(RStrip(raw)) ==> r == st
    ensures st.open.Some? && IsCloseTag(RStrip(raw)) && !IsOpenTag(RStrip(raw)) ==> r == Scan(st.templates, None)
    ensures st.open.Some? && !IsOpenTag(RStrip(raw)) && !IsCloseTag(RStrip(raw)) ==>
              r.open == st.open
              && r.templates == st.templates[st.open.value := st.templates[st.open.value] + RStrip(raw) + "\n"]
    ensures r.templates.Keys >= st.templates.Keys
  {
    var line := RStrip(raw);
    if IsOpenTag(line) then
      var name := TagName(line);
      Scan(st.templates[name := ""], Some(name))
    else if st.open.Some? then
      if IsCloseTag(line) then Scan(st.templates, None)
      else
        var name := st.open.value;
        Scan(st.templates[name := st.templates[name] + line + "\n"], st.open)
    else st
  }

  function ScanLines(st: Scan, lines: seq<string>): (r: Scan)
    requires Valid(st)
    ensures Valid(r)
    ensures r.templates.Keys >= st.templates.Keys
    decreases |lines|
  {
    if |lines| == 0 then st else ScanLines(Step(st, lines[0]), lines[1..])
  }

  /** What `TABLE_TEMPLATES` holds once `_set_templates` has read the lines
      into the empty dict, whether or not it then raises: the dict is filled
      in place as the scan goes. */
  function Parsed(lines: seq<string>): map<string, string> {
    ScanLines(Scan(map[], None), lines).templates
  }

  /** `_set_templates` on the lines of the schema document: the templates,
      or `UnclosedTemplate(NAME)` when the last region is never closed.
      Either way the templates read so far are `Parsed(lines)`, and on
      failure they include the unclosed region. */
  function ParseTemplates(lines: seq<string>): (r: Result<map<string, string>, Error>)
    ensures r.Err? ==> r.error.UnclosedTemplate? && r.error.name in Parsed(lines)
    ensures r.Ok? ==> r.value == Parsed(lines)
    ensures (forall i :: 0 <= i < |lines| ==> !IsOpenTag(RStrip(lines[i]))) ==> r == Ok(map[])
  {
    var st := ScanLines(Scan(map[], None), lines);
    NoTagsNoTemplates(lines);
    if st.open.Some? then Err(UnclosedTemplate(st.open.value)) else Ok(st.templates)
  }

  lemma {:induction false} NoTagsNoTemplatesFrom(lines: seq<string>)
    requires forall i :: 0 <= i < |lines| ==> !IsOpenTag(RStrip(lines[i]))
    ensures ScanLines(Scan(map[], None), lines) == Scan(map[], None)
  {
    if |lines| > 0 {
      NoTagsNoTemplatesFrom(lines[1..]);
    }
  }

  lemma NoTagsNoTemplates(lines: seq<string>)
    ensures (forall i :: 0 <= i < |lines| ==> !IsOpenTag(RStrip(lines[i]))) ==>
              ScanLines(Scan(map[], None), lines) == Scan(map[], None)
  {
    if forall i :: 0 <= i < |lines| ==> !IsOpenTag(RStrip(lines[i])) {
      NoTagsNoTemplatesFrom(lines);
    }
  }

  /** Every template name is the name of some opening tag line. */
  lemma {:induction false} TemplateNamesFromTags(st: Scan, lines: seq<string>, k: string)
    requires Valid(st)
    requires k in ScanLines(st, lines).templates
    ensures k in st.templates
            || exists i :: 0 <= i < |lines| && IsOpenTag(RStrip(lines[i])) && TagName(RStrip(lines[i])) == k
    decreases |lines|
  {
    if |lines| > 0 {
      var st' := Step(st, lines[0]);
      TemplateNamesFromTags(st', lines[1..], k);
      if k in st'.templates && k !in st.templates {
        assert IsOpenTag(RStrip(lines[0])) && TagName(RStrip(lines[0])) == k;
      }
      if k !in st'.templates {
        var i :| 0 <= i < |lines[1..]| && IsOpenTag(RStrip(lines[1..][i])) && TagName(RStrip(lines[1..][i])) == k;
        assert lines[1..][i] == lines[i + 1];
      }
    }
  }

  // ---- round trip against a rendered document ---------------------------

  /** A tagged region of the schema document. */
  datatype Region = Region(name: string, body: seq<string>)

  /** A name that reads back from `<NAME>`: two characters or more (shorter
      tag lines are not tags) and not starting with `/`. */
  predicate GoodName(n: string) {
    |n| >= 2 && n[0] != '/'
  }

  /** A body line that the scan appends verbatim. */
  predicate PlainLine(l: string) {
    RStrip(l) == l && !IsOpenTag(l) && !IsCloseTag(l)
  }

  predicate WellFormed(doc: seq<Region>) {
    forall i :: 0 <= i < |doc| ==>
      GoodName(doc[i].name) && forall j :: 0 <= j < |doc[i].body| ==> PlainLine(doc[i].body[j])
  }

  function OpenLine(n: string): string { "<" + n + ">" }
  function CloseLine(n: string): string { "</" + n + ">" }

  function RenderRegion(r: Region): seq<string> {
    [OpenLine(r.name)] + r.body + [CloseLine(r.name)]
  }

  function Render(doc: seq<Region>): seq<string> {
    if |doc| == 0 then [] else RenderRegion(doc[0]) + Render(doc[1..])
  }

  /** A template body: each line followed by a newline. */
  function Body(lines: seq<string>): string {
    if |lines| == 0 then "" else lines[0] + "\n" + Body(lines[1..])
  }

  /** The templates a document declares; a later region of the same name replaces an earlier one. */
  function Declared(m: map<string, string>, doc: seq<Region>): map<string, string>
    decreases |doc|
  {
    if |doc| == 0 then m else Declared(m[doc[0].name := Body(doc[0].body)], doc[1..])
  }

  lemma {:induction false} ScanAppend(st: Scan, a: seq<string>, b: seq<string>)
    requires Valid(st)
    ensures ScanLines(st, a + b) == ScanLines(ScanLines(st, a), b)
    decreases |a|
  {
    if |a| > 0 {
      assert (a + b)[0] == a[0];
      assert (a + b)[1..] == a[1..] + b;
      ScanAppend(Step(st, a[0]), a[1..], b);
      assert ScanLines(st, a + b) == ScanLines(Step(st, a[0]), a[1..] + b);
      assert ScanLines(st, a) == ScanLines(Step(st, a[0]), a[1..]);
    } else {
      assert a + b == b;
    }
  }

  lemma {:induction false} ScanBody(m: map<string, string>, n: string, body: seq<string>)
    requires n in m
    requires forall j :: 0 <= j < |body| ==> PlainLine(body[j])
    ensures ScanLines(Scan(m, Some(n)), body) == Scan(m[n := m[n] + Body(body)], Some(n))
    decreases |body|
  {
    if |body| > 0 {
      var m' := m[n := m[n] + body[0] + "\n"];
      assert Step(Scan(m, Some(n)), body[0]) == Scan(m', Some(n));
      ScanBody(m', n, body[1..]);
      assert m'[n] + Body(body[1..]) == m[n] + Body(body);
    } else {
      assert m[n] + "" == m[n];
      assert m[n := m[n]] == m;
    }
  }

  /** An opening tag outside any region starts its template empty. */
  lemma OpenLineStep(m: map<string, string>, n: string)
    requires GoodName(n)
    ensures ScanLines(Scan(m, None), [OpenLine(n)]) == Scan(m[n := ""], Some(n))
  {
    var o := OpenLine(n);
    assert RStrip(o) == o;
    assert IsOpenTag(o) && TagName(o) == n;
    assert Step(Scan(m, None), o) == Scan(m[n := ""], Some(n));
  }

  lemma ScanRegion(m: map<string, string>, r: Region)
    requires GoodName(r.name)
    requires forall j :: 0 <= j < |r.body| ==> PlainLine(r.body[j])
    ensures ScanLines(Scan(m, None), RenderRegion(r)) == Scan(m[r.name := Body(r.body)], None)
  {
    var n := r.name;
    var o := OpenLine(n);
    var c := CloseLine(n);
    var m1 := m[n := ""];
    OpenLineStep(m, n);
    ScanAppend(Scan(m, None), [o], r.body + [c]);
    assert RenderRegion(r) == [o] + (r.body + [c]);
    ScanAppend(Scan(m1, Some(n)), r.body, [c]);
    ScanBody(m1, n, r.body);
    assert m1[n] + Body(r.body) == Body(r.body);
    assert m1[n := Body(r.body)] == m[n := Body(r.body)];
    CloseLineStep(m[n := Body(r.body)], n);
  }

  /** The closing tag of the open region ends it. */
  lemma CloseLineStep(m: map<string, string>, n: string)
    requires GoodName(n) && n in m
    ensures ScanLines(Scan(m, Some(n)), [CloseLine(n)]) == Scan(m, None)
  {
    var c := CloseLine(n);
    assert RStrip(c) == c;
    assert IsCloseTag(c) && !IsOpenTag(c);
    assert Step(Scan(m, Some(n)), c) == Scan(m, None);
  }

  lemma {:induction false} ScanRender(m: map<string, string>, doc: seq<Region>)
    requires WellFormed(doc)
    ensures ScanLines(Scan(m, None), Render(doc)) == Scan(Declared(m, doc), None)
    decreases |doc|
  {
    if |doc| > 0 {
      ScanAppend(Scan(m, None), RenderRegion(doc[0]), Render(doc[1..]));
      ScanRegion(m, doc[0]);
      ScanRender(m[doc[0].name := Body(doc[0].body)], doc[1..]);
    }
  }

  /** Parsing a rendered well-formed document gives back exactly the
      templates it declares. */
  lemma ParseRender(doc: seq<Region>)
    requires WellFormed(doc)
    ensures ParseTemplates(Render(doc)) == Ok(Declared(map[], doc))
  {
    ScanRender(map[], doc);
  }

  /** A document whose last region is never closed is rejected, naming it. */
  lemma ParseUnclosed(doc: seq<Region>, last: Region)
    requires WellFormed(doc + [last])
    ensures ParseTemplates(Render(doc) + [OpenLine(last.name)] + last.body)
            == Err(UnclosedTemplate(last.name))
  {
    assert WellFormed(doc) by {
      forall i | 0 <= i < |doc| ensures GoodName(doc[i].name) {
        assert (doc + [last])[i] == doc[i];
      }
      forall i, j | 0 <= i < |doc| && 0 <= j < |doc[i].body| ensures PlainLine(doc[i].body[j]) {
        assert (doc + [last])[i] == doc[i];
      }
    }
    assert (doc + [last])[|doc|] == last;
    var start := Scan(map[], None);
    var n := last.name;
    var o := OpenLine(n);
    ScanRender(map[], doc);
    ScanAppend(start, Render(doc) + [o], last.body);
    ScanAppend(start, Render(doc), [o]);
    var m := Declared(map[], doc);
    OpenLineStep(m, n);
    ScanBody(m[n := ""], n, last.body);
  }

  /** A closing line ends the open region whatever name it carries. */
  lemma CloseIgnoresName(m: map<string, string>, open: string, other: string)
    requires open in m
    requires |other| >= 1
    ensures Step(Scan(m, Some(open)), CloseLine(other)) == Scan(m, None)
  {
    var c := CloseLine(other);
    assert RStrip(c) == c;
    assert c[1] == '/';
    assert c[..2] == "</";
  }
}

=== FILE: utils.dfy ===
/** The pure string helpers of sunstardb/utils.py: `compress_space`,
    `wikiword`, and the token split `parse_skycoord` performs before handing
    the coordinates to astropy. */
module Utils {
  import opened Wrappers
  import opened Strings

  predicate IsBlank(c: char) { c == ' ' }

  /** No two adjacent characters are both spaces. */
  predicate NoDoubleSpace(s: string) {
    forall i :: 0 <= i < |s| - 1 ==> !(s[i] == ' ' && s[i + 1] == ' ')
  }

  /** The characters of `s` other than `' '`, in order. */
  function NonSpaces(s: string): string {
    if |s| == 0 then ""
    else if s[0] == ' ' then NonSpaces(s[1..])
    else [s[0]] + NonSpaces(s[1..])
  }

  lemma {:induction false} NonSpacesLead(s: string, n: nat)
    requires n <= |s|
    requires forall i :: 0 <= i < n ==> s[i] == ' '
    ensures NonSpaces(s) == NonSpaces(s[n..])
  {
    if n > 0 {
      NonSpacesLead(s[1..], n - 1);
      assert s[1..][n - 1..] == s[n..];
    }
  }

  /** A left-to-right reading of `' +' -> ' '`: a space that follows a
      space is dropped, every other character is kept. */
  function Squeeze(s: string, afterSpace: bool): string
    decreases |s|
  {
    if |s| == 0 then ""
    else if s[0] == ' ' && afterSpace then Squeeze(s[1..], true)
    else [s[0]] + Squeeze(s[1..], s[0] == ' ')
  }

  /** After a space, a whole run of spaces is dropped. */
  lemma {:induction false} SqueezeSkipsRun(u: string)
    ensures Squeeze(u, true) == Squeeze(LStripBy(u, IsBlank), true)
    decreases |u|
  {
    if |u| > 0 && u[0] == ' ' {
      SqueezeSkipsRun(u[1..]);
      assert LeadCount(u, IsBlank) == 1 + LeadCount(u[1..], IsBlank);
      assert u[LeadCount(u, IsBlank)..] == u[1..][LeadCount(u[1..], IsBlank)..];
    } else {
      assert LeadCount(u, IsBlank) == 0;
    }
  }

  /** `re.sub(r' +', ' ', s)`: every maximal run of spaces becomes one
      space, which is exactly dropping each space that follows a space. */
  function CompressSpace(s: string): (r: string)
    ensures r == Squeeze(s, false)
    ensures |r| <= |s|
    ensures NoDoubleSpace(r)
    ensures |s| > 0 ==> |r| > 0 && r[0] == s[0]
    ensures NonSpaces(r) == NonSpaces(s)
    decreases |s|
  {
    if |s| == 0 then ""
    else if s[0] == ' ' then
      var t := LStripBy(s, IsBlank);
      assert IsBlank(s[0]);
      assert |t| < |s|;
      var rest := CompressSpace(t);
      NonSpacesLead(s, |s| - |t|);
      assert s[|s| - |t|..] == t;
      assert NonSpaces(" " + rest) == NonSpaces(rest) by {
        assert (" " + rest)[1..] == rest;
      }
      assert Squeeze(s, false) == " " + rest by {
        SqueezeSkipsRun(s[1..]);
        assert LeadCount(s, IsBlank) == 1 + LeadCount(s[1..], IsBlank);
        assert LStripBy(s[1..], IsBlank) == t;
        assert Squeeze(t, true) == Squeeze(t, false);
      }
      " " + rest
    else
      var rest := CompressSpace(s[1..]);
      assert ([s[0]] + rest)[1..] == rest;
      [s[0]] + rest
  }

  /** A string without double spaces is left as it is. */
  lemma {:induction false} CompressSpaceFixpoint(s: string)
    requires NoDoubleSpace(s)
    ensures CompressSpace(s) == s
    decreases |s|
  {
    if |s| == 0 {
    } else if s[0] == ' ' {
      var t := LStripBy(s, IsBlank);
      if |s| > 1 {
        assert s[1] != ' ';
        assert LeadCount(s[1..], IsBlank) == 0;
        assert LeadCount(s, IsBlank) == 1;
      }
      assert t == s[1..];
      CompressSpaceFixpoint(s[1..]);
    } else {
      CompressSpaceFixpoint(s[1..]);
    }
  }

  /** `compress_space` is idempotent. */
  lemma CompressSpaceIdempotent(s: string)
    ensures CompressSpace(CompressSpace(s)) == CompressSpace(s)
  {
    CompressSpaceFixpoint(CompressSpace(s));
  }

  // ---- wikiword ---------------------------------------------------------

  /** `\w` of a Python 2 regular expression without the UNICODE flag. */
  predicate IsWordChar(c: char) { IsAlpha(c) || IsDigit(c) || c == '_' }

  predicate IsKept(c: char) { IsWordChar(c) || c == '-' }

  /** `re.sub(r'[^\w-]', ' ', s)`. */
  function BlankOut(s: string): (r: string)
    ensures |r| == |s|
    ensures forall i :: 0 <= i < |s| ==> r[i] == (if IsKept(s[i]) then s[i] else ' ')
  {
    seq(|s|, i requires 0 <= i < |s| => if IsKept(s[i]) then s[i] else ' ')
  }

  /** `s.title()` on ASCII text: a letter is upper-cased when the character
      before it is not a letter, and lower-cased otherwise. */
  function Title(s: string): (r: string)
    ensures |r| == |s|
    ensures forall i :: 0 <= i < |s| ==> ToLower(r[i]) == ToLower(s[i])
    ensures forall i :: 0 <= i < |s| ==> (r[i] == ' ' <==> s[i] == ' ')
    ensures forall i :: 0 <= i < |s| && !IsAlpha(s[i]) ==> r[i] == s[i]
    ensures forall i :: 0 <= i < |s| && IsAlpha(s[i]) ==> (IsUpper(r[i]) <==> i == 0 || !IsAlpha(s[i - 1]))
  {
    seq(|s|, i requires 0 <= i < |s| =>
      if !IsAlpha(s[i]) then s[i]
      else if i > 0 && IsAlpha(s[i - 1]) then ToLower(s[i])
      else ToUpper(s[i]))
  }

  /** `s.replace(' ', '')`. */
  function RemoveSpaces(s: string): (r: string)
    ensures ' ' !in r
    ensures |r| <= |s|
    ensures forall c :: c in r ==> c in s
  {
    if |s| == 0 then ""
    else if s[0] == ' ' then RemoveSpaces(s[1..])
    else [s[0]] + RemoveSpaces(s[1..])
  }

  /** The characters of `s` that `wikiword` keeps (word characters and `-`). */
  function KeptChars(s: string): string {
    if |s| == 0 then ""
    else if IsKept(s[0]) then [s[0]] + KeptChars(s[1..])
    else KeptChars(s[1..])
  }

  /** Turns a string into a word suitable for a wiki URL. */
  function WikiWord(s: string): (r: string)
    ensures ' ' !in r
    ensures forall i :: 0 <= i < |r| ==> IsKept(r[i])
  {
    var b := BlankOut(s);
    var r := RemoveSpaces(Title(b));
    assert forall c :: c in r ==> c in Title(b);
    assert forall i :: 0 <= i < |r| ==> IsKept(r[i]) by {
      forall i | 0 <= i < |r| ensures IsKept(r[i]) {
        assert r[i] in Title(b);
        var j :| 0 <= j < |b| && Title(b)[j] == r[i];
        assert r[i] != ' ';
      }
    }
    r
  }

  lemma {:induction false} RemoveSpacesLower(s: string)
    ensures RemoveSpaces(Lower(s)) == Lower(RemoveSpaces(s))
  {
    if |s| > 0 {
      assert Lower(s)[1..] == Lower(s[1..]);
      RemoveSpacesLower(s[1..]);
      if s[0] != ' ' {
        assert Lower([s[0]] + RemoveSpaces(s[1..])) == [ToLower(s[0])] + Lower(RemoveSpaces(s[1..]));
      }
    }
  }

  lemma {:induction false} RemoveSpacesBlankOut(s: string)
    ensures RemoveSpaces(BlankOut(s)) == KeptChars(s)
  {
    if |s| > 0 {
      assert BlankOut(s)[1..] == BlankOut(s[1..]);
      RemoveSpacesBlankOut(s[1..]);
    }
  }

  /** Up to letter case, `wikiword(s)` is exactly the word characters and
      hyphens of `s`, in order: only case changes and removals happen. */
  lemma WikiWordKeepsWordChars(s: string)
    ensures Lower(WikiWord(s)) == Lower(KeptChars(s))
  {
    var b := BlankOut(s);
    var t := Title(b);
    RemoveSpacesLower(t);
    RemoveSpacesLower(b);
    assert Lower(t) == Lower(b);
    RemoveSpacesBlankOut(s);
  }

  /** An independent reading of `wikiword`, one character of `s` at a time:
      a character outside `[\w-]` is dropped and ends a word, a letter is
      upper-cased when it starts a run of letters and lower-cased inside one,
      and every other kept character is copied. */
  function WikiCase(s: string, afterLetter: bool): string {
    if |s| == 0 then ""
    else if !IsKept(s[0]) then WikiCase(s[1..], false)
    else if IsAlpha(s[0]) then [if afterLetter then ToLower(s[0]) else ToUpper(s[0])] + WikiCase(s[1..], true)
    else [s[0]] + WikiCase(s[1..], false)
  }

  /** From position `k` on, `wikiword` produces what the reading above
      produces, given whether a letter precedes `k`. */
  lemma {:induction false} WikiWordSuffix(s: string, k: nat)
    requires k <= |s|
    ensures RemoveSpaces(Title(BlankOut(s))[k..]) == WikiCase(s[k..], k > 0 && IsAlpha(s[k - 1]))
    decreases |s| - k
  {
    var t := Title(BlankOut(s));
    if k < |s| {
      WikiWordSuffix(s, k + 1);
      assert t[k..][1..] == t[k + 1..];
      assert s[k..][1..] == s[k + 1..];
      assert k > 0 ==> IsAlpha(BlankOut(s)[k - 1]) == IsAlpha(s[k - 1]);
    }
  }

  /** `wikiword` CamelCases: each run of letters starts with a capital and
      continues in lower case, and everything outside `[\w-]` is removed. */
  lemma WikiWordCamelCase(s: string)
    ensures WikiWord(s) == WikiCase(s, false)
  {
    WikiWordSuffix(s, 0);
    assert Title(BlankOut(s))[0..] == Title(BlankOut(s));
    assert s[0..] == s;
  }

  // ---- parse_skycoord ---------------------------------------------------

  /** The `(ra, dec)` pair `parse_skycoord` hands to astropy when `dec` is
      not given: `ra` is split on single spaces; two tokens become the two
      coordinates, six tokens become two space-joined triples, and any
      other count leaves the arguments as they were. */
  function SplitSkyCoord(ra: string, dec: Option<string>): (r: (string, Option<string>))
    ensures dec.Some? ==> r == (ra, dec)
    ensures dec.None? && r.1.Some? ==> r.0 + " " + r.1.value == ra
    ensures dec.None? && |Split(ra, ' ')| == 2 ==> r.1.Some? && ' ' !in r.0 && ' ' !in r.1.value
    ensures dec.None? && |Split(ra, ' ')| == 6 ==>
              r.1.Some? && Split(r.0, ' ') == Split(ra, ' ')[..3]
              && Split(r.1.value, ' ') == Split(ra, ' ')[3..]
    ensures dec.None? && |Split(ra, ' ')| != 2 && |Split(ra, ' ')| != 6 ==> r == (ra, None)
  {
    if dec.Some? then (ra, dec)
    else
      var a := Split(ra, ' ');
      JoinSplit(ra, ' ');
      if |a| == 2 then
        assert Join(a, " ") == a[0] + " " + a[1];
        (a[0], Some(a[1]))
      else if |a| == 6 then
        var lo := Join(a[..3], " ");
        var hi := Join(a[3..], " ");
        JoinAppend(a[..3], a[3..], " ");
        assert a[..3] + a[3..] == a;
        SplitJoin(a[..3], ' ');
        SplitJoin(a[3..], ' ');
        (lo, Some(hi))
      else (ra, None)
  }
}

=== FILE: values.dfy ===
/** The dynamically typed values that flow through the system: the Python
    objects found in property records, database rows and JSON documents, and
    the exceptions its operations raise. */
module Values {
  import opened Wrappers

  /** Bound flags of a `psycopg2.extras.NumericRange`: the default `'[)'`,
      or `'[]'` when both ends are included. */
  datatype Bounds = ClosedOpen | Closed

  datatype Value =
    | Null                                  // Python None / SQL NULL
    | Bool(b: bool)
    | Int(i: int)
    | Float(f: real)                        // IEEE rounding is not modelled
    | NpInt(ni: int)                        // numpy.integer
    | NpFloat(nf: real)                     // numpy.floating
    | Str(s: string)
    | List(items: seq<Value>)
    | Interval(lo: real, hi: real, bounds: Bounds)   // NumericRange
    | Dict(fields: map<string, Value>)      // a JSON object
    | Opaque(tag: string)                   // datetime and other library objects

  /** A Python dict of column name to value (a record, a bind map, a row). */
  type Record = map<string, Value>

  /** `isinstance(v, (int, float))`: Python's bool is an int, numpy.floating
      is a float, and on the 64-bit Python 2 the system targets the default
      numpy integer is an int too. */
  predicate IsNumber(v: Value) {
    v.Bool? || v.Int? || v.Float? || v.NpInt? || v.NpFloat?
  }

  /** The numeric value Python arithmetic sees; `None` where `abs`, `+` or
      `-` would raise a `TypeError`. */
  function AsReal(v: Value): (r: Option<real>)
    ensures r.Some? <==> IsNumber(v)
  {
    match v
    case Bool(b) => Some(if b then 1.0 else 0.0)
    case Int(i) => Some(i as real)
    case Float(f) => Some(f)
    case NpInt(i) => Some(i as real)
    case NpFloat(f) => Some(f)
    case _ => None
  }

  /** SQL `a = b` in a WHERE clause: NULL on either side never matches. */
  predicate SqlEq(a: Value, b: Value) {
    a != Null && b != Null && a == b
  }

  /** The exceptions raised by the modelled operations. */
  datatype Error =
    | DatabaseKeyError(missing: seq<string>, given: set<string>)
    | MissingDataError(entity: string)
    | KeyError(key: string)
    | TypeError(what: string)
    | AttributeError(what: string)
    | ValueError(what: string)
    | IndexError(what: string)
    | NameError(name: string)
    | UnclosedTemplate(name: string)
    | UnknownTypeCode(code: string)
    | UnexpectedPropertyType(kind: string)
    | DatabaseError(what: string)
    | CompletenessViolation(stars: set<Value>)

  /** `d[k]` on a Python dict. */
  function Get(d: Record, k: string): (r: Result<Value, Error>)
    ensures r.Ok? <==> k in d
    ensures r.Ok? ==> r.value == d[k]
    ensures r.Err? ==> r.error == KeyError(k)
  {
    if k in d then Ok(d[k]) else Err(KeyError(k))
  }
}

=== FILE: wrappers.dfy ===
/** Failure-compatible wrappers used by every module of the model.
    `Option` stands for a Python value that may be `None`; `Result` for a
    call that either returns or raises one of the exceptions in `Values.Error`. */
module Wrappers {

  datatype Option<+T> = None | Some(value: T) {
    predicate IsFailure() { None? }

    function PropagateFailure<U>(): Option<U>
      requires None?
    {
      None
    }

    function Extract(): T
      requires Some?
    {
      value
    }
  }

  datatype Result<+R, +E> = Ok(value: R) | Err(error: E) {
    predicate IsFailure() { Err? }

    function PropagateFailure<U>(): Result<U, E>
      requires Err?
    {
      Err(error)
    }

    function Extract(): R
      requires Ok?
    {
      value
    }
  }
}
